=== FILE: README.md ===
# Smart container registry backend — a Dafny model of its decision core

This project models the decision logic of a container-registry management backend,
written in Python, and proves properties of that model in Dafny. The backend watches
a Docker registry, asks a Kubernetes namespace which images it runs, evaluates cleanup
rules and proposes deletions for an administrator to approve. It also purges and
deletes images on request, and keeps an inventory table of images in sync. The
modelled parts are:

- **Keyed store and rule repository** (`keyed_store.dfy`, `rules.dfy`). The base
  repository is an id-keyed list of records. The rule repository adds the rule
  queries, activation and the three default rules.
- **Rule engine** (`rule_engine.dfy`). There are four rule kinds, a deployment veto,
  matching in active-rule order, and default bootstrapping.
- **Image references** (`image_ref.dfy`). This strips a `host:port/` prefix and
  splits `name:tag`.
- **Registry service read side** (`registry.dfy`). This joins the catalog with the
  deployed set and covers criteria parsing, the filter predicate and the filtered
  listing with per-tag details.
- **Whole-image deletion and its verification** (`registry_delete.dfy`).
- **Purge** (`registry_purge.dfy`). This covers criteria fallback, preview,
  execution, accounting and full-deletion flags.
- **Deletion proposals** (`proposals.dfy`). This covers create with de-duplication,
  approve, reject, statistics and worker health.
- **One rule-evaluation pass of the worker** (`evaluation.dfy`).
- **Image inventory** (`image_inventory.dfy`). This covers upsert by name,
  mark-inactive, bulk sync and purge of old inactive rows, all as map operations.
- **Markdown normaliser** (`markdown.dfy`). This is the rewrite applied to language
  model answers.

Shared definitions live in `wrappers.dfy` (Option, Result), `seqs.dfy` (filtering,
counting, subsequences), `text.dfy` (substrings, ASCII lower-casing, split and join)
and `external.dfy`.

`external.dfy` holds answers from the outside world and the time units. Every call to
the registry, the cluster, the database commit or the clock becomes a parameter. Such
a parameter is either a value of type `Answer<T>` (the value returned, or the message
of the exception raised) or a function from arguments to such answers. Instants are
integers in microseconds, Python's `datetime` resolution. A parsed date records
whether it carried a UTC offset, because comparing such an aware date with a naive
`now()` raises in Python and the code treats that as "no match".

## Model

| member | source | states |
|---|---|---|
| KeyedStore.IndexOf | app/repositories/base_repository.py:18-24 | the first position whose record has the id, or none when no record has it |
| KeyedStore.GetById | app/repositories/base_repository.py:18-24 | a record is returned exactly when one with that id exists, and it is a stored record with that id |
| KeyedStore.GetByIdUnique | app/repositories/base_repository.py:18-24 | in a store with distinct ids, looking up a stored record's id returns that record |
| KeyedStore.Exists | app/repositories/base_repository.py:101-108 | true iff the id is among the stored ids; in a valid table such an id is below the next id the sequence hands out |
| KeyedStore.CountDistinctIds | app/repositories/base_repository.py:94-100 | in a table with distinct ids, the row count equals the number of distinct ids stored, so it is zero exactly when no id exists |
| KeyedStore.GetAll | app/repositories/base_repository.py:26-32 | at most `limit` records, the stored records from position `skip` on, in order, and exactly `limit` or all the rest when enough or too few remain |
| KeyedStore.Matching | app/repositories/base_repository.py:42-52 | exactly the stored records that pass the field test, in table order |
| KeyedStore.GetManyWhere | app/repositories/base_repository.py:42-52 | at most `limit` records, position by position the matching records from `skip` on in table order, exactly `limit` or all remaining matches; with `skip` 0 and no more than `limit` matches, every matching record in order |
| KeyedStore.Create | app/repositories/base_repository.py:54-64 | appends one record with a fresh id, raises the count by one and keeps ids distinct |
| KeyedStore.BulkCreate | app/repositories/base_repository.py:110-120 | appends one record per input, in order and with fresh ids, and raises the count by the number of inputs |
| KeyedStore.Update | app/repositories/base_repository.py:66-79 | a missing id returns none and changes nothing; otherwise only that record's value changes, ids and count are kept |
| KeyedStore.UpdateThenGet | app/repositories/base_repository.py:66-79 | reading an updated id returns exactly the record the update reported |
| KeyedStore.Delete | app/repositories/base_repository.py:81-92 | true exactly when the id existed; then the count drops by one, the id is gone and every other record stays |
| Rules.UnknownKeysIgnored | app/repositories/base_repository.py:72-74 | an update whose keys are all non-attributes leaves the rule unchanged |
| Rules.ActiveFlagUntouched | app/repositories/base_repository.py:72-74 | an update that does not set `is_active` keeps the rule's active flag |
| Rules.UpdateRule | app/repositories/base_repository.py:66-79 | a rule update acts exactly when the id exists, and the stored rule then carries the applied fields |
| Rules.GetActiveRules | app/repositories/rule_repository.py:13-15 | exactly the active stored rules, in store order |
| Rules.GetByType | app/repositories/rule_repository.py:21-23 | the first 100 stored rules of the requested type in table order, or all of them when fewer exist: exactly as many as that, position by position, so every one of them when no more than 100 exist |
| Rules.SetRuleActive | app/repositories/rule_repository.py:25-31 | succeeds exactly when the id exists; that rule then has the requested flag and nothing else changes; a missing id changes nothing |
| Rules.ActivateRule | app/repositories/rule_repository.py:25-27 | true exactly when the id exists, and the rule is then active; a missing id changes nothing |
| Rules.DeactivateRule | app/repositories/rule_repository.py:29-31 | true exactly when the id exists, and the rule is then inactive; a missing id changes nothing |
| Rules.CreateDefaultRules | app/repositories/rule_repository.py:33-65 | adds exactly three rules: age 30 days (active), tag patterns dev/test/staging excluding latest/prod/production (active), and size 1024 MB (inactive) |
| Rules.DefaultsOnEmptyStore | app/repositories/rule_repository.py:42-61 | on an empty store the defaults yield exactly two active rules |
| RuleEngine.Matches | app/services/rule_engine.py:57-134 | an unknown kind never matches; age matches iff a naive date is strictly before now minus max_age_days (default 30); count iff rank > keep_count (default 10); size iff size > max_size_mb (default 1000) MB; tag iff no tag is excluded and, given patterns, some lowered pattern occurs in some lowered tag |
| RuleEngine.CheckAgeRule | app/services/rule_engine.py:69-92 | matches iff the creation date is present, naive and strictly before now minus max_age_days (default 30) |
| RuleEngine.CheckCountRule | app/services/rule_engine.py:94-98 | matches iff the rank is at least keep_count + 1 (11 by default) |
| RuleEngine.CheckTagRule | app/services/rule_engine.py:100-124 | no tag is excluded, and either no pattern is given or some tag contains some pattern ignoring case |
| RuleEngine.CheckSizeRule | app/services/rule_engine.py:126-134 | matches iff the size exceeds max_size_mb MiB (1000 MiB by default) |
| RuleEngine.AgeRuleBoundary | app/services/rule_engine.py:69-92 | with the default rule, a naive date 31 days back matches, one 29 days back does not, and a missing or offset-bearing date never matches |
| RuleEngine.ExclusionWins | app/services/rule_engine.py:100-124 | any excluded tag among the image's tags defeats a tag rule whatever its patterns |
| RuleEngine.Ids | app/services/rule_engine.py:51-53 | the rule ids, position by position |
| RuleEngine.MatchingIds | app/services/rule_engine.py:51-55 | the ids of exactly the matching rules, in rule order |
| RuleEngine.EvaluateImage | app/services/rule_engine.py:43-55 | a deployed image gets no ids; otherwise exactly the ids of active rules that match, in active-rule order |
| RuleEngine.ActiveMatch | app/services/rule_engine.py:43-55 | an id is reported iff some active stored rule with that id matches |
| RuleEngine.ActiveMatchSound | app/services/rule_engine.py:43-55 | every reported id belongs to an active stored rule that matches |
| RuleEngine.InitializeDefaultRules | app/services/rule_engine.py:136-140 | with an active rule present nothing is created; otherwise the three defaults are added; afterwards some rule is active |
| RuleEngine.InitializeTwiceCreatesOnce | app/services/rule_engine.py:136-140 | a second bootstrap creates nothing and changes nothing |
| ImageRef.NormalizeImageName | app/external/registry_client.py:36-42 | unchanged without `/`; the first segment is dropped iff it contains `:` |
| ImageRef.StripsHostWithPort | app/external/registry_client.py:39-41 | `host:port/rest` normalises to `rest` |
| ImageRef.KeepsHostWithoutPort | app/external/registry_client.py:39-42 | `host/rest` without a port is kept whole |
| ImageRef.ExtractNameAndTag | app/external/registry_client.py:44-50 | with a `:` the name and tag rejoin with `:` to the normalised string and the tag has no `:`; without one the tag is `latest` |
| Registry.NormalizedDeployed | app/services/registry_service.py:55-61 | every deployed reference is filed under its normalised name and tag, and every filed pair comes from a deployed reference |
| Registry.DeployedTagsOf | app/services/registry_service.py:70-76 | only listed tags; every listed running tag; the first listed tag appended when `latest` runs but is not listed; as many entries as distinct listed running tags plus one for that fallback, none repeated without it |
| Registry.NormalizedDeployedMeaning | app/services/registry_service.py:55-61 | a name is grouped iff some deployed reference normalises to it |
| Registry.StatusOf | app/services/registry_service.py:63-87 | tag count is the listing's length; deployed iff some deployed reference names it; deployed tags are listed tags in the deployed set (plus the `latest` fallback), empty when not deployed, as many as the distinct listed deployed tags plus one for the fallback, and none repeated without it |
| Registry.GetImagesWithDeploymentStatus | app/services/registry_service.py:45-87 | one record per catalog entry, in catalog order |
| Registry.FindByName | app/services/registry_service.py:269-270 | the first record with the name, no earlier record carrying it, or none when no record has it |
| Registry.FindInStatusListing | app/services/registry_service.py:269-270 | a listing record exists for a name iff the catalog holds it, and it is that name's status |
| Registry.CriteriaOf | app/services/registry_service.py:13-21 | the criterion whose value is the string, or none when no criterion has that value |
| Registry.ParseCriteria | app/services/registry_service.py:135-141 | the criterion named by the lower-cased string, or ALL when none is |
| Registry.ParseCriteriaIgnoresCase | app/services/registry_service.py:139 | parsing a string and its lower-cased form agree |
| Registry.ParseCriteriaValue | app/services/registry_service.py:139 | every spelling of a criterion's value in any case parses to that criterion |
| Registry.MatchesFilter | app/services/registry_service.py:581-653 | ALL always; DEPLOYED / NOT_DEPLOYED by the flag; UNUSED_TAGS iff more tags than deployed tags; the size and date criteria iff some tag's answered size exceeds, or naive date precedes, the threshold |
| Registry.DetailFor | app/services/registry_service.py:155-175 | the detail entry reports the tag and whether it is deployed; a raising call gives size 0, no dates and the error |
| Registry.WithDetails | app/services/registry_service.py:153-176 | the record gains one detail entry per tag and is otherwise unchanged |
| Registry.Selected | app/services/registry_service.py:144-151 | exactly the status records that pass the filter; ALL keeps the whole listing |
| Registry.AttachDetails | app/services/registry_service.py:153-178 | each selected record with its details, in order |
| Registry.FilterImages | app/services/registry_service.py:143-180 | exactly the selected status records in order, each with its details attached when requested; every record passing the filter appears; ALL keeps every catalog entry |
| Registry.GetFilteredImages | app/services/registry_service.py:126-180 | with the parsed criterion, exactly the status records passing the filter, with details when requested and every passing record present; an unknown criteria string lists every catalog entry in catalog order |
| RegistryDelete.TargetDeployedMeaning | app/services/registry_service.py:269-272 | the delete flow refuses exactly the images the catalog holds that are in the answered deployed set |
| RegistryDelete.DeleteEntireImage | app/services/registry_service.py:249-338 | delete is called iff tags exist, the image is not deployed and the user confirmed; a listing error, no tags, deployed and unconfirmed each give their refusal; success iff the delete answered and one of 3 relistings was empty, and then the deleted tags are the pre-delete tags |
| RegistryDelete.AwaitEmptyListing | app/services/registry_service.py:302-314 | reports emptied iff one of the first 3 relistings is empty, stopping at the first empty one; a raising relisting ends the wait with its message, every earlier listing having been non-empty |
| RegistryDelete.VerifyImageDeletionAsWritten | app/services/registry_service.py:551-579 | deleted iff no tags remain and the name is absent from the catalog; a raising call gives not deleted with an error |
| RegistryDelete.EmptyCatalogEntryNotDeleted | app/services/registry_service.py:558-571 | a catalog entry with no tags is not counted as deleted by the code as written |
| RegistryDelete.VerifyImageDeletion | app/services/registry_service.py:551-579 | corrected: deleted iff no tags remain and the image is not deployed |
| RegistryDelete.DeletableImageVerifies | app/services/registry_service.py:558-571 | an image the delete flow may delete is verified deleted once its listing is empty |
| RegistryPurge.ParsePurgeCriteria | app/services/registry_service.py:392-398 | the criterion named by the lower-cased string, or NOT_DEPLOYED when none is |
| RegistryPurge.PurgeSelectionAsWritten | app/services/registry_service.py:401-407 | as written: exactly the records passing the criterion `get_filtered_images` parses from the raw string (ALL fallback), each carrying its details |
| RegistryPurge.PurgeSelection | app/services/registry_service.py:392-407 | corrected selection: exactly the records passing the purge's own parsed criterion, each carrying its details |
| RegistryPurge.UnknownCriteriaSelectsEverything | app/services/registry_service.py:396-407 | as written, an unknown criteria string selects every catalog entry, deployed ones included |
| RegistryPurge.UnknownCriteriaSelectsUndeployed | app/services/registry_service.py:396-398 | corrected, an unknown criteria string selects only undeployed images |
| RegistryPurge.TagsToDelete | app/services/registry_service.py:415 | exactly the listed tags that are not deployed |
| RegistryPurge.PairsOf | app/services/registry_service.py:484-500 | one delete call per deletable tag of the image, in order |
| RegistryPurge.PairsOfMembership | app/services/registry_service.py:469-500 | a call is made for (image, tag) iff the tag is deletable |
| RegistryPurge.PairsMembership | app/services/registry_service.py:467-500 | over a selection, a call is made iff some selected image has that deletable tag |
| RegistryPurge.PreviewCountsAttempts | app/services/registry_service.py:413-416 | the preview's tag count equals the number of delete calls an execution makes |
| RegistryPurge.EstimatedSpace | app/services/registry_service.py:409-420 | zero when no record carries details; never negative when no detail size is |
| RegistryPurge.UndeployedSize | app/services/registry_service.py:417-420 | zero when every entry is deployed; never negative when no size is |
| RegistryPurge.UndeployedSizeIsPlanned | app/services/registry_service.py:413-420 | on a record with its details attached, the estimate's undeployed sizes are exactly the sizes credited to the record's tags to delete |
| RegistryPurge.DeletedSizeAllSucceed | app/services/registry_service.py:484-502 | when every delete call of a record answers true, the sizes it frees are all the sizes credited to its tags to delete |
| RegistryPurge.RecordFreedIsEstimate | app/services/registry_service.py:409-502 | for one detailed record whose every delete succeeds, the space freed equals the space estimated for it |
| RegistryPurge.FreedIsEstimate | app/services/registry_service.py:409-502 | over detailed records, when every delete call answers true, the space freed in total equals the preview's estimated space |
| RegistryPurge.ExecutionFreesEstimate | app/services/registry_service.py:409-538 | a reported execution over detailed records with summary success has freed exactly the estimated space |
| RegistryPurge.FirstSize | app/services/registry_service.py:492-497 | the size of the first detail entry for the tag, or 0 when there is none |
| RegistryPurge.PreviewOf | app/services/registry_service.py:437-446 | a preview entry shows the name, tag count, deployment and exactly the deletable tags |
| RegistryPurge.RemainingTags | app/services/registry_service.py:520 | exactly the listed tags that are deployed |
| RegistryPurge.FullyPurgedByCount | app/services/registry_service.py:519-523 | an image is fully deleted iff it had deletable tags, every call succeeded and no tag is deployed |
| RegistryPurge.FullyPurgedNames | app/services/registry_service.py:519-523 | exactly the names of images fully deleted |
| RegistryPurge.PurgeImageTags | app/services/registry_service.py:484-518 | one call per deletable tag, each counted once as success or error; the deleted list holds exactly the successes with their sizes, which add up to the sizes of the tags the registry deleted |
| RegistryPurge.PreviewReport | app/services/registry_service.py:424-449 | counts images and delete calls and shows at most the first 10 images; confirmation is asked iff not a dry run |
| RegistryPurge.ProcessImage | app/services/registry_service.py:467-525 | an image with nothing to delete adds no entry; otherwise each call is accounted and the full-deletion flag is set by the count test of `purge_images` |
| RegistryPurge.OutcomesForSnoc | app/services/registry_service.py:467-525 | accounting one more image extends the running tally by that image's outcome |
| RegistryPurge.TallyOfAccounts | app/services/registry_service.py:452-525 | the running tally after some images accounts for exactly their calls, successes, errors, freed space and full deletions |
| RegistryPurge.TallyOfReport | app/services/registry_service.py:527-538 | the final report accounts for every image |
| RegistryPurge.ExecuteDeletes | app/services/registry_service.py:451-538 | successes plus errors equal the calls made; summary success iff no error; freed space is the sum of deleted sizes, record by record the sizes of the tags the registry deleted; full deletions as above |
| RegistryPurge.ExecutePurge | app/services/registry_service.py:424-538 | a dry run or a missing confirmation gives the preview and makes no call; otherwise the report accounts for every call and frees the sizes of the tags the registry deleted |
| RegistryPurge.ListingCallsAreSafe | app/services/registry_service.py:401-500 | every delete call for records of the status listing, whichever selection they come from, is for a catalog image's listed tag outside the answered deployed set |
| RegistryPurge.PurgeImages | app/services/registry_service.py:382-540 | corrected: preview iff dry run or unconfirmed; otherwise the calls are exactly those of the NOT_DEPLOYED-fallback selection, successes plus errors equal the calls, summary success iff no error, a fully successful run frees exactly the space its preview estimates, and no tag of the answered deployed set is ever deleted |
| RegistryPurge.PurgeImagesAsWritten | app/services/registry_service.py:382-540 | as written: preview iff dry run or unconfirmed; otherwise the calls are exactly those of the raw-string selection, successes plus errors equal the calls, summary success iff no error, a fully successful run frees exactly the space its preview estimates, and no tag of the answered deployed set is ever deleted |
| Proposals.Reason | app/workers/rule_evaluation_worker.py:148-157 | the reason starts with "Matches rules: " and lists each rule as `name (type)` |
| Proposals.Descriptions | app/workers/rule_evaluation_worker.py:148-151 | one `name (type)` per matched rule, in order |
| Proposals.ReasonSnoc | app/workers/rule_evaluation_worker.py:148-157 | one more matched rule appends `, ` and its `name (type)` to the reason, so the reason lists every rule in order |
| Proposals.NewProposal | app/workers/rule_evaluation_worker.py:148-159 | pending for the candidate's image and tag, with the clock's id and timestamp, the reason built from its rules, its evaluation, and none of the keys a transition adds |
| Proposals.CreateDeletionProposal | app/workers/rule_evaluation_worker.py:146-179 | the new proposal is pending for the candidate's image and tag; it is appended iff no pending one exists for that pair; afterwards one exists |
| Proposals.CreatePreservesUniquePending | app/workers/rule_evaluation_worker.py:165-177 | creating keeps at most one pending proposal per image and tag |
| Proposals.CreateIsIdempotent | app/workers/rule_evaluation_worker.py:165-177 | creating again for the same image and tag changes nothing |
| Proposals.FindById | app/workers/rule_evaluation_worker.py:192-195 | the first proposal with the id, or none when no proposal has it |
| Proposals.FindByIdAfterUpdate | app/workers/rule_evaluation_worker.py:192-195 | a transition that keeps every id keeps every lookup |
| Proposals.ApproveDeletionProposal | app/workers/rule_evaluation_worker.py:190-225 | unknown or settled ids change nothing and fail; a pending one alone becomes approved with `executed_at` on a truthy delete, failed on a falsy one, failed with error and `failed_at` on an exception; success iff approved |
| Proposals.RejectDeletionProposal | app/workers/rule_evaluation_worker.py:227-244 | unknown or settled ids change nothing and fail; a pending one alone becomes rejected with `rejected_at`, and success is true |
| Proposals.ResolvePreservesUniquePending | app/workers/rule_evaluation_worker.py:197-244 | settling a proposal keeps at most one pending proposal per image and tag |
| Proposals.TransitionsPreserveUniquePending | app/workers/rule_evaluation_worker.py:190-244 | approve and reject keep at most one pending proposal per image and tag |
| Proposals.SettledOnce | app/workers/rule_evaluation_worker.py:197-237 | once approved or rejected, a proposal is never changed by a later approve or reject |
| Proposals.StatusCountsSum | app/workers/rule_evaluation_worker.py:246-267 | the four status counts add up to the number of proposals |
| Proposals.GetProposalStats | app/workers/rule_evaluation_worker.py:246-267 | each count is the number of proposals with that status, and the counts sum to the total |
| Proposals.Stop | app/workers/rule_evaluation_worker.py:59-65 | a stopped worker is not healthy, whatever its task |
| Proposals.IsHealthy | app/workers/rule_evaluation_worker.py:63-65 | healthy in exactly one state: running, with a task that has not finished |
| Evaluation.TagDatas | app/workers/rule_evaluation_worker.py:88-100 | one record to evaluate per detail entry of an image, in order |
| Evaluation.TagDataOfOrigin | app/workers/rule_evaluation_worker.py:88-100 | every evaluated record comes from one detail entry of one listed image |
| Evaluation.MatchedRules | app/workers/rule_evaluation_worker.py:104-115 | one described rule per matching id whose rule exists, each describing a stored rule |
| Evaluation.DeletionCandidates | app/workers/rule_evaluation_worker.py:86-122 | a candidate for each evaluated record with matching rules, carrying exactly those ids |
| Evaluation.ProcessDeletionCandidates | app/workers/rule_evaluation_worker.py:129-144 | keeps every proposal and adds at most one per candidate |
| Evaluation.ProcessAppends | app/workers/rule_evaluation_worker.py:129-144 | processing candidates only appends proposals |
| Evaluation.ProcessOrigin | app/workers/rule_evaluation_worker.py:133-144 | every appended proposal comes from an undeployed candidate |
| Evaluation.ProcessKeepsUniquePending | app/workers/rule_evaluation_worker.py:129-144 | processing keeps at most one pending proposal per image and tag |
| Evaluation.ProcessKeepsPending | app/workers/rule_evaluation_worker.py:129-144 | a pending proposal for an image and tag is still there after processing |
| Evaluation.ProcessCovers | app/workers/rule_evaluation_worker.py:129-144 | after processing, every undeployed candidate has a pending proposal for its image and tag |
| Evaluation.PassNeedsActiveRule | app/workers/rule_evaluation_worker.py:67-122 | a pass has a candidate only when some rule is active |
| Evaluation.CandidateJustified | app/workers/rule_evaluation_worker.py:88-142 | a proposal from an undeployed candidate is pending, names a listed tag outside the deployed set, and carries the rules it matches |
| Evaluation.PassJustified | app/workers/rule_evaluation_worker.py:67-144 | every proposal a pass appends is justified that way |
| Evaluation.EvaluateAllImages | app/workers/rule_evaluation_worker.py:67-127 | corrected pass: no active rules means no change; proposals are only appended, each justified; every undeployed candidate ends with a pending proposal; uniqueness of pending proposals is kept |
| Evaluation.EvaluateAllImagesAsWritten | app/workers/rule_evaluation_worker.py:71-84 | as written, a pass with active rules raises before creating anything |
| Evaluation.AsWrittenMissesProposals | app/workers/rule_evaluation_worker.py:81-84 | whenever the corrected pass would create a proposal, the pass as written raises instead |
| ImageInventory.Refreshed | app/repositories/image_repository.py:93-120 | an existing row becomes active and seen now, keeps its first detection, keeps each field not provided and changes its description only to a non-empty value |
| ImageInventory.Created | app/repositories/image_repository.py:122-154 | a new row is active, first detected and seen now, with counters 0 and flags false unless provided |
| ImageInventory.CreateOrUpdateImage | app/repositories/image_repository.py:83-159 | fails without a name or on a commit error; otherwise stores exactly one row under the name, refreshed or created |
| ImageInventory.UpsertIdempotent | app/repositories/image_repository.py:83-159 | repeating an upsert at the same instant changes nothing |
| ImageInventory.MarkImagesAsInactive | app/repositories/image_repository.py:161-183 | the names are kept; listed and unfetched rows are untouched; fetched unlisted rows are deactivated |
| ImageInventory.Deactivated | app/repositories/image_repository.py:168-176 | exactly the names active before and inactive after |
| ImageInventory.MarkInactiveExact | app/repositories/image_repository.py:161-183 | deactivates exactly the fetched active rows not listed, and returns their number |
| ImageInventory.MarkInactiveComplete | app/repositories/image_repository.py:161-183 | when fewer than 1000 rows were fetched, the active rows afterwards are exactly the active listed ones |
| ImageInventory.SyncEach | app/repositories/image_repository.py:195-213 | every payload is counted once, as synced or as an error |
| ImageInventory.SyncedRowsFresh | app/repositories/image_repository.py:195-213 | syncing keeps every existing name, and each synced name is active and seen now |
| ImageInventory.SyncedNames | app/repositories/image_repository.py:195-213 | a name is synced iff some payload carrying it was stored |
| ImageInventory.SyncErrors | app/repositories/image_repository.py:195-213 | the error count is the number of payloads not stored |
| ImageInventory.Unstored | app/repositories/image_repository.py:195-213 | exactly the positions of payloads not stored |
| ImageInventory.BulkSyncImages | app/repositories/image_repository.py:185-221 | synced plus errors equal the payloads; no existing name is dropped |
| ImageInventory.BulkSyncActiveRows | app/repositories/image_repository.py:185-221 | after a sync, a row is active iff some stored payload named it |
| ImageInventory.DeleteInactiveImages | app/repositories/image_repository.py:263-290 | removes exactly the inactive rows last seen before the cutoff, counts them and never removes an active row |
| ImageInventory.PurgeIdempotent | app/repositories/image_repository.py:263-290 | purging twice with the same cutoff removes nothing more |
| ImageInventory.PurgeKeepsSynced | app/repositories/image_repository.py:185-290 | an image stored by a sync survives any later purge of inactive rows |
| Markdown.LeadEnd | app/external/groq_client.py:168 | the length of the leading whitespace |
| Markdown.TrailStart | app/external/groq_client.py:168 | where the trailing whitespace starts |
| Markdown.Strip | app/external/groq_client.py:168 | no longer than the input, and neither end of the result is whitespace |
| Markdown.StripMeaning | app/external/groq_client.py:168 | stripping yields a slice of the input between whitespace-only margins |
| Markdown.StripBlank | app/external/groq_client.py:168 | stripping yields the empty string iff the input is all whitespace |
| Markdown.Replace | app/external/groq_client.py:171-181 | replacing by a string no longer than the pattern never lengthens the text |
| Markdown.ReplaceAbsent | app/external/groq_client.py:171-181 | replacing an absent pattern changes nothing |
| Markdown.ReplaceShortens | app/external/groq_client.py:180-181 | replacing a present pattern by a shorter string shortens the text, so the blank-line loop terminates |
| Markdown.ReplaceKeepsHead | app/external/groq_client.py:171-181 | a replacement that neither removes nor introduces the character keeps a head other than it |
| Markdown.CollapseBlankRuns | app/external/groq_client.py:180-181 | the result has no three consecutive newlines, equals the input when it had none, and keeps a head other than a newline |
| Markdown.Flatten | app/external/groq_client.py:171-177 | the fence and heading rewrites keep a non-whitespace first character off the newline |
| Markdown.Titled | app/external/groq_client.py:184-185 | the result starts with `#`: the input when it does, else the input under the default title |
| Markdown.EnsureSimpleMarkdown | app/external/groq_client.py:164-187 | the output starts with `#` and has no three consecutive newlines; all-whitespace input gives exactly the default title and a blank line |
| Markdown.CleanAnswerOnlyTitled | app/external/groq_client.py:168-187 | a stripped answer without fences, `###` or blank runs comes back unchanged when it starts with `#`, else only prefixed with the default title |
| Markdown.DeepHeadingSurvives | app/external/groq_client.py:176-177 | the single-pass replacements leave `###` in the output for a six-`#` line |
| Markdown.SixHashesFlatten | app/external/groq_client.py:176-177 | the heading rewrites turn six `#` into three |

## Left out

- The worker's asynchronous scheduling loop, its sleeps, cancellation and manual triggers are concurrency; only the health test (running flag, task present and not done) is modelled.
- Network calls are parameters: registry catalog, tag listings, tag details and sizes, deletes, the cluster's deployed set and the database commit outcome. A call that can raise is an `Answer`.
- The registry client's HTTP methods and `delete_image_tag` / `delete_entire_image` are not part of this model; their answers are parameters.
- The language-model calls of the Groq client are left out; only the markdown normaliser is modelled.
- Datetime parsing is abstracted: a date field is absent, unparseable, or an instant plus an "has offset" flag, and `now()` is a parameter.
- Floating point: megabyte conversions, `round(…, 2)`, `total_size_mb`, percentages and `estimated_space_freed_mb` are left out; sizes stay integer bytes.
- A registry answer with `"tags": null` (which would raise in `len`) is not modelled; tag listings are sequences.
- Text.Lower: lower-cases ASCII letters only; Python's `str.lower` also folds other letters, which image tags and criteria names do not use.
- Database sessions, rollbacks, the exception path of `get_by_name`, and the `0` that `mark_images_as_inactive` returns on an exception are left out; a commit error is the only modelled failure of an upsert.
- ImageInventory.BulkSyncImages: reports `synced` in place of the source's created/updated split, which depends on database-generated timestamps; its outer exception handler is left out.
- A dictionary key that is present with a `None` value is treated like an absent key.
- KeyedStore.GetAll, KeyedStore.GetManyWhere, Rules.GetActiveRules, Rules.GetByType, RuleEngine.EvaluateImage: the repository queries have no ORDER BY (base_repository.py, rule_repository.py), so PostgreSQL may return rows in any order, and an updated row may come back later in a scan. The model fixes insertion order, and their positional statements ("from position `skip` on", "the first 100", "in active-rule order") hold for that order only. The result lengths, and the membership statements of results no limit truncates (Rules.GetActiveRules, RuleEngine.ActiveMatch), do not depend on the order. Under another order, for example after `deactivate_rule` then `activate_rule`, the source can return the same rules in a different sequence, and the proposal reason lists them in that sequence.
- Registry.DeployedTagsOf: orders deployed tags by the tag listing, whereas the source builds them from a Python set whose order is unspecified.
- The `namespace` parameter is not a parameter of the model: `v.deployed` is the answer of the namespace-scoped cluster query, empty or partial when that query fails. The purge's safety is therefore relative to that answer, and tags running in other namespaces are not protected.
- Response messages are constructor values, not the French message texts.
- Proposals.NewProposal: the id is the millisecond clock reading as an integer, without the `proposal_` text prefix; equal readings collide as in the source and lookups act on the first match.
- `get_statistics` of the image repository, `get_image_details` and `get_catalog` wrappers of the registry service are not part of this model.
- ImageInventory.MarkInactiveExact: `get_active_images(limit=1000)` is a parameter; the properties assume it returns distinct active rows, most recently seen first (`ActivePage`).
- RegistryPurge.PurgeImages: the fully deleted images are stated as a set of names; error message texts are not modelled.
- Evaluation.EvaluateAllImages: the clock is read once per pass. The source reads `utcnow()` for each proposal's id and `proposed_at` and in each age check, so here one pass's proposals share one id and one timestamp where the source's readings may differ.
- ImageInventory.SyncEach: the clock is read once per sync. The source reads `utcnow()` in each upsert, so here every row stored by one sync has the same `last_seen_at`.
- Logging and prints are left out.

## Findings

| source | as written | input that shows it | evidently intended | confidence | as-written member | corrected member |
|---|---|---|---|---|---|---|
| app/workers/rule_evaluation_worker.py:81-84 | `self.registry_service.ImageFilterCriteria` is looked up on the service instance, but the enum is defined at module level (registry_service.py:13), so the lookup raises AttributeError | any store with one active rule and a catalog with one undeployed tag that the rule matches | the pass lists all images with details and proposes deletions | not executed | Evaluation.EvaluateAllImagesAsWritten, Evaluation.AsWrittenMissesProposals | Evaluation.EvaluateAllImages |
| app/services/registry_service.py:396-407 | the parsed criterion with its NOT_DEPLOYED fallback is never used; the raw string goes to `get_filtered_images`, whose fallback is ALL | `purge_images(filter_criteria="bogus")` on a catalog with a deployed image selects that image | an unknown criterion purges only undeployed images | not executed | RegistryPurge.PurgeImagesAsWritten, RegistryPurge.UnknownCriteriaSelectsEverything | RegistryPurge.PurgeSelection, RegistryPurge.UnknownCriteriaSelectsUndeployed |
| app/services/registry_service.py:558-571 | `effectively_deleted` also requires the name to be missing from the status listing, which holds every catalog name | an image still listed in the catalog with zero tags is reported not deleted | as the note says, no tags left counts as deleted even if still in the catalog, unless the image is in the deployed set | not executed | RegistryDelete.VerifyImageDeletionAsWritten, RegistryDelete.EmptyCatalogEntryNotDeleted | RegistryDelete.VerifyImageDeletion, RegistryDelete.DeletableImageVerifies |

=== FILE: evaluation.dfy ===
/** One pass of the rule-evaluation worker: every tag of every catalog image is
    evaluated against the active rules, and each tag some rule matches and that is not
    deployed becomes a pending deletion proposal. */
module Evaluation {
  import opened Wrappers
  import opened External
  import opened KeyedStore
  import opened Rules
  import opened RuleEngine
  import opened Registry
  import opened Proposals
  import Text

  /** The listing defaults of `get_filtered_images` the pass relies on. */
  const DefaultDaysOld: int := 30
  const DefaultSizeMb: int := 100

  /** The detail entries of a listed image, or none when details were not attached. */
  function Details(img: ImageStatus): seq<DetailedTag> {
    img.detailedTags.GetOr([])
  }

  /** The `image_data` built for one detail entry; the rank is always 0. */
  function TagData(img: ImageStatus, d: DetailedTag): ImageData {
    ImageData(img.name + ":" + d.tag, img.name, d.tag, [d.tag], d.created, d.size, d.isDeployed, 0)
  }

  /** The `image_data` of every detail entry of one image, in tag order. */
  function TagDatas(img: ImageStatus): (r: seq<ImageData>)
    ensures |r| == |Details(img)|
    ensures forall k :: 0 <= k < |r| ==> r[k] == TagData(img, Details(img)[k])
  {
    seq(|Details(img)|, k requires 0 <= k < |Details(img)| => TagData(img, Details(img)[k]))
  }

  /** The `image_data` of the first `n` images, image by image. */
  function TagDataOf(images: seq<ImageStatus>, n: nat): seq<ImageData>
    requires n <= |images|
  {
    if n == 0 then [] else TagDataOf(images, n - 1) + TagDatas(images[n - 1])
  }

  /** Every evaluated record comes from one detail entry of one of the images. */
  lemma {:induction false} TagDataOfOrigin(images: seq<ImageStatus>, n: nat, x: ImageData)
    requires n <= |images| && x in TagDataOf(images, n)
    ensures exists i, k :: 0 <= i < n && 0 <= k < |Details(images[i])| && x == TagData(images[i], Details(images[i])[k])
  {
    if x !in TagDataOf(images, n - 1) {
      var k :| 0 <= k < |TagDatas(images[n - 1])| && TagDatas(images[n - 1])[k] == x;
      assert x == TagData(images[n - 1], Details(images[n - 1])[k]);
    } else {
      TagDataOfOrigin(images, n - 1, x);
    }
  }

  /** The `matching_rules` entries for the matched ids: one per id whose rule is found. */
  function MatchedRules(s: RuleStore, ids: seq<nat>): (r: seq<MatchedRule>)
    ensures |r| <= |ids|
    ensures (forall k :: 0 <= k < |ids| ==> Exists(s, ids[k])) ==> |r| == |ids|
    ensures forall m :: m in r ==>
      && m.id in ids && GetById(s, m.id).Some?
      && var rule := GetById(s, m.id).value.value;
      m.name == rule.name && m.ruleType == rule.ruleType && m.description == rule.description
    decreases |ids|
  {
    if ids == [] then []
    else
      var head := match GetById(s, ids[0])
        case Some(x) => [MatchedRule(ids[0], x.value.name, x.value.ruleType, x.value.description)]
        case None => [];
      head + MatchedRules(s, ids[1..])
  }

  /** The deletion candidates of the evaluated records, in order: those some active rule
      matches. */
  function DeletionCandidates(datas: seq<ImageData>, s: RuleStore, nowUtc: int): (cs: seq<Candidate>)
    ensures |cs| <= |datas|
    ensures forall c :: c in cs ==>
      && c.image in datas
      && c.matchingRuleIds == EvaluateImage(c.image, s, nowUtc) && c.matchingRuleIds != []
      && c.matchingRules == MatchedRules(s, c.matchingRuleIds)
    decreases |datas|
  {
    if datas == [] then []
    else
      var ids := EvaluateImage(datas[0], s, nowUtc);
      var head := if ids != [] then [Candidate(datas[0], ids, MatchedRules(s, ids))] else [];
      head + DeletionCandidates(datas[1..], s, nowUtc)
  }

  /** `_process_deletion_candidates`: a proposal for every candidate that is not
      deployed, through the duplicate check. */
  function ProcessDeletionCandidates(ps: seq<Proposal>, cs: seq<Candidate>, nowUtc: int, idMillis: int): (r: seq<Proposal>)
    ensures |ps| <= |r| <= |ps| + |cs|
    decreases |cs|
  {
    if cs == [] then ps
    else
      var next := if !cs[0].image.isDeployed then CreateDeletionProposal(ps, cs[0], nowUtc, idMillis).0 else ps;
      ProcessDeletionCandidates(next, cs[1..], nowUtc, idMillis)
  }

  /** Processing candidates only appends to the list. */
  lemma {:induction false} ProcessAppends(ps: seq<Proposal>, cs: seq<Candidate>, nowUtc: int, idMillis: int)
    ensures var r := ProcessDeletionCandidates(ps, cs, nowUtc, idMillis);
      |ps| <= |r| && r[..|ps|] == ps
    decreases |cs|
  {
    if cs != [] {
      var next := if !cs[0].image.isDeployed then CreateDeletionProposal(ps, cs[0], nowUtc, idMillis).0 else ps;
      ProcessAppends(next, cs[1..], nowUtc, idMillis);
      var r := ProcessDeletionCandidates(next, cs[1..], nowUtc, idMillis);
      assert r[..|ps|] == r[..|next|][..|ps|];
    }
  }

  /** Every appended proposal is the one built for an undeployed candidate. */
  lemma {:induction false} ProcessOrigin(ps: seq<Proposal>, cs: seq<Candidate>, nowUtc: int, idMillis: int, k: nat)
    requires |ps| <= k < |ProcessDeletionCandidates(ps, cs, nowUtc, idMillis)|
    ensures exists c :: c in cs && !c.image.isDeployed && ProcessDeletionCandidates(ps, cs, nowUtc, idMillis)[k] == NewProposal(c, nowUtc, idMillis)
    decreases |cs|
  {
    if cs == [] {
      assert false;
    } else {
      var next := if !cs[0].image.isDeployed then CreateDeletionProposal(ps, cs[0], nowUtc, idMillis).0 else ps;
      var r := ProcessDeletionCandidates(next, cs[1..], nowUtc, idMillis);
      if k < |next| {
        ProcessAppends(next, cs[1..], nowUtc, idMillis);
        assert r[k] == next[k];
        assert next == ps + [NewProposal(cs[0], nowUtc, idMillis)];
      } else {
        ProcessOrigin(next, cs[1..], nowUtc, idMillis, k);
      }
    }
  }

  /** Processing candidates keeps at most one pending proposal per (image, tag). */
  lemma {:induction false} ProcessKeepsUniquePending(ps: seq<Proposal>, cs: seq<Candidate>, nowUtc: int, idMillis: int)
    requires UniquePending(ps)
    ensures UniquePending(ProcessDeletionCandidates(ps, cs, nowUtc, idMillis))
    decreases |cs|
  {
    if cs != [] {
      var next := if !cs[0].image.isDeployed then CreateDeletionProposal(ps, cs[0], nowUtc, idMillis).0 else ps;
      CreatePreservesUniquePending(ps, cs[0], nowUtc, idMillis);
      ProcessKeepsUniquePending(next, cs[1..], nowUtc, idMillis);
    }
  }

  /** A pending proposal stays pending through processing. */
  lemma ProcessKeepsPending(ps: seq<Proposal>, cs: seq<Candidate>, nowUtc: int, idMillis: int, imageName: string, tag: string)
    requires HasPending(ps, imageName, tag)
    ensures HasPending(ProcessDeletionCandidates(ps, cs, nowUtc, idMillis), imageName, tag)
  {
    ProcessAppends(ps, cs, nowUtc, idMillis);
    var r := ProcessDeletionCandidates(ps, cs, nowUtc, idMillis);
    var i :| 0 <= i < |ps| && PendingFor(ps[i], imageName, tag);
    assert r[i] == r[..|ps|][i];
  }

  /** After processing, every undeployed candidate has a pending proposal
      for its image and tag, whether created now or found already pending. */
  lemma {:induction false} ProcessCovers(ps: seq<Proposal>, cs: seq<Candidate>, nowUtc: int, idMillis: int, c: Candidate)
    requires c in cs && !c.image.isDeployed
    ensures HasPending(ProcessDeletionCandidates(ps, cs, nowUtc, idMillis), c.image.imageName, c.image.tag)
    decreases |cs|
  {
    var next := if !cs[0].image.isDeployed then CreateDeletionProposal(ps, cs[0], nowUtc, idMillis).0 else ps;
    if c == cs[0] {
      ProcessKeepsPending(next, cs[1..], nowUtc, idMillis, c.image.imageName, c.image.tag);
    } else {
      ProcessCovers(next, cs[1..], nowUtc, idMillis, c);
    }
  }

  /** What a proposal created by a pass is owed: it is pending, names a catalog image and
      one of its tags outside the deployed set, and lists exactly the active rules
      that matched the tag. */
  predicate Justified(p: Proposal, s: RuleStore, v: RegistryView, nowUtc: int) {
    && p.status == PendingApproval
    && p.imageName in v.catalog && p.tag in v.tagsOf(p.imageName)
    && !p.imageData.isDeployed && !DeployedTag(v.deployed, p.imageName, p.tag)
    && p.matchingRuleIds == EvaluateImage(p.imageData, s, nowUtc) && p.matchingRuleIds != []
  }

  /** The listing the pass evaluates: every catalog image, with details. */
  function PassListing(v: RegistryView, nowLocal: int): seq<ImageStatus> {
    GetFilteredImages(v, "all", DefaultDaysOld, DefaultSizeMb, true, nowLocal)
  }

  /** Each listed detail entry names a catalog image and one of its tags, and one marked
      not deployed is a tag outside the deployed set. */
  lemma ListingEntryFacts(v: RegistryView, nowLocal: int, i: nat, k: nat)
    requires i < |PassListing(v, nowLocal)| && k < |Details(PassListing(v, nowLocal)[i])|
    ensures var img := PassListing(v, nowLocal)[i];
      var d := Details(img)[k];
      && img.name in v.catalog && d.tag in v.tagsOf(img.name)
      && (!d.isDeployed ==> !DeployedTag(v.deployed, img.name, d.tag))
  {
    var images := PassListing(v, nowLocal);
    var img := images[i];
    var plain := img.(detailedTags := None);
    var all := GetImagesWithDeploymentStatus(v);
    assert plain in all && img == WithDetails(plain, v.detailOf);
    var j :| 0 <= j < |all| && all[j] == plain;
    assert plain == StatusOf(v.deployed, v.catalog[j], v.tagsOf(v.catalog[j]));
    assert Details(img)[k] == DetailFor(plain.name, plain.tags[k], plain.deployedTags, v.detailOf);
  }

  /** The candidates of a pass, in listing order. */
  function PassCandidates(s: RuleStore, v: RegistryView, nowUtc: int, nowLocal: int): seq<Candidate> {
    var images := PassListing(v, nowLocal);
    DeletionCandidates(TagDataOf(images, |images|), s, nowUtc)
  }

  /** An undeployed candidate of the pass yields a justified proposal. */
  lemma CandidateJustified(s: RuleStore, v: RegistryView, nowUtc: int, nowLocal: int, idMillis: int, c: Candidate)
    requires c in PassCandidates(s, v, nowUtc, nowLocal) && !c.image.isDeployed
    ensures Justified(NewProposal(c, nowUtc, idMillis), s, v, nowUtc)
  {
    var images := PassListing(v, nowLocal);
    TagDataOfOrigin(images, |images|, c.image);
    var i, k :| 0 <= i < |images| && 0 <= k < |Details(images[i])| && c.image == TagData(images[i], Details(images[i])[k]);
    ListingEntryFacts(v, nowLocal, i, k);
  }

  /** Every proposal a pass appends is justified. */
  lemma PassJustified(s: RuleStore, v: RegistryView, ps: seq<Proposal>, nowUtc: int, nowLocal: int, idMillis: int, k: nat)
    requires |ps| <= k < |ProcessDeletionCandidates(ps, PassCandidates(s, v, nowUtc, nowLocal), nowUtc, idMillis)|
    ensures Justified(ProcessDeletionCandidates(ps, PassCandidates(s, v, nowUtc, nowLocal), nowUtc, idMillis)[k], s, v, nowUtc)
  {
    var cs := PassCandidates(s, v, nowUtc, nowLocal);
    ProcessOrigin(ps, cs, nowUtc, idMillis, k);
    var c :| c in cs && !c.image.isDeployed && ProcessDeletionCandidates(ps, cs, nowUtc, idMillis)[k] == NewProposal(c, nowUtc, idMillis);
    CandidateJustified(s, v, nowUtc, nowLocal, idMillis, c);
  }

  /** A pass has a candidate only when some rule is active. */
  lemma PassNeedsActiveRule(s: RuleStore, v: RegistryView, nowUtc: int, nowLocal: int)
    ensures PassCandidates(s, v, nowUtc, nowLocal) != [] ==> GetActiveRules(s) != []
  {
    var cs := PassCandidates(s, v, nowUtc, nowLocal);
    if cs != [] {
      var c := cs[0];
      assert c in cs;
      var id := c.matchingRuleIds[0];
      assert id in EvaluateImage(c.image, s, nowUtc);
      var x :| x in s.records && x.value.isActive && x.id == id && Matches(c.image, x.value, nowUtc);
      assert x in GetActiveRules(s);
    }
  }

  /** `evaluate_all_images` as it would run with the criterion it means to pass: nothing
      without an active rule; otherwise every tag of every catalog image is evaluated and
      the candidates go through the duplicate check. */
  function EvaluateAllImages(s: RuleStore, v: RegistryView, ps: seq<Proposal>, nowUtc: int, nowLocal: int, idMillis: int)
    : (r: seq<Proposal>)
    ensures GetActiveRules(s) == [] ==> r == ps
    ensures |ps| <= |r| && r[..|ps|] == ps
    ensures UniquePending(ps) ==> UniquePending(r)
    ensures forall k :: |ps| <= k < |r| ==> Justified(r[k], s, v, nowUtc)
    ensures forall c :: c in PassCandidates(s, v, nowUtc, nowLocal) && !c.image.isDeployed ==>
      HasPending(r, c.image.imageName, c.image.tag)
  {
    if GetActiveRules(s) == [] then
      PassNeedsActiveRule(s, v, nowUtc, nowLocal);
      ps
    else
      var cs := PassCandidates(s, v, nowUtc, nowLocal);
      var r := ProcessDeletionCandidates(ps, cs, nowUtc, idMillis);
      ProcessAppends(ps, cs, nowUtc, idMillis);
      assert UniquePending(ps) ==> UniquePending(r) by {
        if UniquePending(ps) {
          ProcessKeepsUniquePending(ps, cs, nowUtc, idMillis);
        }
      }
      assert forall k :: |ps| <= k < |r| ==> Justified(r[k], s, v, nowUtc) by {
        forall k | |ps| <= k < |r| ensures Justified(r[k], s, v, nowUtc) {
          PassJustified(s, v, ps, nowUtc, nowLocal, idMillis, k);
        }
      }
      assert forall c :: c in cs && !c.image.isDeployed ==> HasPending(r, c.image.imageName, c.image.tag) by {
        forall c | c in cs && !c.image.isDeployed ensures HasPending(r, c.image.imageName, c.image.tag) {
          ProcessCovers(ps, cs, nowUtc, idMillis, c);
        }
      }
      r
  }

  /** The error the pass raises: the criterion is looked up as an attribute of the
      registry service object, which has none of that name. */
  const MissingCriteriaAttribute: string := "'RegistryService' object has no attribute 'ImageFilterCriteria'"

  /** `evaluate_all_images` as written: with an active rule, building the listing call's
      arguments raises before any image is evaluated. */
  function EvaluateAllImagesAsWritten(s: RuleStore, ps: seq<Proposal>): (r: Answer<seq<Proposal>>)
    ensures GetActiveRules(s) == [] ==> r == Answered(ps)
    ensures GetActiveRules(s) != [] ==> r.Raised?
  {
    if GetActiveRules(s) == [] then Answered(ps)
    else Raised(MissingCriteriaAttribute)
  }

  /** Whenever the intended pass would add a proposal, the pass as written raises instead
      and adds none: the discrepancy shows on every such input. */
  lemma AsWrittenMissesProposals(s: RuleStore, v: RegistryView, ps: seq<Proposal>,
                                 nowUtc: int, nowLocal: int, idMillis: int)
    ensures |EvaluateAllImages(s, v, ps, nowUtc, nowLocal, idMillis)| > |ps| ==>
      EvaluateAllImagesAsWritten(s, ps) == Raised(MissingCriteriaAttribute)
  {
  }
}

=== FILE: external.dfy ===
/** What the model receives from the outside world: answers of the registry, of the
    cluster and of the clock. Network calls become these values, passed in as parameters. */
module External {

  /** The answer of a foreign call that may raise: the returned value, or the message of
      the exception it raised. */
  datatype Answer<+T> = Answered(value: T) | Raised(message: string)

  /** Bytes in one megabyte as the service computes it (`mb * 1024 * 1024`). */
  const BytesPerMb: int := 1024 * 1024

  /** Microseconds, the resolution of Python's `datetime`. */
  const MicrosPerSecond: int := 1_000_000
  const MicrosPerDay: int := 86_400 * MicrosPerSecond

  /** One parsed instant, in microseconds. `hasOffset` is true when the text carried a `Z`
      or a `+hh:mm` offset, which makes Python parse it as a timezone-aware datetime that
      cannot be compared with the naive `utcnow()` / `now()` readings. */
  datatype Timestamp = Timestamp(micros: int, hasOffset: bool)

  /** A date field of a registry answer, after the parsing the consuming code applies:
      absent (`None` or the empty string), not parseable, or parsed. */
  datatype DateField = NoDate | Unparseable | Date(ts: Timestamp)

  /** Python's `date < cutoff` against a naive cutoff inside a `try`: an aware date makes the
      comparison raise, the handler yields false; missing and unparseable dates yield false. */
  predicate StrictlyBefore(d: DateField, cutoff: int) {
    d.Date? && !d.ts.hasOffset && d.ts.micros < cutoff
  }

  /** `now - timedelta(days=days)` on a naive reading in microseconds. */
  function DaysBefore(now: int, days: int): (cutoff: int)
    ensures days >= 0 ==> cutoff <= now
    ensures days > 0 ==> cutoff < now
  {
    now - days * MicrosPerDay
  }
}

=== FILE: image_inventory.dfy ===
/** The image table the registry sync keeps up to date: one record per image name,
    created or refreshed from the registry listing, deactivated when the registry no
    longer lists it, and purged once it has been inactive for long enough. The table is a
    map keyed by the unique name; the clock and the database's commit outcome are
    parameters. */
module ImageInventory {
  import opened Wrappers
  import opened Seqs
  import External

  /** One row of the image table (the floating `total_size_mb` column is not modelled). */
  datatype ImageRecord = ImageRecord(
    description: Option<string>,
    isActive: bool,
    lastSeenAt: int,
    firstDetectedAt: int,
    totalTags: int,
    totalSizeBytes: int,
    isDeployed: bool,
    deployedTagsCount: int,
    architecture: Option<string>,
    os: Option<string>)

  /** The table, keyed by the unique image name. */
  type Inventory = map<string, ImageRecord>

  /** The first detailed tag of a payload: `None` when the key is absent. */
  datatype TagMeta = TagMeta(architecture: Option<string>, os: Option<string>)

  /** The dictionary a sync hands to the upsert: `None` when the key is absent. */
  datatype ImagePayload = ImagePayload(
    name: Option<string>,
    tagCount: Option<int>,
    totalSize: Option<int>,
    isDeployed: Option<bool>,
    deployedTagsCount: Option<int>,
    description: Option<string>,
    detailedTags: seq<TagMeta>)

  /** Message of the `ValueError` raised for a payload without a name. */
  const NameRequired: string := "Le nom de l'image est requis"

  /** `get_active_images(limit=1000)` as `mark_images_as_inactive` calls it. */
  const ActivePageLimit: nat := 1000

  /** Retention of `delete_inactive_images` when no argument is given. */
  const DefaultRetentionDays: int := 90

  /** `if not image_name`: the name key is present and not the empty string. */
  predicate HasName(d: ImagePayload) {
    d.name.Some? && d.name.value != ""
  }

  /** The record an existing row becomes when the registry lists it again. */
  function Refreshed(prior: ImageRecord, d: ImagePayload, now: int): (r: ImageRecord)
    ensures r.isActive && r.lastSeenAt == now
    ensures r.firstDetectedAt == prior.firstDetectedAt
    ensures d.tagCount.None? ==> r.totalTags == prior.totalTags
    ensures d.totalSize.None? ==> r.totalSizeBytes == prior.totalSizeBytes
    ensures d.isDeployed.None? ==> r.isDeployed == prior.isDeployed
    ensures d.deployedTagsCount.None? ==> r.deployedTagsCount == prior.deployedTagsCount
    ensures r.description != prior.description ==> d.description.Some? && d.description.value != ""
    ensures d.detailedTags == [] ==> r.architecture == prior.architecture && r.os == prior.os
  {
    var first := if d.detailedTags == [] then TagMeta(None, None) else d.detailedTags[0];
    prior.(isActive := true,
         lastSeenAt := now,
         totalTags := d.tagCount.GetOr(prior.totalTags),
         totalSizeBytes := d.totalSize.GetOr(prior.totalSizeBytes),
         isDeployed := d.isDeployed.GetOr(prior.isDeployed),
         deployedTagsCount := d.deployedTagsCount.GetOr(prior.deployedTagsCount),
         description := if d.description.Some? && d.description.value != "" then d.description else prior.description,
         architecture := if first.architecture.Some? then first.architecture else prior.architecture,
         os := if first.os.Some? then first.os else prior.os)
  }

  /** The record a name the table has never seen starts with. */
  function Created(d: ImagePayload, now: int): (r: ImageRecord)
    ensures r.isActive && r.lastSeenAt == now && r.firstDetectedAt == now
    ensures d.tagCount.None? ==> r.totalTags == 0
    ensures d.totalSize.None? ==> r.totalSizeBytes == 0
    ensures d.isDeployed.None? ==> !r.isDeployed
    ensures d.deployedTagsCount.None? ==> r.deployedTagsCount == 0
    ensures d.description == r.description
    ensures d.detailedTags == [] ==> r.architecture.None? && r.os.None?
  {
    var first := if d.detailedTags == [] then TagMeta(None, None) else d.detailedTags[0];
    ImageRecord(
      description := d.description,
      isActive := true,
      lastSeenAt := now,
      firstDetectedAt := now,
      totalTags := d.tagCount.GetOr(0),
      totalSizeBytes := d.totalSize.GetOr(0),
      isDeployed := d.isDeployed.GetOr(false),
      deployedTagsCount := d.deployedTagsCount.GetOr(0),
      architecture := first.architecture,
      os := first.os)
  }

  /** `create_or_update_image`: look the name up, refresh or create its row, commit.
      `commitError` is the database's answer to the commit: `None` when it succeeds, the
      message of the exception otherwise (the session is rolled back and the table keeps
      its state). On success the new table and the stored row are returned. */
  function CreateOrUpdateImage(db: Inventory, d: ImagePayload, now: int, commitError: Option<string>)
    : (r: Result<(Inventory, ImageRecord), string>)
    ensures !HasName(d) ==> r == Failure(NameRequired)
    ensures HasName(d) && commitError.Some? ==> r == Failure(commitError.value)
    ensures r.Success? <==> HasName(d) && commitError.None?
    ensures r.Success? ==>
      var name := d.name.value;
      && r.value.0 == db[name := r.value.1]
      && r.value.1.isActive && r.value.1.lastSeenAt == now
      && |r.value.0| == |db| + (if name in db then 0 else 1)
    ensures r.Success? && d.name.value in db ==> r.value.1.firstDetectedAt == db[d.name.value].firstDetectedAt
    ensures r.Success? && d.name.value !in db ==> r.value.1 == Created(d, now)
  {
    if !HasName(d) then Failure(NameRequired)
    else
      var name := d.name.value;
      var row := if name in db then Refreshed(db[name], d, now) else Created(d, now);
      if commitError.Some? then Failure(commitError.value)
      else Success((db[name := row], row))
  }

  /** Syncing the same payload twice at the same instant leaves the table as one sync
      does: the refresh of a row built from a payload rebuilds the same row. */
  lemma UpsertIdempotent(db: Inventory, d: ImagePayload, now: int)
    requires HasName(d)
    ensures
      var once := CreateOrUpdateImage(db, d, now, None).value.0;
      CreateOrUpdateImage(once, d, now, None) == Success((once, once[d.name.value]))
  {
    var name := d.name.value;
    var once := CreateOrUpdateImage(db, d, now, None).value.0;
    var row := once[name];
    assert Refreshed(row, d, now) == row;
    assert once[name := row] == once;
  }

  /** What `get_active_images(limit=1000)` answers: distinct active rows, at most a page
      of them, the most recently seen first, and all active rows when the page is not
      full. */
  predicate ActivePage(db: Inventory, page: seq<string>) {
    && Distinct(page)
    && |page| <= ActivePageLimit
    && (forall i :: 0 <= i < |page| ==> page[i] in db && db[page[i]].isActive)
    && (forall i, n :: 0 <= i < |page| && n in db && db[n].isActive && n !in page ==>
          db[n].lastSeenAt <= db[page[i]].lastSeenAt)
    && (|page| < ActivePageLimit ==> forall n :: n in db && db[n].isActive ==> n in page)
  }

  /** `mark_images_as_inactive`: every fetched active row whose name is not listed is
      deactivated; the result is the new table and the number of rows deactivated.
      `page` is the database's answer to the fetch of active rows. */
  function MarkImagesAsInactive(db: Inventory, names: seq<string>, page: seq<string>): (r: (Inventory, nat))
    ensures r.0.Keys == db.Keys
    ensures forall n :: n in db && (n in names || n !in page) ==> r.0[n] == db[n]
    ensures forall n :: n in db && n !in names && n in page ==> r.0[n] == db[n].(isActive := false)
  {
    var marked := Filter((n: string) => n !in names, page);
    (map n | n in db :: if n in marked then db[n].(isActive := false) else db[n], |marked|)
  }

  /** The rows `MarkImagesAsInactive` switched off. */
  function Deactivated(before: Inventory, after: Inventory): (r: set<string>)
    ensures forall n :: n in r <==> n in before && n in after && before[n].isActive && !after[n].isActive
  {
    set n | n in before && n in after && before[n].isActive && !after[n].isActive
  }

  /** On a genuine page of active rows, marking switches off exactly the fetched rows whose
      names are not listed, leaves every other row as it was, and counts what it switched
      off. */
  lemma MarkInactiveExact(db: Inventory, names: seq<string>, page: seq<string>)
    requires ActivePage(db, page)
    ensures
      var r := MarkImagesAsInactive(db, names, page);
      && (forall n :: n in db ==> (r.0[n].isActive <==> db[n].isActive && (n in names || n !in page)))
      && Deactivated(db, r.0) == (set n | n in page && n !in names)
      && r.1 == |Deactivated(db, r.0)|
  {
    var r := MarkImagesAsInactive(db, names, page);
    var keep := (n: string) => n !in names;
    var marked := Filter(keep, page);
    FilterDistinct(keep, page);
    DistinctCardinality(marked);
    assert forall n :: n in page ==> n in db && db[n].isActive by {
      forall n | n in page ensures n in db && db[n].isActive {
        var i :| 0 <= i < |page| && page[i] == n;
      }
    }
    assert Deactivated(db, r.0) == (set n | n in marked);
  }

  /** When the page is not full, the table keeps active exactly the active rows whose
      names were listed. */
  lemma MarkInactiveComplete(db: Inventory, names: seq<string>, page: seq<string>)
    requires ActivePage(db, page) && |page| < ActivePageLimit
    ensures
      var r := MarkImagesAsInactive(db, names, page);
      forall n :: n in db ==> (r.0[n].isActive <==> db[n].isActive && n in names)
  {
    MarkInactiveExact(db, names, page);
  }

  /** The running state of the sync loop: the table, the names synced so far, the count of
      payloads that raised. */
  datatype SyncState = SyncState(db: Inventory, synced: seq<string>, errors: nat)

  /** The payload at position `i` is stored: it has a name and its commit succeeds. */
  predicate Stored(ps: seq<ImagePayload>, commit: nat -> Option<string>, i: nat)
    requires i < |ps|
  {
    HasName(ps[i]) && commit(i).None?
  }

  /** The loop of `bulk_sync_images` over the first `|ps|` payloads: each one is upserted;
      a success appends its name to the keep-list, a failure is counted and the loop goes
      on. `commit(i)` is the database's answer to the commit of the `i`-th payload. */
  function SyncEach(db: Inventory, ps: seq<ImagePayload>, now: int, commit: nat -> Option<string>)
    : (r: SyncState)
    ensures |r.synced| + r.errors == |ps|
    decreases |ps|
  {
    if ps == [] then SyncState(db, [], 0)
    else
      var last := |ps| - 1;
      var prev := SyncEach(db, ps[..last], now, commit);
      match CreateOrUpdateImage(prev.db, ps[last], now, commit(last))
      case Success(stored) => SyncState(stored.0, prev.synced + [ps[last].name.value], prev.errors)
      case Failure(_) => prev.(errors := prev.errors + 1)
  }

  /** Every name on the keep-list is an active row seen at `now`. */
  predicate SyncedAreFresh(s: SyncState, now: int) {
    forall i :: 0 <= i < |s.synced| ==>
      s.synced[i] in s.db && s.db[s.synced[i]].isActive && s.db[s.synced[i]].lastSeenAt == now
  }

  /** The sync loop removes no row, and every name on its keep-list is an active row seen
      at the instant of the sync. */
  lemma {:induction false} SyncedRowsFresh(db: Inventory, ps: seq<ImagePayload>, now: int,
                                           commit: nat -> Option<string>)
    ensures forall n :: n in db ==> n in SyncEach(db, ps, now, commit).db
    ensures SyncedAreFresh(SyncEach(db, ps, now, commit), now)
    decreases |ps|
  {
    if ps != [] {
      var last := |ps| - 1;
      SyncedRowsFresh(db, ps[..last], now, commit);
      var prev := SyncEach(db, ps[..last], now, commit);
      var step := CreateOrUpdateImage(prev.db, ps[last], now, commit(last));
      if step.Success? {
        var r := SyncEach(db, ps, now, commit);
        var name := ps[last].name.value;
        assert r.synced == prev.synced + [name] && r.db == prev.db[name := step.value.1];
        forall i | 0 <= i < |r.synced|
          ensures r.synced[i] in r.db && r.db[r.synced[i]].isActive && r.db[r.synced[i]].lastSeenAt == now
        {
          if i < |prev.synced| {
            assert r.synced[i] == prev.synced[i];
          }
        }
      }
    }
  }

  /** A name is on the keep-list exactly when some payload carrying it was stored; a payload
      that raised contributes nothing, so its name stays off the list unless another
      payload with the same name was stored. */
  lemma {:induction false} SyncedNames(db: Inventory, ps: seq<ImagePayload>, now: int,
                                       commit: nat -> Option<string>, n: string)
    ensures n in SyncEach(db, ps, now, commit).synced <==>
            exists i :: 0 <= i < |ps| && Stored(ps, commit, i) && ps[i].name.value == n
    decreases |ps|
  {
    if ps != [] {
      var last := |ps| - 1;
      var init := ps[..last];
      SyncedNames(db, init, now, commit, n);
      assert forall i :: 0 <= i < last ==> init[i] == ps[i];
      if exists i :: 0 <= i < |ps| && Stored(ps, commit, i) && ps[i].name.value == n {
        var i :| 0 <= i < |ps| && Stored(ps, commit, i) && ps[i].name.value == n;
        if i < last {
          assert Stored(init, commit, i) && init[i].name.value == n;
        }
      }
    }
  }

  /** Number of payloads that raised: `errors` counts exactly the payloads not stored. */
  lemma {:induction false} SyncErrors(db: Inventory, ps: seq<ImagePayload>, now: int, commit: nat -> Option<string>)
    ensures SyncEach(db, ps, now, commit).errors == |Unstored(ps, commit)|
    decreases |ps|
  {
    if ps != [] {
      var last := |ps| - 1;
      SyncErrors(db, ps[..last], now, commit);
      SyncErrorStep(db, ps, now, commit);
      UnstoredStep(ps, commit);
    }
  }

  /** One more payload adds one error exactly when it is not stored. */
  lemma SyncErrorStep(db: Inventory, ps: seq<ImagePayload>, now: int, commit: nat -> Option<string>)
    requires ps != []
    ensures SyncEach(db, ps, now, commit).errors ==
            SyncEach(db, ps[..|ps| - 1], now, commit).errors + (if Stored(ps, commit, |ps| - 1) then 0 else 1)
  {
  }

  /** Positions of the payloads that are not stored. */
  function Unstored(ps: seq<ImagePayload>, commit: nat -> Option<string>): (r: set<nat>)
    ensures forall i :: i in r <==> 0 <= i < |ps| && !Stored(ps, commit, i)
  {
    set i: nat | i < |ps| && !Stored(ps, commit, i)
  }

  /** One more payload adds its position to the unstored ones exactly when it is not stored. */
  lemma UnstoredStep(ps: seq<ImagePayload>, commit: nat -> Option<string>)
    requires ps != []
    ensures |Unstored(ps, commit)| ==
            |Unstored(ps[..|ps| - 1], commit)| + (if Stored(ps, commit, |ps| - 1) then 0 else 1)
  {
    var last := |ps| - 1;
    var init := ps[..last];
    var before := Unstored(init, commit);
    var after := Unstored(ps, commit);
    assert after - {last} == before by {
      forall i | 0 <= i < last ensures Stored(init, commit, i) == Stored(ps, commit, i) {
        assert init[i] == ps[i];
      }
    }
    assert last !in before;
    if Stored(ps, commit, last) {
      assert after == before;
    } else {
      assert after == before + {last};
    }
  }

  /** The figures `bulk_sync_images` reports. `synced` is the sum of `create_or_update_image`'s
      `created` and `updated`. */
  datatype SyncStats = SyncStats(synced: nat, markedInactive: nat, errors: nat)

  /** `bulk_sync_images`: upsert every payload, then deactivate what the registry no longer
      lists. `page` is the database's answer to the fetch of active rows, made after the
      upserts. */
  function BulkSyncImages(db: Inventory, ps: seq<ImagePayload>, now: int,
                          commit: nat -> Option<string>, page: seq<string>)
    : (r: (Inventory, SyncStats))
    ensures r.1.synced + r.1.errors == |ps|
    ensures r.0.Keys == SyncEach(db, ps, now, commit).db.Keys
    ensures forall n :: n in db ==> n in r.0
  {
    var s := SyncEach(db, ps, now, commit);
    SyncedRowsFresh(db, ps, now, commit);
    var m := MarkImagesAsInactive(s.db, s.synced, page);
    (m.0, SyncStats(|s.synced|, m.1, s.errors))
  }

  /** After a sync whose page of active rows is genuine and not full, the active rows are
      exactly the rows of stored payloads: every stored name is active and seen now, and a
      row no stored payload names (including one whose payload raised) is inactive. */
  lemma BulkSyncActiveRows(db: Inventory, ps: seq<ImagePayload>, now: int,
                           commit: nat -> Option<string>, page: seq<string>, n: string)
    requires ActivePage(SyncEach(db, ps, now, commit).db, page) && |page| < ActivePageLimit
    requires n in BulkSyncImages(db, ps, now, commit, page).0
    ensures
      var r := BulkSyncImages(db, ps, now, commit, page).0;
      r[n].isActive <==> exists i :: 0 <= i < |ps| && Stored(ps, commit, i) && ps[i].name.value == n
  {
    var s := SyncEach(db, ps, now, commit);
    SyncedRowsFresh(db, ps, now, commit);
    MarkInactiveComplete(s.db, s.synced, page);
    SyncedNames(db, ps, now, commit, n);
    if n in s.synced {
      var i :| 0 <= i < |s.synced| && s.synced[i] == n;
    }
  }

  /** A row old enough to be purged: inactive and last seen before the cutoff. */
  predicate Stale(rec: ImageRecord, cutoff: int) {
    !rec.isActive && rec.lastSeenAt < cutoff
  }

  /** What `delete_inactive_images` reports besides the new table. */
  datatype Purge = Purge(db: Inventory, deleted: set<string>, deletedCount: nat, cutoff: int)

  /** `delete_inactive_images`: remove every inactive row last seen more than
      `olderThanDays` days before `now`. */
  function DeleteInactiveImages(db: Inventory, olderThanDays: int, now: int): (r: Purge)
    ensures r.cutoff == External.DaysBefore(now, olderThanDays)
    ensures r.deleted == db.Keys - r.db.Keys
    ensures r.deletedCount == |r.deleted|
    ensures forall n :: n in r.db <==> n in db && !Stale(db[n], r.cutoff)
    ensures forall n :: n in r.db ==> r.db[n] == db[n]
    ensures forall n :: n in db && db[n].isActive ==> n in r.db
  {
    var cutoff := External.DaysBefore(now, olderThanDays);
    var gone := set n | n in db && Stale(db[n], cutoff);
    Purge(map n | n in db && n !in gone :: db[n], gone, |gone|, cutoff)
  }

  /** A second purge at the same instant finds nothing more to delete. */
  lemma PurgeIdempotent(db: Inventory, olderThanDays: int, now: int)
    ensures
      var once := DeleteInactiveImages(db, olderThanDays, now);
      var twice := DeleteInactiveImages(once.db, olderThanDays, now);
      twice.db == once.db && twice.deleted == {}
  {
    var once := DeleteInactiveImages(db, olderThanDays, now);
    var twice := DeleteInactiveImages(once.db, olderThanDays, now);
    assert twice.db.Keys == once.db.Keys;
  }

  /** A purge right after a sync never removes a row the sync stored, whatever the
      retention: stored rows are active. */
  lemma PurgeKeepsSynced(db: Inventory, ps: seq<ImagePayload>, now: int,
                         commit: nat -> Option<string>, page: seq<string>,
                         olderThanDays: int, later: int, i: nat)
    requires ActivePage(SyncEach(db, ps, now, commit).db, page) && |page| < ActivePageLimit
    requires i < |ps| && Stored(ps, commit, i)
    ensures ps[i].name.value in DeleteInactiveImages(BulkSyncImages(db, ps, now, commit, page).0, olderThanDays, later).db
  {
    var n := ps[i].name.value;
    var s := SyncEach(db, ps, now, commit);
    var r := BulkSyncImages(db, ps, now, commit, page).0;
    SyncedRowsFresh(db, ps, now, commit);
    SyncedNames(db, ps, now, commit, n);
    var k :| 0 <= k < |s.synced| && s.synced[k] == n;
    assert n in s.db;
    BulkSyncActiveRows(db, ps, now, commit, page, n);
    assert r[n].isActive;
  }
}

=== FILE: image_ref.dfy ===
/** Image references as written in cluster workloads (`host:port/repo/name:tag`):
    removal of a registry-host prefix and the split into repository name and tag. */
module ImageRef {
  import opened Text

  /** `normalize_image_name`: drops the first path segment when it contains a colon
      (a `host:port` prefix) and there are at least two segments. */
  function NormalizeImageName(full: string): (r: string)
    ensures '/' !in full ==> r == full
    ensures '/' in full && ':' in full[..FirstIndex(full, '/')] ==> r == full[FirstIndex(full, '/') + 1..]
    ensures '/' in full && ':' !in full[..FirstIndex(full, '/')] ==> r == full
  {
    if '/' in full then
      var parts := Split(full, '/');
      SplitAtFirst(full, '/');
      if ':' in parts[0] && |parts| > 1 then Join(parts[1..], '/') else full
    else full
  }

  /** The first occurrence is where the character occurs with none before it. */
  lemma FirstIndexAt(s: string, c: char, k: nat)
    requires k < |s| && s[k] == c
    requires forall j :: 0 <= j < k ==> s[j] != c
    ensures c in s && FirstIndex(s, c) == k
  {
  }

  /** A leading registry host with a port (`localhost:5000/app`) is stripped. */
  lemma StripsHostWithPort(host: string, rest: string)
    requires '/' !in host && ':' in host
    ensures NormalizeImageName(host + "/" + rest) == rest
  {
    var s := host + "/" + rest;
    FirstIndexAt(s, '/', |host|);
    assert s[..|host|] == host;
    assert s[|host| + 1..] == rest;
  }

  /** A leading segment without a port (`docker.io/app`) is kept. */
  lemma KeepsHostWithoutPort(host: string, rest: string)
    requires '/' !in host && ':' !in host
    ensures NormalizeImageName(host + "/" + rest) == host + "/" + rest
  {
    var s := host + "/" + rest;
    FirstIndexAt(s, '/', |host|);
    assert s[..|host|] == host;
  }

  /** `extract_name_and_tag`: `rsplit(':', 1)` of the normalized reference, or the whole
      reference with tag `latest` when it has no colon. */
  function ExtractNameAndTag(full: string): (r: (string, string))
    ensures var n := NormalizeImageName(full);
      && (':' in n ==> r.0 + ":" + r.1 == n && ':' !in r.1)
      && (':' !in n ==> r == (n, "latest"))
  {
    var n := NormalizeImageName(full);
    if ':' in n then
      var i := LastIndex(n, ':');
      assert n[..i] + ":" + n[i + 1..] == n;
      (n[..i], n[i + 1..])
    else (n, "latest")
  }
}

=== FILE: keyed_store.dfy ===
/** The generic keyed store behind every repository: a table of records with
    database-assigned integer ids. The repository queries carry no ORDER BY, so the
    database may return rows in any order; the model fixes one scan order, insertion
    order, and every positional statement below is about that order. */
module KeyedStore {
  import opened Wrappers
  import Seqs

  /** One row: the id the database assigned and the row's other columns. */
  datatype Record<T> = Record(id: nat, value: T)

  /** The rows in the modelled scan order (insertion order) and the next id the
      autoincrement sequence hands out. */
  datatype Store<T> = Store(records: seq<Record<T>>, nextId: nat)

  /** Ids are unique and all below the next id to be assigned. */
  predicate Valid<T>(s: Store<T>) {
    && (forall i :: 0 <= i < |s.records| ==> s.records[i].id < s.nextId)
    && (forall i, j :: 0 <= i < j < |s.records| ==> s.records[i].id != s.records[j].id)
  }

  /** A table with no rows whose sequence starts at 1. */
  function Empty<T>(): (s: Store<T>)
    ensures Valid(s) && |s.records| == 0
  {
    Store([], 1)
  }

  /** Position of the first row carrying `id`. */
  function IndexOf<T>(rs: seq<Record<T>>, id: nat): (r: Option<nat>)
    ensures r.Some? ==> r.value < |rs| && rs[r.value].id == id
    ensures r.Some? ==> forall j :: 0 <= j < r.value ==> rs[j].id != id
    ensures r.None? ==> forall j :: 0 <= j < |rs| ==> rs[j].id != id
    decreases |rs|
  {
    if rs == [] then None
    else if rs[0].id == id then Some(0)
    else
      match IndexOf(rs[1..], id)
      case None => None
      case Some(k) => Some(k + 1)
  }

  /** The ids stored in the table. */
  function Ids<T>(s: Store<T>): set<nat> {
    set i | 0 <= i < |s.records| :: s.records[i].id
  }

  /** `exists(id)`: some row carries the id; in a valid table that id was handed out
      already. */
  predicate Exists<T>(s: Store<T>, id: nat)
    ensures Valid(s) && Exists(s, id) ==> id < s.nextId
  {
    exists i | 0 <= i < |s.records| :: s.records[i].id == id
  }

  /** `get_by_id(id)`: the first row with that id, or none. */
  function GetById<T>(s: Store<T>, id: nat): (r: Option<Record<T>>)
    ensures r.Some? <==> Exists(s, id)
    ensures r.Some? ==> r.value.id == id && r.value in s.records
  {
    match IndexOf(s.records, id)
    case None => None
    case Some(i) => Some(s.records[i])
  }

  /** In a valid store the row found for an id is the only row with that id. */
  lemma GetByIdUnique<T>(s: Store<T>, x: Record<T>)
    requires Valid(s)
    requires x in s.records
    ensures GetById(s, x.id) == Some(x)
  {
    var i :| 0 <= i < |s.records| && s.records[i] == x;
    var k := IndexOf(s.records, x.id).value;
    assert !(k < i) && !(i < k);
  }

  /** `count()`: the number of stored rows. */
  function Count<T>(s: Store<T>): nat {
    |s.records|
  }

  /** In a valid table the count is the number of distinct ids stored. */
  lemma CountDistinctIds<T>(s: Store<T>)
    requires Valid(s)
    ensures Count(s) == |Ids(s)|
  {
    var ids := seq(|s.records|, i requires 0 <= i < |s.records| => s.records[i].id);
    assert (set x | x in ids) == Ids(s) by {
      forall x | x in Ids(s) ensures x in ids {
        var i :| 0 <= i < |s.records| && s.records[i].id == x;
        assert ids[i] == x;
      }
    }
    Seqs.DistinctCardinality(ids);
  }

  /** `get_all(skip, limit)`: `OFFSET skip LIMIT limit` over the rows in table order. */
  function GetAll<T>(s: Store<T>, skip: nat, limit: nat): (r: seq<Record<T>>)
    ensures |r| <= limit
    ensures forall i :: 0 <= i < |r| ==> skip + i < |s.records| && r[i] == s.records[skip + i]
    ensures skip + limit <= |s.records| ==> |r| == limit
    ensures skip <= |s.records| <= skip + limit ==> |r| == |s.records| - skip
  {
    var rest := Seqs.Drop(s.records, skip);
    var page := Seqs.Take(rest, limit);
    assert forall i :: 0 <= i < |page| ==> page[i] == rest[i] && skip + i < |s.records|;
    page
  }

  /** The rows satisfying `p`, in table order. */
  function Matching<T(!new)>(s: Store<T>, p: T -> bool): (r: seq<Record<T>>)
    ensures forall x :: x in r <==> x in s.records && p(x.value)
    ensures Seqs.IsSubsequence(r, s.records)
  {
    Seqs.FilterIsSubsequence((x: Record<T>) => p(x.value), s.records);
    Seqs.Filter((x: Record<T>) => p(x.value), s.records)
  }

  /** `get_many_by_field`: the rows satisfying `p`, in table order, paged. */
  function GetManyWhere<T(!new)>(s: Store<T>, p: T -> bool, skip: nat, limit: nat): (r: seq<Record<T>>)
    ensures |r| <= limit
    ensures forall x :: x in r ==> x in s.records && p(x.value)
    ensures forall i :: 0 <= i < |r| ==> skip + i < |Matching(s, p)| && r[i] == Matching(s, p)[skip + i]
    ensures skip + limit <= |Matching(s, p)| ==> |r| == limit
    ensures skip <= |Matching(s, p)| <= skip + limit ==> |r| == |Matching(s, p)| - skip
    ensures skip == 0 && |Matching(s, p)| <= limit ==> r == Matching(s, p)
  {
    var hits := Matching(s, p);
    if |hits| <= skip then []
    else
      var rest := hits[skip..];
      var page := if limit < |rest| then rest[..limit] else rest;
      assert forall x :: x in page ==> x in hits;
      page
  }

  /** `create(data)`: appends one row under the next id of the sequence. */
  function Create<T>(s: Store<T>, v: T): (r: (Store<T>, Record<T>))
    ensures r.1 == Record(s.nextId, v)
    ensures r.0.records == s.records + [r.1]
    ensures r.0.nextId > s.nextId
    ensures Valid(s) ==> Valid(r.0)
    ensures Count(r.0) == Count(s) + 1
  {
    (Store(s.records + [Record(s.nextId, v)], s.nextId + 1), Record(s.nextId, v))
  }

  /** `bulk_create(data)`: one new row per input, in input order, under fresh ids. */
  function BulkCreate<T>(s: Store<T>, vs: seq<T>): (r: (Store<T>, seq<Record<T>>))
    ensures r.0.records == s.records + r.1
    ensures |r.1| == |vs|
    ensures forall i :: 0 <= i < |vs| ==> r.1[i].value == vs[i] && r.1[i].id >= s.nextId
    ensures r.0.nextId >= s.nextId
    ensures Valid(s) ==> Valid(r.0)
    ensures Count(r.0) == Count(s) + |vs|
    decreases |vs|
  {
    if vs == [] then (s, [])
    else
      var (s1, x) := Create(s, vs[0]);
      var (s2, xs) := BulkCreate(s1, vs[1..]);
      (s2, [x] + xs)
  }

  /** `update(id, data)`: rewrites the first row carrying `id` with `patch`, keeping its id.
      A missing id returns none and leaves the table as it was. */
  function Update<T>(s: Store<T>, id: nat, patch: T -> T): (r: (Store<T>, Option<Record<T>>))
    ensures r.1.Some? <==> Exists(s, id)
    ensures !Exists(s, id) ==> r.0 == s
    ensures Exists(s, id) ==> r.1 == Some(Record(id, patch(GetById(s, id).value.value)))
    ensures Count(r.0) == Count(s) && r.0.nextId == s.nextId
    ensures forall j :: 0 <= j < |s.records| ==> r.0.records[j].id == s.records[j].id
    ensures forall j :: 0 <= j < |s.records| && s.records[j].id != id ==> r.0.records[j] == s.records[j]
    ensures Valid(s) ==> Valid(r.0)
  {
    match IndexOf(s.records, id)
    case None => (s, None)
    case Some(i) =>
      var x := Record(id, patch(s.records[i].value));
      (Store(s.records[i := x], s.nextId), Some(x))
  }

  /** After an update, looking the id up again finds the rewritten row. */
  lemma UpdateThenGet<T>(s: Store<T>, id: nat, patch: T -> T)
    requires Exists(s, id)
    ensures GetById(Update(s, id, patch).0, id) == Update(s, id, patch).1
  {
    var i := IndexOf(s.records, id).value;
    var s' := Update(s, id, patch).0;
    var k := IndexOf(s'.records, id).value;
    assert s'.records[i].id == id;
    assert !(k < i) && !(i < k);
  }

  /** The rows once position `i` is removed. */
  function RemoveAt<T>(rs: seq<Record<T>>, i: nat): (r: seq<Record<T>>)
    requires i < |rs|
    ensures |r| == |rs| - 1
    ensures forall j :: 0 <= j < |r| ==> r[j] == rs[Orig(i, j)]
  {
    rs[..i] + rs[i + 1..]
  }

  /** Removing the first row carrying `id` from a valid table leaves a valid table with
      no row carrying that id. */
  lemma RemoveAtValid<T>(s: Store<T>, id: nat, i: nat)
    requires Valid(s) && i < |s.records| && s.records[i].id == id
    ensures Valid(Store(RemoveAt(s.records, i), s.nextId))
    ensures !Exists(Store(RemoveAt(s.records, i), s.nextId), id)
  {
    var rs := RemoveAt(s.records, i);
    forall j, k | 0 <= j < k < |rs| ensures rs[j].id != rs[k].id {
      assert Orig(i, j) < Orig(i, k);
    }
    forall j | 0 <= j < |rs| ensures rs[j].id != id {
      assert Orig(i, j) != i;
    }
  }

  /** Removing the only row carrying `id` keeps exactly the other rows. */
  lemma RemoveAtMembers<T>(s: Store<T>, id: nat, i: nat)
    requires Valid(s) && i < |s.records| && s.records[i].id == id
    ensures forall x :: x in RemoveAt(s.records, i) <==> x in s.records && x.id != id
  {
    var rs := RemoveAt(s.records, i);
    RemoveAtValid(s, id, i);
    forall x | x in s.records && x.id != id ensures x in rs {
      var j :| 0 <= j < |s.records| && s.records[j] == x;
      if j < i { assert rs[j] == x; } else { assert rs[j - 1] == x; }
    }
    forall x | x in rs ensures x in s.records && x.id != id {
      var j :| 0 <= j < |rs| && rs[j] == x;
    }
  }

  /** The position in the old rows of position `j` once position `i` is removed. */
  function Orig(i: nat, j: nat): nat {
    if j < i then j else j + 1
  }

  /** `delete(id)`: removes the first row carrying `id`; true iff there was one. */
  function Delete<T(!new)>(s: Store<T>, id: nat): (r: (Store<T>, bool))
    ensures r.1 <==> Exists(s, id)
    ensures !r.1 ==> r.0 == s
    ensures r.1 ==> Count(r.0) == Count(s) - 1
    ensures r.0.nextId == s.nextId
    ensures Valid(s) ==> Valid(r.0) && !Exists(r.0, id)
    ensures Valid(s) ==> forall x :: x in r.0.records <==> x in s.records && x.id != id
  {
    match IndexOf(s.records, id)
    case None => (s, false)
    case Some(i) =>
      var rs := RemoveAt(s.records, i);
      if Valid(s) then
        RemoveAtValid(s, id, i);
        RemoveAtMembers(s, id, i);
        (Store(rs, s.nextId), true)
      else
        (Store(rs, s.nextId), true)
  }
}

=== FILE: markdown.dfy ===
/** The clean-up the chatbot applies to a language-model answer before showing it: trim,
    flatten fenced code blocks and deep headings, collapse runs of blank lines, and make
    sure the text opens with a title. */
module Markdown {
  import opened Text

  /** The characters Python's `str.strip()` removes (`str.isspace`). */
  predicate IsSpace(c: char) {
    || c == ' ' || c == '\t' || c == '\n' || c == '\r' || c == '\U{0B}' || c == '\U{0C}'
    || ('\U{1C}' <= c <= '\U{1F}') || c == '\U{85}' || c == '\U{A0}' || c == '\U{1680}'
    || ('\U{2000}' <= c <= '\U{200A}') || c == '\U{2028}' || c == '\U{2029}' || c == '\U{202F}'
    || c == '\U{205F}' || c == '\U{3000}'
  }

  /** Every character is whitespace (the empty string included). */
  predicate IsBlank(s: string) {
    forall i :: 0 <= i < |s| ==> IsSpace(s[i])
  }

  /** Length of the leading whitespace of `s`. */
  function LeadEnd(s: string): (k: nat)
    ensures k <= |s|
    ensures forall m :: 0 <= m < k ==> IsSpace(s[m])
    ensures k < |s| ==> !IsSpace(s[k])
    decreases |s|
  {
    if s != [] && IsSpace(s[0]) then
      var k := 1 + LeadEnd(s[1..]);
      assert forall m :: 1 <= m < k ==> s[m] == s[1..][m - 1];
      k
    else 0
  }

  /** Where the trailing whitespace of `s` begins. */
  function TrailStart(s: string): (k: nat)
    ensures k <= |s|
    ensures forall m :: k <= m < |s| ==> IsSpace(s[m])
    ensures k > 0 ==> !IsSpace(s[k - 1])
    decreases |s|
  {
    if s != [] && IsSpace(s[|s| - 1]) then
      var k := TrailStart(s[..|s| - 1]);
      assert forall m :: k <= m < |s| - 1 ==> s[m] == s[..|s| - 1][m];
      k
    else |s|
  }

  /** `s.strip()`: no longer than the input, and neither end of the result is whitespace. */
  function Strip(s: string): (r: string)
    ensures |r| <= |s|
    ensures r == [] || (!IsSpace(r[0]) && !IsSpace(r[|r| - 1]))
  {
    var rest := s[LeadEnd(s)..];
    var k := TrailStart(rest);
    assert k > 0 ==> rest[0] == s[LeadEnd(s)];
    rest[..k]
  }

  /** The stripped text is a slice of the input with only whitespace cut away at both
      ends. */
  lemma StripMeaning(s: string)
    ensures exists i, j :: 0 <= i <= j <= |s| && Strip(s) == s[i..j] && IsBlank(s[..i]) && IsBlank(s[j..])
  {
    var i := LeadEnd(s);
    var rest := s[i..];
    var k := TrailStart(rest);
    var r := rest[..k];
    assert r == s[i..i + k];
    assert IsBlank(s[i + k..]) by {
      forall m | i + k <= m < |s| ensures IsSpace(s[m]) {
        assert s[m] == rest[m - i];
      }
    }
    if r != [] {
      assert r[0] == s[i];
    }
  }

  /** A text strips to nothing exactly when it is blank. */
  lemma StripBlank(s: string)
    ensures Strip(s) == [] <==> IsBlank(s)
  {
    var i := LeadEnd(s);
    var rest := s[i..];
    if i < |s| {
      var k := TrailStart(rest);
      assert !IsSpace(rest[0]);
      assert k > 0;
      assert !IsBlank(s) by {
        assert s[i] == rest[0];
      }
    }
  }

  /** Python's `s.replace(p, q)`: every non-overlapping occurrence of `p`, scanned from the
      left, becomes `q`. */
  function Replace(s: string, p: string, q: string): (r: string)
    requires p != []
    ensures |q| <= |p| ==> |r| <= |s|
    decreases |s|
  {
    if |s| < |p| then s
    else if s[..|p|] == p then q + Replace(s[|p|..], p, q)
    else [s[0]] + Replace(s[1..], p, q)
  }

  /** A text without the pattern comes back unchanged. */
  lemma {:induction false} ReplaceAbsent(s: string, p: string, q: string)
    requires p != [] && !Contains(s, p)
    ensures Replace(s, p, q) == s
    decreases |s|
  {
    if |s| >= |p| {
      assert !OccursAt(s, p, 0);
      assert !Contains(s[1..], p) by {
        if Contains(s[1..], p) {
          ContainsSuffix(s, p, 1);
        }
      }
      ReplaceAbsent(s[1..], p, q);
    }
  }

  /** A replacement by something shorter strictly shortens a text that contains the
      pattern: the measure of the blank-line loop. */
  lemma {:induction false} ReplaceShortens(s: string, p: string, q: string)
    requires p != [] && |q| < |p| && Contains(s, p)
    ensures |Replace(s, p, q)| < |s|
    decreases |s|
  {
    var i: nat :| i <= |s| && OccursAt(s, p, i);
    if s[..|p|] != p {
      assert i > 0;
      assert OccursAt(s[1..], p, i - 1) by {
        assert s[1..][i - 1..i - 1 + |p|] == s[i..i + |p|];
      }
      ReplaceShortens(s[1..], p, q);
    }
  }

  /** A text that does not start with `c` still does not after the replacement, when the
      pattern starts with `c` (so it cannot match at the start) or the replacement does
      not. */
  lemma ReplaceKeepsHead(s: string, p: string, q: string, c: char)
    requires p != [] && (p[0] == c || (q != [] && q[0] != c))
    requires s != [] && s[0] != c
    ensures Replace(s, p, q) != [] && Replace(s, p, q)[0] != c
  {
  }

  /** Three newlines: two blank lines in a row. */
  const BlankRun: string := "\n\n\n"

  /** The `while '\n\n\n' in response` loop: replace every run of three newlines by two
      until none is left. */
  function CollapseBlankRuns(s: string): (r: string)
    ensures !Contains(r, BlankRun)
    ensures !Contains(s, BlankRun) ==> r == s
    ensures s != [] && s[0] != '\n' ==> r != [] && r[0] != '\n'
    decreases |s|
  {
    if Contains(s, BlankRun) then
      ReplaceShortens(s, BlankRun, "\n\n");
      if s != [] && s[0] != '\n' then
        ReplaceKeepsHead(s, BlankRun, "\n\n", '\n');
        CollapseBlankRuns(Replace(s, BlankRun, "\n\n"))
      else
        CollapseBlankRuns(Replace(s, BlankRun, "\n\n"))
    else s
  }

  /** The title line put in front of an answer that does not open with one. */
  const Title: string := "# R\U{e9}sultats"
  const Heading: string := Title + "\n\n"

  /** Where an occurrence of two blank lines in `a + b` can lie. */
  lemma BlankRunSplits(a: string, b: string, i: nat)
    requires OccursAt(a + b, BlankRun, i)
    ensures i + 3 <= |a| ==> OccursAt(a, BlankRun, i)
    ensures i < |a| < i + 3 ==> b != [] && b[0] == '\n'
    ensures i < |a| ==> '\n' in a
    ensures i >= |a| ==> OccursAt(b, BlankRun, i - |a|)
  {
    var ab := a + b;
    if i + 3 <= |a| {
      assert ab[i..i + 3] == a[i..i + 3];
    } else if i >= |a| {
      assert ab[i..i + 3] == b[i - |a|..i - |a| + 3];
    } else {
      assert ab[i..i + 3][|a| - i] == ab[|a|] == b[0];
    }
    if i < |a| {
      assert ab[i..i + 3][0] == ab[i] == a[i];
      assert a[i] in a;
    }
  }

  /** Two blank lines in a row appear in `a + b` only inside `a`, inside `b`, or across the
      seam when `b` starts a line break. */
  lemma NoBlankRunAcross(a: string, b: string)
    requires !Contains(a, BlankRun) && !Contains(b, BlankRun)
    requires b == [] || b[0] != '\n'
    ensures !Contains(a + b, BlankRun)
  {
    if Contains(a + b, BlankRun) {
      var i: nat :| i <= |a + b| && OccursAt(a + b, BlankRun, i);
      BlankRunSplits(a, b, i);
      assert false;
    }
  }

  /** A prefix with no line break cannot take part in a run of blank lines. */
  lemma NoBlankRunAfterLine(a: string, b: string)
    requires '\n' !in a && !Contains(b, BlankRun)
    ensures !Contains(a + b, BlankRun)
  {
    if Contains(a + b, BlankRun) {
      var i: nat :| i <= |a + b| && OccursAt(a + b, BlankRun, i);
      BlankRunSplits(a, b, i);
      assert false;
    }
  }

  /** The fences and deep headings rewritten, in the order the source applies them. */
  function Flatten(s: string): (r: string)
    ensures s != [] && !IsSpace(s[0]) ==> r != [] && r[0] != '\n'
  {
    var s1 := Replace(s, "```json", "`json`");
    var s2 := Replace(s1, "```yaml", "`yaml`");
    var s3 := Replace(s2, "```", "`");
    var s4 := Replace(s3, "####", "##");
    var s5 := Replace(s4, "###", "##");
    if s != [] && !IsSpace(s[0]) then
      ReplaceKeepsHead(s, "```json", "`json`", '\n');
      ReplaceKeepsHead(s1, "```yaml", "`yaml`", '\n');
      ReplaceKeepsHead(s2, "```", "`", '\n');
      ReplaceKeepsHead(s3, "####", "##", '\n');
      ReplaceKeepsHead(s4, "###", "##", '\n');
      s5
    else s5
  }

  /** The last step: put the title in front of a text that does not open with `#`. */
  function Titled(body: string): (r: string)
    ensures StartsWith(r, "#")
    ensures StartsWith(body, "#") ==> r == body
    ensures !StartsWith(body, "#") ==> r == Heading + body
    ensures !Contains(body, BlankRun) && (body == [] || body[0] != '\n') ==> !Contains(r, BlankRun)
  {
    if StartsWith(body, "#") then body
    else
      assert '\n' !in Title;
      assert !Contains("\n\n", BlankRun);
      assert Heading + body == Title + ("\n\n" + body);
      if !Contains(body, BlankRun) && (body == [] || body[0] != '\n') then
        NoBlankRunAcross("\n\n", body);
        NoBlankRunAfterLine(Title, "\n\n" + body);
        Heading + body
      else Heading + body
  }

  /** `_ensure_simple_markdown`. */
  function EnsureSimpleMarkdown(response: string): (r: string)
    ensures StartsWith(r, "#")
    ensures !Contains(r, BlankRun)
    ensures IsBlank(response) ==> r == Heading
  {
    var stripped := Strip(response);
    StripMeaning(response);
    StripBlank(response);
    Titled(CollapseBlankRuns(Flatten(stripped)))
  }

  /** An answer that, once trimmed, has no code fence, no heading deeper than two and no
      double blank line is only trimmed, and given the title when it does not open with
      `#`. */
  lemma CleanAnswerOnlyTitled(response: string)
    requires var s := Strip(response);
      !Contains(s, "```") && !Contains(s, "###") && !Contains(s, BlankRun)
    ensures var s := Strip(response);
      EnsureSimpleMarkdown(response) == if StartsWith(s, "#") then s else Heading + s
  {
    var s := Strip(response);
    assert "```json" == "```" + "json" && "```yaml" == "```" + "yaml" && "####" == "###" + "#";
    if Contains(s, "```json") {
      ContainsPrefixOfPattern(s, "```", "json");
    }
    if Contains(s, "```yaml") {
      ContainsPrefixOfPattern(s, "```", "yaml");
    }
    if Contains(s, "####") {
      ContainsPrefixOfPattern(s, "###", "#");
    }
    ReplaceAbsent(s, "```json", "`json`");
    ReplaceAbsent(s, "```yaml", "`yaml`");
    ReplaceAbsent(s, "```", "`");
    ReplaceAbsent(s, "####", "##");
    ReplaceAbsent(s, "###", "##");
    assert Flatten(s) == s;
  }

  /** The heading rewrite is a single left-to-right pass, so a run of six `#` comes out as
      three: the normaliser does not remove every `###`. */
  lemma DeepHeadingSurvives()
    ensures EnsureSimpleMarkdown("######") == "###"
  {
    assert LeadEnd("######") == 0 && TrailStart("######") == 6;
    assert Strip("######") == "######";
    SixHashesFlatten();
    assert !Contains("###", BlankRun);
  }

  /** The rewrite steps on a run of six `#`: no fence to touch, then `####` becomes `##`
      and the `###` this leaves behind becomes `##` once more. */
  lemma SixHashesFlatten()
    ensures Flatten("######") == "###"
  {
    assert Replace("######", "```json", "`json`") == "######";
    assert Replace("######", "```yaml", "`yaml`") == "######";
    assert Replace("######", "```", "`") == "######";
    assert Replace("######", "####", "##") == "####";
    assert Replace("####", "###", "##") == "###";
  }
}

=== FILE: proposals.dfy ===
/** The deletion-proposal list kept by the rule-evaluation worker: de-duplicated
    creation, approval through one registry delete call, rejection, and the per-status
    statistics. The list is append-only and every transition is a pure function from the
    old list to the new one. */
module Proposals {
  import opened Wrappers
  import opened External
  import RuleEngine
  import Seqs
  import Text

  /** The four statuses the worker ever writes. */
  datatype Status = PendingApproval | Approved | Rejected | Failed

  /** One entry of a candidate's `matching_rules`. */
  datatype MatchedRule = MatchedRule(id: nat, name: string, ruleType: string, description: string)

  /** A deletion candidate: the evaluated tag and the rules it matched. */
  datatype Candidate = Candidate(
    image: RuleEngine.ImageData,
    matchingRuleIds: seq<nat>,
    matchingRules: seq<MatchedRule>)

  /** A proposal. `id` is the millisecond clock reading taken at creation; the optional
      stamps are the keys the transitions add. */
  datatype Proposal = Proposal(
    id: int,
    imageName: string,
    tag: string,
    reason: string,
    proposedAt: int,
    status: Status,
    imageData: RuleEngine.ImageData,
    matchingRuleIds: seq<nat>,
    matchingRules: seq<MatchedRule>,
    executedAt: Option<int>,
    error: Option<string>,
    failedAt: Option<int>,
    rejectedAt: Option<int>)

  const ReasonPrefix: string := "Matches rules: "

  /** `"name (type)"` for one matched rule. */
  function RuleDescription(r: MatchedRule): string {
    r.name + " (" + r.ruleType + ")"
  }

  /** The proposal's reason: the prefix, then the comma-joined rule descriptions. */
  function Reason(rules: seq<MatchedRule>): (s: string)
    ensures Text.StartsWith(s, ReasonPrefix)
    ensures rules == [] ==> s == ReasonPrefix
    ensures |rules| == 1 ==> s == ReasonPrefix + rules[0].name + " (" + rules[0].ruleType + ")"
  {
    ReasonPrefix + Text.JoinStrings(Descriptions(rules), ", ")
  }

  /** The description of every matched rule, in order. */
  function Descriptions(rules: seq<MatchedRule>): (d: seq<string>)
    ensures |d| == |rules|
    ensures forall i :: 0 <= i < |rules| ==> d[i] == RuleDescription(rules[i])
  {
    seq(|rules|, i requires 0 <= i < |rules| => RuleDescription(rules[i]))
  }

  /** One more matched rule adds a comma and its description at the end of the reason:
      the reason lists every rule, in order. */
  lemma ReasonSnoc(rules: seq<MatchedRule>, m: MatchedRule)
    requires rules != []
    ensures Reason(rules + [m]) == Reason(rules) + ", " + RuleDescription(m)
  {
    assert Descriptions(rules + [m]) == Descriptions(rules) + [RuleDescription(m)];
    Text.JoinStringsSnoc(Descriptions(rules), RuleDescription(m), ", ");
  }

  /** The proposal built for a candidate, before the duplicate check: pending, for the
      candidate's image and tag, carrying its evaluation, stamped with the clock, and with
      none of the keys a later transition adds. */
  function NewProposal(c: Candidate, nowUtc: int, idMillis: int): (p: Proposal)
    ensures PendingFor(p, c.image.imageName, c.image.tag)
    ensures p.id == idMillis && p.proposedAt == nowUtc && p.reason == Reason(c.matchingRules)
    ensures p.imageData == c.image && p.matchingRuleIds == c.matchingRuleIds && p.matchingRules == c.matchingRules
    ensures p.executedAt.None? && p.error.None? && p.failedAt.None? && p.rejectedAt.None?
  {
    Proposal(idMillis, c.image.imageName, c.image.tag, Reason(c.matchingRules), nowUtc, PendingApproval,
             c.image, c.matchingRuleIds, c.matchingRules, None, None, None, None)
  }

  /** A pending proposal for this image and tag. */
  predicate PendingFor(p: Proposal, imageName: string, tag: string) {
    p.imageName == imageName && p.tag == tag && p.status == PendingApproval
  }

  /** Some proposal of the list is pending for this image and tag. */
  predicate HasPending(ps: seq<Proposal>, imageName: string, tag: string) {
    exists i | 0 <= i < |ps| :: PendingFor(ps[i], imageName, tag)
  }

  /** At most one pending proposal per (image, tag). */
  predicate UniquePending(ps: seq<Proposal>) {
    forall i, j | 0 <= i < j < |ps| && PendingFor(ps[i], ps[j].imageName, ps[j].tag) :: ps[j].status != PendingApproval
  }

  /** `_create_deletion_proposal`: appends the new proposal unless one is already pending
      for the same image and tag; the built proposal is returned either way. */
  function CreateDeletionProposal(ps: seq<Proposal>, c: Candidate, nowUtc: int, idMillis: int): (r: (seq<Proposal>, Proposal))
    ensures r.1.status == PendingApproval && r.1.imageName == c.image.imageName && r.1.tag == c.image.tag
    ensures r.1.reason == Reason(c.matchingRules) && r.1.id == idMillis
    ensures HasPending(ps, c.image.imageName, c.image.tag) ==> r.0 == ps
    ensures !HasPending(ps, c.image.imageName, c.image.tag) ==> r.0 == ps + [r.1]
    ensures HasPending(r.0, c.image.imageName, c.image.tag)
  {
    var p := NewProposal(c, nowUtc, idMillis);
    if HasPending(ps, p.imageName, p.tag) then (ps, p)
    else
      assert PendingFor((ps + [p])[|ps|], p.imageName, p.tag);
      (ps + [p], p)
  }

  /** Creation keeps at most one pending proposal per (image, tag). */
  lemma CreatePreservesUniquePending(ps: seq<Proposal>, c: Candidate, nowUtc: int, idMillis: int)
    requires UniquePending(ps)
    ensures UniquePending(CreateDeletionProposal(ps, c, nowUtc, idMillis).0)
  {
  }

  /** Creating again for the same image and tag, while the first is pending, changes
      nothing. */
  lemma CreateIsIdempotent(ps: seq<Proposal>, c: Candidate, c': Candidate, nowUtc: int, idMillis: int, nowUtc': int, idMillis': int)
    requires c'.image.imageName == c.image.imageName && c'.image.tag == c.image.tag
    ensures var once := CreateDeletionProposal(ps, c, nowUtc, idMillis).0;
      CreateDeletionProposal(once, c', nowUtc', idMillis').0 == once
  {
  }

  /** Index of the first proposal with this id. */
  function FindById(ps: seq<Proposal>, id: int): (r: Option<nat>)
    ensures r.Some? ==> r.value < |ps| && ps[r.value].id == id && forall k :: 0 <= k < r.value ==> ps[k].id != id
    ensures r.None? <==> forall k :: 0 <= k < |ps| ==> ps[k].id != id
    decreases |ps|
  {
    if ps == [] then None
    else if ps[0].id == id then Some(0)
    else
      match FindById(ps[1..], id)
      case None => None
      case Some(k) => Some(k + 1)
  }

  /** What an approval or rejection answers. */
  datatype Reply =
    | ProposalNotFound
    | AlreadyProcessed(status: Status)
    | DeletionExecuted(imageName: string, tag: string)
    | RegistryRefused
    | DeletionError(message: string)
    | ProposalRejected(imageName: string, tag: string)

  datatype ActionResult = ActionResult(success: bool, reply: Reply)

  /** The same proposal with only its status and the transition's stamps changed. */
  predicate SameProposal(p: Proposal, q: Proposal) {
    && p.id == q.id && p.imageName == q.imageName && p.tag == q.tag && p.reason == q.reason
    && p.proposedAt == q.proposedAt && p.imageData == q.imageData
    && p.matchingRuleIds == q.matchingRuleIds && p.matchingRules == q.matchingRules
  }

  /** `approve_deletion_proposal`. `deleteTag` is the registry's delete call: true,
      false (a falsy answer) or raising. Only the first proposal with the id is looked at. */
  function ApproveDeletionProposal(ps: seq<Proposal>, id: int, deleteTag: (string, string) -> Answer<bool>, nowUtc: int)
    : (r: (seq<Proposal>, ActionResult))
    ensures |r.0| == |ps|
    ensures FindById(ps, id).None? ==> r == (ps, ActionResult(false, ProposalNotFound))
    ensures FindById(ps, id).Some? && ps[FindById(ps, id).value].status != PendingApproval ==>
      r == (ps, ActionResult(false, AlreadyProcessed(ps[FindById(ps, id).value].status)))
    ensures FindById(ps, id).Some? && ps[FindById(ps, id).value].status == PendingApproval ==>
      var i := FindById(ps, id).value;
      var p := ps[i];
      var q := r.0[i];
      && (forall k :: 0 <= k < |ps| && k != i ==> r.0[k] == ps[k])
      && SameProposal(q, p) && q.status != PendingApproval && q.rejectedAt == p.rejectedAt
      && (deleteTag(p.imageName, p.tag) == Answered(true) ==>
            q.status == Approved && q.executedAt == Some(nowUtc) && q.error == p.error && q.failedAt == p.failedAt)
      && (deleteTag(p.imageName, p.tag) == Answered(false) ==>
            q.status == Failed && q.executedAt == p.executedAt && q.error == p.error && q.failedAt == p.failedAt)
      && (deleteTag(p.imageName, p.tag).Raised? ==>
            q.status == Failed && q.executedAt == p.executedAt &&
            q.error == Some(deleteTag(p.imageName, p.tag).message) && q.failedAt == Some(nowUtc))
    ensures r.1.success <==>
      FindById(ps, id).Some? && ps[FindById(ps, id).value].status == PendingApproval &&
      deleteTag(ps[FindById(ps, id).value].imageName, ps[FindById(ps, id).value].tag) == Answered(true)
  {
    match FindById(ps, id)
    case None => (ps, ActionResult(false, ProposalNotFound))
    case Some(i) =>
      var p := ps[i];
      if p.status != PendingApproval then (ps, ActionResult(false, AlreadyProcessed(p.status)))
      else
        match deleteTag(p.imageName, p.tag)
        case Answered(ok) =>
          if ok then (ps[i := p.(status := Approved, executedAt := Some(nowUtc))], ActionResult(true, DeletionExecuted(p.imageName, p.tag)))
          else (ps[i := p.(status := Failed)], ActionResult(false, RegistryRefused))
        case Raised(e) =>
          (ps[i := p.(status := Failed, error := Some(e), failedAt := Some(nowUtc))], ActionResult(false, DeletionError(e)))
  }

  /** `reject_deletion_proposal`: marks the first proposal with the id rejected, if it is
      pending. */
  function RejectDeletionProposal(ps: seq<Proposal>, id: int, nowUtc: int): (r: (seq<Proposal>, ActionResult))
    ensures |r.0| == |ps|
    ensures FindById(ps, id).None? ==> r == (ps, ActionResult(false, ProposalNotFound))
    ensures FindById(ps, id).Some? && ps[FindById(ps, id).value].status != PendingApproval ==>
      r == (ps, ActionResult(false, AlreadyProcessed(ps[FindById(ps, id).value].status)))
    ensures FindById(ps, id).Some? && ps[FindById(ps, id).value].status == PendingApproval ==>
      var i := FindById(ps, id).value;
      var p := ps[i];
      && (forall k :: 0 <= k < |ps| && k != i ==> r.0[k] == ps[k])
      && r.0[i] == p.(status := Rejected, rejectedAt := Some(nowUtc))
      && r.1 == ActionResult(true, ProposalRejected(p.imageName, p.tag))
    ensures r.1.success <==> FindById(ps, id).Some? && ps[FindById(ps, id).value].status == PendingApproval
  {
    match FindById(ps, id)
    case None => (ps, ActionResult(false, ProposalNotFound))
    case Some(i) =>
      var p := ps[i];
      if p.status != PendingApproval then (ps, ActionResult(false, AlreadyProcessed(p.status)))
      else (ps[i := p.(status := Rejected, rejectedAt := Some(nowUtc))], ActionResult(true, ProposalRejected(p.imageName, p.tag)))
  }

  /** Taking a proposal out of the pending state keeps at most one pending proposal per
      (image, tag). */
  lemma ResolvePreservesUniquePending(ps: seq<Proposal>, i: nat, q: Proposal)
    requires UniquePending(ps) && i < |ps| && q.status != PendingApproval
    ensures UniquePending(ps[i := q])
  {
  }

  /** Approval and rejection keep at most one pending proposal per (image, tag). */
  lemma TransitionsPreserveUniquePending(ps: seq<Proposal>, id: int, deleteTag: (string, string) -> Answer<bool>, nowUtc: int)
    requires UniquePending(ps)
    ensures UniquePending(ApproveDeletionProposal(ps, id, deleteTag, nowUtc).0)
    ensures UniquePending(RejectDeletionProposal(ps, id, nowUtc).0)
  {
    var f := FindById(ps, id);
    if f.Some? && ps[f.value].status == PendingApproval {
      ResolvePreservesUniquePending(ps, f.value, ApproveDeletionProposal(ps, id, deleteTag, nowUtc).0[f.value]);
      ResolvePreservesUniquePending(ps, f.value, RejectDeletionProposal(ps, id, nowUtc).0[f.value]);
    }
  }

  /** A proposal is settled once: approving or rejecting it again answers that it was
      already processed and changes nothing. */
  lemma SettledOnce(ps: seq<Proposal>, id: int, deleteTag: (string, string) -> Answer<bool>, nowUtc: int, later: int)
    requires FindById(ps, id).Some?
    ensures var once := ApproveDeletionProposal(ps, id, deleteTag, nowUtc).0;
      && ApproveDeletionProposal(once, id, deleteTag, later).0 == once
      && !ApproveDeletionProposal(once, id, deleteTag, later).1.success
      && RejectDeletionProposal(once, id, later).0 == once
    ensures var once := RejectDeletionProposal(ps, id, nowUtc).0;
      && ApproveDeletionProposal(once, id, deleteTag, later).0 == once
      && RejectDeletionProposal(once, id, later).0 == once
      && !RejectDeletionProposal(once, id, later).1.success
  {
    var i := FindById(ps, id).value;
    var a := ApproveDeletionProposal(ps, id, deleteTag, nowUtc).0;
    var j := RejectDeletionProposal(ps, id, nowUtc).0;
    FindByIdAfterUpdate(ps, id, a);
    FindByIdAfterUpdate(ps, id, j);
  }

  /** Changing proposals other than in their ids leaves the lookup where it was. */
  lemma FindByIdAfterUpdate(ps: seq<Proposal>, id: int, qs: seq<Proposal>)
    requires |qs| == |ps| && forall k :: 0 <= k < |ps| ==> qs[k].id == ps[k].id
    ensures FindById(qs, id) == FindById(ps, id)
    decreases |ps|
  {
    if ps != [] {
      FindByIdAfterUpdate(ps[1..], id, qs[1..]);
    }
  }

  /** The test for one status. */
  function StatusIs(s: Status): Proposal -> bool {
    (p: Proposal) => p.status == s
  }

  /** The per-status counts and the total. */
  datatype Stats = Stats(pending: nat, approved: nat, rejected: nat, failed: nat, total: nat)

  /** The four per-status counts of a list add up to its length. */
  lemma {:induction false} StatusCountsSum(ps: seq<Proposal>)
    ensures Seqs.CountWhere(StatusIs(PendingApproval), ps) + Seqs.CountWhere(StatusIs(Approved), ps)
          + Seqs.CountWhere(StatusIs(Rejected), ps) + Seqs.CountWhere(StatusIs(Failed), ps) == |ps|
    decreases |ps|
  {
    if ps != [] {
      StatusCountsSum(ps[1..]);
    }
  }

  /** `get_proposal_stats`: one pass over the list, counting each status. */
  method GetProposalStats(ps: seq<Proposal>) returns (s: Stats)
    ensures s.total == |ps|
    ensures s.pending == Seqs.CountWhere(StatusIs(PendingApproval), ps)
    ensures s.approved == Seqs.CountWhere(StatusIs(Approved), ps)
    ensures s.rejected == Seqs.CountWhere(StatusIs(Rejected), ps)
    ensures s.failed == Seqs.CountWhere(StatusIs(Failed), ps)
    ensures s.pending + s.approved + s.rejected + s.failed == s.total
  {
    var pending, approved, rejected, failed := 0, 0, 0, 0;
    var i := 0;
    while i < |ps|
      invariant 0 <= i <= |ps|
      invariant pending == Seqs.CountWhere(StatusIs(PendingApproval), ps[..i])
      invariant approved == Seqs.CountWhere(StatusIs(Approved), ps[..i])
      invariant rejected == Seqs.CountWhere(StatusIs(Rejected), ps[..i])
      invariant failed == Seqs.CountWhere(StatusIs(Failed), ps[..i])
    {
      Seqs.CountWhereSnoc(StatusIs(PendingApproval), ps, i);
      Seqs.CountWhereSnoc(StatusIs(Approved), ps, i);
      Seqs.CountWhereSnoc(StatusIs(Rejected), ps, i);
      Seqs.CountWhereSnoc(StatusIs(Failed), ps, i);
      match ps[i].status {
        case PendingApproval => pending := pending + 1;
        case Approved => approved := approved + 1;
        case Rejected => rejected := rejected + 1;
        case Failed => failed := failed + 1;
      }
      i := i + 1;
    }
    assert ps[..i] == ps;
    StatusCountsSum(ps);
    s := Stats(pending, approved, rejected, failed, |ps|);
  }

  /** The worker's lifecycle flags: the run flag and its background task. */
  datatype Worker = Worker(running: bool, hasTask: bool, taskDone: bool)

  /** `is_healthy`: the one healthy state is running with a task that has not finished. */
  predicate IsHealthy(w: Worker)
    ensures IsHealthy(w) <==> w == Worker(true, true, false)
  {
    w.running && w.hasTask && !w.taskDone
  }

  /** `stop`. */
  function Stop(w: Worker): (r: Worker)
    ensures !IsHealthy(r)
    ensures r.hasTask == w.hasTask && r.taskDone == w.taskDone
  {
    w.(running := false)
  }
}

=== FILE: registry.dfy ===
/** The registry service's read side: joining the registry catalog with the deployed
    image references the cluster query answers, the filter criteria and their parsing,
    and the filtered image listing. */
module Registry {
  import opened Wrappers
  import opened External
  import Text
  import Seqs
  import ImageRef

  /** What `get_detailed_image_info` reports for one tag (`size` defaults to 0). */
  datatype TagInfo = TagInfo(size: int, created: DateField, lastModified: DateField)

  /** A snapshot of the collaborators the service queries: the deployed image
      references the cluster query answered, the registry catalog, the tag listing per
      repository and the per-tag metadata calls, each of which may raise. The deployed
      set covers only the requested namespace's workloads, and after a failed query it
      holds whatever was gathered before the failure, possibly nothing. */
  datatype RegistryView = RegistryView(
    deployed: set<string>,
    catalog: seq<string>,
    tagsOf: string -> seq<string>,
    detailOf: (string, string) -> Answer<TagInfo>,
    sizeOf: (string, string) -> Answer<int>,
    createdOf: (string, string) -> Answer<DateField>)

  /** One entry of `detailed_tags`. */
  datatype DetailedTag = DetailedTag(
    tag: string,
    size: int,
    created: DateField,
    lastModified: DateField,
    isDeployed: bool,
    error: Option<string>)

  /** One image record of the listing; `detailedTags` is present only once details were
      requested. */
  datatype ImageStatus = ImageStatus(
    name: string,
    tags: seq<string>,
    tagCount: nat,
    isDeployed: bool,
    deployedTags: seq<string>,
    deployedTagsCount: nat,
    detailedTags: Option<seq<DetailedTag>>)

  /** The deployed references grouped by repository name after normalisation:
      repository name to the set of its deployed tags. */
  function NormalizedDeployed(deployed: set<string>): (m: map<string, set<string>>)
    ensures forall d :: d in deployed ==>
      ImageRef.ExtractNameAndTag(d).0 in m && ImageRef.ExtractNameAndTag(d).1 in m[ImageRef.ExtractNameAndTag(d).0]
    ensures forall n, t :: n in m && t in m[n] ==>
      exists d :: d in deployed && ImageRef.ExtractNameAndTag(d) == (n, t)
  {
    var names := set d | d in deployed :: ImageRef.ExtractNameAndTag(d).0;
    map n | n in names :: set d | d in deployed && ImageRef.ExtractNameAndTag(d).0 == n :: ImageRef.ExtractNameAndTag(d).1
  }

  /** A repository name is deployed when some deployed reference normalises to it. */
  predicate DeployedName(deployed: set<string>, name: string) {
    exists d :: d in deployed && ImageRef.ExtractNameAndTag(d).0 == name
  }

  /** A tag of a repository is deployed when some deployed reference normalises to it. */
  predicate DeployedTag(deployed: set<string>, name: string, tag: string) {
    exists d :: d in deployed && ImageRef.ExtractNameAndTag(d) == (name, tag)
  }

  /** The deployed tags of a repository, given its tags in the deployed set: the
      listed tags among them (each once), then the first listed tag when `latest` is
      among them and the registry lists no `latest` tag. */
  function DeployedTagsOf(running: set<string>, tags: seq<string>): (r: seq<string>)
    ensures forall t :: t in r ==> t in tags
    ensures forall t :: t in tags && t in running ==> t in r
    ensures forall t :: t in r ==> t in running || (tags != [] && t == tags[0] && "latest" in running)
    ensures LatestFallback(running, tags) ==> r != [] && r[|r| - 1] == tags[0]
    ensures |r| == |RunningTags(running, tags)| + (if LatestFallback(running, tags) then 1 else 0)
    ensures !LatestFallback(running, tags) ==> Seqs.Distinct(r)
  {
    var found := Seqs.Dedup(Seqs.Filter((t: string) => t in running, tags));
    Seqs.DistinctCardinality(found);
    assert (set t | t in found) == RunningTags(running, tags);
    found + (if LatestFallback(running, tags) then [tags[0]] else [])
  }

  /** The listed tags in the deployed set, as a set. */
  function RunningTags(running: set<string>, tags: seq<string>): set<string> {
    set t | t in tags && t in running
  }

  /** The deployed set holds `latest`, the registry lists tags but none named `latest`: the
      first listed tag stands in for it. */
  predicate LatestFallback(running: set<string>, tags: seq<string>) {
    "latest" in running && "latest" !in tags && tags != []
  }

  /** The grouping finds a repository exactly when it is deployed, and then holds exactly
      its deployed tags. */
  lemma NormalizedDeployedMeaning(deployed: set<string>, name: string)
    ensures name in NormalizedDeployed(deployed) <==> DeployedName(deployed, name)
    ensures name in NormalizedDeployed(deployed) ==>
      forall t :: t in NormalizedDeployed(deployed)[name] <==> DeployedTag(deployed, name, t)
  {
  }

  /** The record for one catalog entry. The deployed tags are the repository's tags the
      deployed set holds (each once), plus the first tag when it holds `latest` and the
      registry has no `latest` tag. */
  function StatusOf(deployed: set<string>, name: string, tags: seq<string>): (r: ImageStatus)
    ensures r.name == name && r.tags == tags && r.tagCount == |tags|
    ensures r.isDeployed <==> DeployedName(deployed, name)
    ensures r.deployedTagsCount == |r.deployedTags|
    ensures forall t :: t in r.deployedTags ==> t in tags
    ensures !r.isDeployed ==> r.deployedTags == []
    ensures forall t :: t in tags && DeployedTag(deployed, name, t) ==> t in r.deployedTags
    ensures forall t :: t in r.deployedTags ==>
      DeployedTag(deployed, name, t) || (tags != [] && t == tags[0] && DeployedTag(deployed, name, "latest"))
    ensures DeployedTag(deployed, name, "latest") && "latest" !in tags && tags != [] ==>
      r.deployedTags != [] && r.deployedTags[|r.deployedTags| - 1] == tags[0]
    ensures r.isDeployed ==>
      |r.deployedTags| == |DeployedTagSet(deployed, name, tags)| +
        (if DeployedTag(deployed, name, "latest") && "latest" !in tags && tags != [] then 1 else 0)
    ensures !(DeployedTag(deployed, name, "latest") && "latest" !in tags && tags != []) ==> Seqs.Distinct(r.deployedTags)
    ensures r.detailedTags == None
  {
    var nd := NormalizedDeployed(deployed);
    NormalizedDeployedMeaning(deployed, name);
    var isDeployed := name in nd;
    assert isDeployed ==> RunningTags(nd[name], tags) == DeployedTagSet(deployed, name, tags);
    var deployedTags := if isDeployed then DeployedTagsOf(nd[name], tags) else [];
    ImageStatus(name, tags, |tags|, isDeployed, deployedTags, |deployedTags|, None)
  }

  /** The listed tags of a repository that the deployed set holds, as a set. */
  function DeployedTagSet(deployed: set<string>, name: string, tags: seq<string>): set<string> {
    set t | t in tags && DeployedTag(deployed, name, t)
  }

  /** `get_images_with_deployment_status`: one record per catalog entry, in catalog order. */
  function GetImagesWithDeploymentStatus(v: RegistryView): (r: seq<ImageStatus>)
    ensures |r| == |v.catalog|
    ensures forall i :: 0 <= i < |r| ==> r[i] == StatusOf(v.deployed, v.catalog[i], v.tagsOf(v.catalog[i]))
  {
    seq(|v.catalog|, i requires 0 <= i < |v.catalog| => StatusOf(v.deployed, v.catalog[i], v.tagsOf(v.catalog[i])))
  }

  /** The first record of the listing with a given name, as `next(..., None)` finds it. */
  function FindByName(images: seq<ImageStatus>, name: string): (r: Option<ImageStatus>)
    ensures r.Some? ==> r.value in images && r.value.name == name
    ensures r.Some? ==> exists i :: 0 <= i < |images| && images[i] == r.value && NoneNamedBefore(images, name, i)
    ensures r.None? <==> forall i :: 0 <= i < |images| ==> images[i].name != name
    decreases |images|
  {
    if images == [] then None
    else if images[0].name == name then
      assert NoneNamedBefore(images, name, 0);
      Some(images[0])
    else
      var r := FindByName(images[1..], name);
      assert forall i :: 1 <= i < |images| ==> images[i] == images[1..][i - 1];
      assert r.Some? ==> exists i :: 0 <= i < |images| && images[i] == r.value && NoneNamedBefore(images, name, i) by {
        if r.Some? {
          var i :| 0 <= i < |images| - 1 && images[1..][i] == r.value && NoneNamedBefore(images[1..], name, i);
          assert images[i + 1] == r.value && NoneNamedBefore(images, name, i + 1);
        }
      }
      r
  }

  /** No record before position `i` carries the name. */
  predicate NoneNamedBefore(images: seq<ImageStatus>, name: string, i: nat)
    requires i <= |images|
  {
    forall j :: 0 <= j < i ==> images[j].name != name
  }

  /** The listing has a record for a name exactly when the catalog lists it. */
  lemma FindInStatusListing(v: RegistryView, name: string)
    ensures FindByName(GetImagesWithDeploymentStatus(v), name).Some? <==> name in v.catalog
    ensures FindByName(GetImagesWithDeploymentStatus(v), name).Some? ==>
      FindByName(GetImagesWithDeploymentStatus(v), name).value == StatusOf(v.deployed, name, v.tagsOf(name))
  {
    var images := GetImagesWithDeploymentStatus(v);
    if name in v.catalog {
      var i :| 0 <= i < |v.catalog| && v.catalog[i] == name;
      assert images[i].name == name;
    }
    var f := FindByName(images, name);
    if f.Some? {
      var i :| 0 <= i < |images| && images[i] == f.value;
      assert v.catalog[i] == name;
    }
  }

  /** The filter criteria of the listing. */
  datatype Criteria = All | Deployed | NotDeployed | OlderThan | ModifiedBefore | LargerThan | UnusedTags

  /** The string value of each criterion. */
  function CriteriaValue(c: Criteria): string {
    match c
    case All => "all"
    case Deployed => "deployed"
    case NotDeployed => "not_deployed"
    case OlderThan => "older_than"
    case ModifiedBefore => "modified_before"
    case LargerThan => "larger_than"
    case UnusedTags => "unused_tags"
  }

  /** The criterion whose value equals `s`, if any: `ImageFilterCriteria(s)`. */
  function CriteriaOf(s: string): (r: Option<Criteria>)
    ensures r.Some? ==> CriteriaValue(r.value) == s
    ensures r.None? ==> forall c: Criteria :: CriteriaValue(c) != s
  {
    if s == "all" then Some(All)
    else if s == "deployed" then Some(Deployed)
    else if s == "not_deployed" then Some(NotDeployed)
    else if s == "older_than" then Some(OlderThan)
    else if s == "modified_before" then Some(ModifiedBefore)
    else if s == "larger_than" then Some(LargerThan)
    else if s == "unused_tags" then Some(UnusedTags)
    else None
  }

  /** Criteria parsing of `get_filtered_images`: the lower-cased string, falling back to
      `ALL` when it names no criterion. */
  function ParseCriteria(s: string): (c: Criteria)
    ensures Text.Lower(s) == CriteriaValue(c) || (c == All && forall k: Criteria :: CriteriaValue(k) != Text.Lower(s))
  {
    CriteriaOf(Text.Lower(s)).GetOr(All)
  }

  /** Parsing ignores letter case: a string and its lower-cased form parse alike. */
  lemma ParseCriteriaIgnoresCase(s: string)
    ensures ParseCriteria(s) == ParseCriteria(Text.Lower(s))
  {
    Text.LowerIdempotent(s);
  }

  /** Every criterion's own value parses back to it, whatever its letter case. */
  lemma ParseCriteriaValue(c: Criteria, s: string)
    requires Text.Lower(s) == CriteriaValue(c)
    ensures ParseCriteria(s) == c
  {
  }

  /** `_matches_filter` for one record. Dates and sizes come from the per-tag calls; a
      call that raises, a missing or unparseable date and an aware date skip that tag. */
  predicate MatchesFilter(img: ImageStatus, c: Criteria, daysOld: int, sizeMb: int, nowLocal: int, v: RegistryView)
    ensures c == All ==> MatchesFilter(img, c, daysOld, sizeMb, nowLocal, v)
    ensures c == Deployed ==> (MatchesFilter(img, c, daysOld, sizeMb, nowLocal, v) <==> img.isDeployed)
    ensures c == NotDeployed ==> (MatchesFilter(img, c, daysOld, sizeMb, nowLocal, v) <==> !img.isDeployed)
    ensures c == UnusedTags ==> (MatchesFilter(img, c, daysOld, sizeMb, nowLocal, v) <==> |img.tags| > |img.deployedTags|)
    ensures c == LargerThan && img.detailedTags.None? ==>
      (MatchesFilter(img, c, daysOld, sizeMb, nowLocal, v) <==>
        exists t :: t in img.tags && v.sizeOf(img.name, t).Answered? && v.sizeOf(img.name, t).value > sizeMb * 1048576)
    ensures c == OlderThan ==>
      (MatchesFilter(img, c, daysOld, sizeMb, nowLocal, v) <==>
        exists t :: t in img.tags && v.createdOf(img.name, t).Answered? &&
          var d := v.createdOf(img.name, t).value;
          d.Date? && !d.ts.hasOffset && d.ts.micros < nowLocal - daysOld * MicrosPerDay)
    ensures c == ModifiedBefore ==>
      (MatchesFilter(img, c, daysOld, sizeMb, nowLocal, v) <==>
        exists t :: t in img.tags && v.detailOf(img.name, t).Answered? &&
          var d := v.detailOf(img.name, t).value.lastModified;
          d.Date? && !d.ts.hasOffset && d.ts.micros < nowLocal - daysOld * MicrosPerDay)
  {
    match c
    case All => true
    case Deployed => img.isDeployed
    case NotDeployed => !img.isDeployed
    case UnusedTags => |img.tags| > |img.deployedTags|
    case LargerThan =>
      var limit := sizeMb * BytesPerMb;
      if img.detailedTags.Some? then
        Seqs.Any((d: DetailedTag) => d.size > limit, img.detailedTags.value)
      else
        Seqs.Any((t: string) => var a := v.sizeOf(img.name, t); a.Answered? && a.value > limit, img.tags)
    case OlderThan =>
      var cutoff := DaysBefore(nowLocal, daysOld);
      Seqs.Any((t: string) => var a := v.createdOf(img.name, t); a.Answered? && StrictlyBefore(a.value, cutoff), img.tags)
    case ModifiedBefore =>
      var cutoff := DaysBefore(nowLocal, daysOld);
      Seqs.Any((t: string) => var a := v.detailOf(img.name, t); a.Answered? && StrictlyBefore(a.value.lastModified, cutoff), img.tags)
  }

  /** The `detailed_tags` entry for one tag; a raising call yields size 0 and no dates. */
  function DetailFor(name: string, tag: string, deployedTags: seq<string>, detailOf: (string, string) -> Answer<TagInfo>): (d: DetailedTag)
    ensures d.tag == tag && (d.isDeployed <==> tag in deployedTags)
    ensures detailOf(name, tag).Raised? ==> d.size == 0 && d.created == NoDate && d.error.Some?
    ensures detailOf(name, tag).Answered? ==> d.size == detailOf(name, tag).value.size && d.error.None?
  {
    match detailOf(name, tag)
    case Answered(info) => DetailedTag(tag, info.size, info.created, info.lastModified, tag in deployedTags, None)
    case Raised(e) => DetailedTag(tag, 0, NoDate, NoDate, tag in deployedTags, Some(e))
  }

  /** Attaches one detail entry per tag, in tag order. */
  function WithDetails(img: ImageStatus, detailOf: (string, string) -> Answer<TagInfo>): (r: ImageStatus)
    ensures r.detailedTags.Some? && |r.detailedTags.value| == |img.tags|
    ensures r == img.(detailedTags := r.detailedTags)
    ensures forall j :: 0 <= j < |img.tags| ==>
      r.detailedTags.value[j] == DetailFor(img.name, img.tags[j], img.deployedTags, detailOf)
  {
    img.(detailedTags := Some(seq(|img.tags|, j requires 0 <= j < |img.tags| =>
      DetailFor(img.name, img.tags[j], img.deployedTags, detailOf))))
  }

  /** The records of the status listing a criterion keeps, in catalog order. */
  function Selected(v: RegistryView, c: Criteria, daysOld: int, sizeMb: int, nowLocal: int): (r: seq<ImageStatus>)
    ensures |r| <= |v.catalog|
    ensures forall x :: x in r <==> x in GetImagesWithDeploymentStatus(v) && MatchesFilter(x, c, daysOld, sizeMb, nowLocal, v)
    ensures c == All ==> r == GetImagesWithDeploymentStatus(v)
  {
    var all := GetImagesWithDeploymentStatus(v);
    var keep := (x: ImageStatus) => MatchesFilter(x, c, daysOld, sizeMb, nowLocal, v);
    if c == All then FilterAllKept(keep, all); Seqs.Filter(keep, all)
    else Seqs.Filter(keep, all)
  }

  /** Details attached to every record of a listing. */
  function AttachDetails(images: seq<ImageStatus>, detailOf: (string, string) -> Answer<TagInfo>): (r: seq<ImageStatus>)
    ensures |r| == |images|
    ensures forall i :: 0 <= i < |r| ==> r[i] == WithDetails(images[i], detailOf)
    ensures forall i :: 0 <= i < |r| ==> r[i].(detailedTags := None) == images[i].(detailedTags := None)
    ensures forall x :: x in images ==> WithDetails(x, detailOf) in r
  {
    var r := seq(|images|, i requires 0 <= i < |images| => WithDetails(images[i], detailOf));
    assert forall x :: x in images ==> WithDetails(x, detailOf) in r by {
      forall x | x in images ensures WithDetails(x, detailOf) in r {
        var i :| 0 <= i < |images| && images[i] == x;
        assert r[i] == WithDetails(x, detailOf);
      }
    }
    r
  }

  /** The body of `get_filtered_images` once the criterion is known: the status listing,
      filtered, with details attached to the kept records when requested. */
  function FilterImages(v: RegistryView, c: Criteria, daysOld: int, sizeMb: int, includeDetails: bool, nowLocal: int): (r: seq<ImageStatus>)
    ensures |r| <= |v.catalog|
    ensures |r| == |Selected(v, c, daysOld, sizeMb, nowLocal)|
    ensures c == All ==> |r| == |v.catalog|
    ensures !includeDetails ==> r == Selected(v, c, daysOld, sizeMb, nowLocal)
    ensures !includeDetails ==>
      forall x :: x in r <==> x in GetImagesWithDeploymentStatus(v) && MatchesFilter(x, c, daysOld, sizeMb, nowLocal, v)
    ensures includeDetails ==> forall i :: 0 <= i < |r| ==>
      r[i] == WithDetails(Selected(v, c, daysOld, sizeMb, nowLocal)[i], v.detailOf)
    ensures includeDetails ==> forall i :: 0 <= i < |r| ==>
      var plain := r[i].(detailedTags := None);
      && plain in GetImagesWithDeploymentStatus(v)
      && MatchesFilter(plain, c, daysOld, sizeMb, nowLocal, v)
      && r[i] == WithDetails(plain, v.detailOf)
    ensures includeDetails ==> forall x :: x in GetImagesWithDeploymentStatus(v) && MatchesFilter(x, c, daysOld, sizeMb, nowLocal, v) ==>
      WithDetails(x, v.detailOf) in r
  {
    var sel := Selected(v, c, daysOld, sizeMb, nowLocal);
    if includeDetails then
      var r := AttachDetails(sel, v.detailOf);
      assert forall i :: 0 <= i < |r| ==> r[i].(detailedTags := None) == sel[i] by {
        forall i | 0 <= i < |r| ensures r[i].(detailedTags := None) == sel[i] {
          assert sel[i] in GetImagesWithDeploymentStatus(v);
        }
      }
      r
    else sel
  }

  /** A filter that keeps everything returns its input. */
  lemma {:induction false} FilterAllKept<T(!new)>(keep: T -> bool, s: seq<T>)
    requires forall x :: x in s ==> keep(x)
    ensures Seqs.Filter(keep, s) == s
    decreases |s|
  {
    if s != [] {
      FilterAllKept(keep, s[1..]);
    }
  }

  /** `get_filtered_images`: parse the criterion, then filter. */
  function GetFilteredImages(v: RegistryView, criteria: string, daysOld: int, sizeMb: int, includeDetails: bool, nowLocal: int): (r: seq<ImageStatus>)
    ensures !includeDetails ==> forall x :: x in r <==>
      x in GetImagesWithDeploymentStatus(v) && MatchesFilter(x, ParseCriteria(criteria), daysOld, sizeMb, nowLocal, v)
    ensures includeDetails ==> forall i :: 0 <= i < |r| ==>
      var plain := r[i].(detailedTags := None);
      && plain in GetImagesWithDeploymentStatus(v)
      && MatchesFilter(plain, ParseCriteria(criteria), daysOld, sizeMb, nowLocal, v)
      && r[i] == WithDetails(plain, v.detailOf)
    ensures includeDetails ==> forall x ::
      x in GetImagesWithDeploymentStatus(v) && MatchesFilter(x, ParseCriteria(criteria), daysOld, sizeMb, nowLocal, v) ==>
      WithDetails(x, v.detailOf) in r
    ensures Text.Lower(criteria) !in {"all", "deployed", "not_deployed", "older_than", "modified_before", "larger_than", "unused_tags"} ==>
      |r| == |v.catalog| && forall i :: 0 <= i < |r| ==>
        r[i].(detailedTags := None) == StatusOf(v.deployed, v.catalog[i], v.tagsOf(v.catalog[i]))
  {
    var c := ParseCriteria(criteria);
    assert Text.Lower(criteria) !in {"all", "deployed", "not_deployed", "older_than", "modified_before", "larger_than", "unused_tags"} ==> c == All;
    var r := FilterImages(v, c, daysOld, sizeMb, includeDetails, nowLocal);
    assert c == All ==> forall i :: 0 <= i < |r| ==>
      r[i].(detailedTags := None) == StatusOf(v.deployed, v.catalog[i], v.tagsOf(v.catalog[i])) by {
      if c == All {
        var all := GetImagesWithDeploymentStatus(v);
        forall i | 0 <= i < |r| ensures r[i].(detailedTags := None) == StatusOf(v.deployed, v.catalog[i], v.tagsOf(v.catalog[i])) {
          assert all[i] == StatusOf(v.deployed, v.catalog[i], v.tagsOf(v.catalog[i]));
          if includeDetails {
            assert r[i] == WithDetails(all[i], v.detailOf);
          }
        }
      }
    }
    r
  }
}

=== FILE: registry_delete.dfy ===
/** Whole-image deletion: the guarded delete flow with its bounded re-listing, and the
    after-the-fact deletion check. */
module RegistryDelete {
  import opened Wrappers
  import opened External
  import opened Registry

  /** How many post-delete listings the flow waits for before giving up. */
  const MaxVerificationAttempts: nat := 3

  /** The ways `delete_entire_image` ends. */
  datatype DeleteOutcome =
    | NotFound
    | ListingFailed(message: string)
    | HasDeployedTags(deployedTags: seq<string>, totalTags: nat)
    | ConfirmationRequired(tagsToDelete: seq<string>)
    | Deleted(deletedTags: seq<string>)
    | TagsRemain(remaining: seq<string>)
    | DeleteFailed(message: string)

  /** The outcome, whether the registry's delete call was made, and how many tag
      listings were requested after it. */
  datatype DeleteReport = DeleteReport(outcome: DeleteOutcome, deleteCalled: bool, relistings: nat)

  /** The status record for the image says it is deployed. */
  predicate TargetDeployed(v: RegistryView, name: string) {
    var target := FindByName(GetImagesWithDeploymentStatus(v), name);
    target.Some? && target.value.isDeployed
  }

  /** The image counts as deployed exactly when the catalog lists it and some running
      reference normalises to its name. */
  lemma TargetDeployedMeaning(v: RegistryView, name: string)
    ensures TargetDeployed(v, name) <==> name in v.catalog && DeployedName(v.deployed, name)
  {
    FindInStatusListing(v, name);
  }

  /** Some one of the first `n` post-delete listings comes back empty, with every listing
      before it answered and non-empty. */
  predicate EmptiedWithin(relist: nat -> Answer<seq<string>>, n: nat) {
    exists k: nat :: k < n && relist(k) == Answered([]) && NonEmptyListings(relist, k)
  }

  /** The first `k` post-delete listings all answered with remaining tags. */
  predicate NonEmptyListings(relist: nat -> Answer<seq<string>>, k: nat) {
    forall j: nat :: j < k ==> relist(j).Answered? && relist(j).value != []
  }

  /** `delete_entire_image`. `listing` is the first tag listing, `deleteCall` the answer
      of the registry's whole-image delete, and `relist(k)` the k-th listing after it
      (`relist(MaxVerificationAttempts)` is the one reported when tags remain). */
  method DeleteEntireImage(v: RegistryView, name: string, confirmed: bool, listing: Answer<seq<string>>,
                           deleteCall: Answer<bool>, relist: nat -> Answer<seq<string>>)
    returns (r: DeleteReport)
    ensures r.deleteCalled <==>
      listing.Answered? && listing.value != [] && !TargetDeployed(v, name) && confirmed
    ensures listing.Raised? ==> r.outcome == ListingFailed(listing.message)
    ensures listing == Answered([]) ==> r.outcome == NotFound
    ensures listing.Answered? && listing.value != [] && TargetDeployed(v, name) ==> r.outcome.HasDeployedTags?
    ensures listing.Answered? && listing.value != [] && !TargetDeployed(v, name) && !confirmed ==>
      r.outcome == ConfirmationRequired(listing.value)
    ensures r.outcome.Deleted? <==> r.deleteCalled && deleteCall.Answered? && EmptiedWithin(relist, MaxVerificationAttempts)
    ensures r.outcome.Deleted? ==> r.outcome.deletedTags == listing.value
    ensures r.outcome.TagsRemain? ==>
      && r.deleteCalled && NonEmptyListings(relist, MaxVerificationAttempts)
      && relist(MaxVerificationAttempts) == Answered(r.outcome.remaining)
    ensures !r.deleteCalled ==> r.relistings == 0
    ensures r.relistings <= MaxVerificationAttempts + 1
  {
    if listing.Raised? {
      return DeleteReport(ListingFailed(listing.message), false, 0);
    }
    var tags := listing.value;
    if tags == [] {
      return DeleteReport(NotFound, false, 0);
    }
    var target := FindByName(GetImagesWithDeploymentStatus(v), name);
    if target.Some? && target.value.isDeployed {
      return DeleteReport(HasDeployedTags(target.value.deployedTags, |tags|), false, 0);
    }
    if !confirmed {
      return DeleteReport(ConfirmationRequired(tags), false, 0);
    }
    if deleteCall.Raised? {
      return DeleteReport(DeleteFailed(deleteCall.message), true, 0);
    }
    var emptied, failure, attempts := AwaitEmptyListing(relist);
    if emptied {
      return DeleteReport(Deleted(tags), true, attempts);
    }
    if failure.Some? {
      return DeleteReport(DeleteFailed(failure.value), true, attempts);
    }
    var last := relist(MaxVerificationAttempts);
    if last.Raised? {
      return DeleteReport(DeleteFailed(last.message), true, MaxVerificationAttempts + 1);
    }
    return DeleteReport(TagsRemain(last.value), true, MaxVerificationAttempts + 1);
  }

  /** The verification loop of `delete_entire_image`: lists the tags again, up to
      `MaxVerificationAttempts` times, until a listing comes back empty; a listing that
      raises ends the loop with its message. */
  method AwaitEmptyListing(relist: nat -> Answer<seq<string>>) returns (emptied: bool, failure: Option<string>, attempts: nat)
    ensures emptied <==> EmptiedWithin(relist, MaxVerificationAttempts)
    ensures emptied ==> failure == None && 1 <= attempts <= MaxVerificationAttempts
    ensures failure.Some? ==>
      && 1 <= attempts <= MaxVerificationAttempts && NonEmptyListings(relist, attempts - 1)
      && relist(attempts - 1) == Raised(failure.value)
    ensures !emptied && failure == None ==> NonEmptyListings(relist, MaxVerificationAttempts)
  {
    attempts := 0;
    emptied := false;
    failure := None;
    while attempts < MaxVerificationAttempts && !emptied
      invariant attempts <= MaxVerificationAttempts
      invariant emptied ==> attempts >= 1 && relist(attempts - 1) == Answered([]) && NonEmptyListings(relist, attempts - 1)
      invariant !emptied ==> NonEmptyListings(relist, attempts)
      decreases MaxVerificationAttempts - attempts, if emptied then 0 else 1
    {
      var remaining := relist(attempts);
      if remaining.Raised? {
        assert !EmptiedWithin(relist, MaxVerificationAttempts) by {
          forall k: nat | k < MaxVerificationAttempts
            ensures !(relist(k) == Answered([]) && NonEmptyListings(relist, k))
          {
            if k < attempts {
              assert relist(k).Answered? && relist(k).value != [];
            } else if k > attempts {
              assert !relist(attempts).Answered?;
            }
          }
        }
        return false, Some(remaining.message), attempts + 1;
      }
      if remaining.value == [] {
        emptied := true;
      }
      attempts := attempts + 1;
    }
    if !emptied {
      assert !EmptiedWithin(relist, MaxVerificationAttempts) by {
        forall k: nat | k < MaxVerificationAttempts
          ensures relist(k) != Answered([])
        {
          assert relist(k).Answered? && relist(k).value != [];
        }
      }
    }
  }

  /** The report of `verify_image_deletion`. */
  datatype VerifyReport = VerifyReport(
    effectivelyDeleted: bool,
    inCatalog: bool,
    tagCount: nat,
    isDeployed: bool,
    deployedTags: seq<string>,
    error: bool)

  /** `verify_image_deletion` as written: the image counts as deleted only when it has no
      tags and no status record, and since the status listing is built from the catalog,
      the second condition means the catalog no longer lists it. `isDeployed` reports
      whether a status record exists. */
  function VerifyImageDeletionAsWritten(v: RegistryView, name: string, listing: Answer<seq<string>>): (r: VerifyReport)
    ensures listing.Raised? ==> !r.effectivelyDeleted && r.error
    ensures listing.Answered? ==>
      && !r.error
      && (r.effectivelyDeleted <==> listing.value == [] && name !in v.catalog)
      && (r.isDeployed <==> name in v.catalog)
      && r.inCatalog == (name in v.catalog)
      && r.tagCount == |listing.value|
  {
    match listing
    case Raised(_) => VerifyReport(false, false, 0, false, [], true)
    case Answered(tags) =>
      var entry := FindByName(GetImagesWithDeploymentStatus(v), name);
      FindInStatusListing(v, name);
      VerifyReport(tags == [] && entry.None?, name in v.catalog, |tags|, entry.Some?,
                   if entry.Some? then entry.value.deployedTags else [], false)
  }

  /** The as-written check never calls a catalog entry with no tags deleted, though the
      report's own note says an image without tags counts as deleted even if the catalog
      still lists it. */
  lemma EmptyCatalogEntryNotDeleted(v: RegistryView, name: string)
    requires name in v.catalog
    ensures !VerifyImageDeletionAsWritten(v, name, Answered([])).effectivelyDeleted
  {
  }

  /** `verify_image_deletion` as its note describes it: no tags left means deleted, even
      if the catalog still lists the name, unless the image is in the deployed set.
      `isDeployed` reports the status record's deployment flag. */
  function VerifyImageDeletion(v: RegistryView, name: string, listing: Answer<seq<string>>): (r: VerifyReport)
    ensures listing.Raised? ==> !r.effectivelyDeleted && r.error
    ensures listing.Answered? ==>
      && !r.error
      && (r.isDeployed <==> name in v.catalog && DeployedName(v.deployed, name))
      && (r.effectivelyDeleted <==> listing.value == [] && !r.isDeployed)
      && r.inCatalog == (name in v.catalog)
      && r.tagCount == |listing.value|
  {
    match listing
    case Raised(_) => VerifyReport(false, false, 0, false, [], true)
    case Answered(tags) =>
      var entry := FindByName(GetImagesWithDeploymentStatus(v), name);
      TargetDeployedMeaning(v, name);
      var deployed := entry.Some? && entry.value.isDeployed;
      VerifyReport(tags == [] && !deployed, name in v.catalog, |tags|, deployed,
                   if entry.Some? then entry.value.deployedTags else [], false)
  }

  /** An image the delete flow is allowed to delete is reported deleted by the corrected
      check once its listing is empty. */
  lemma DeletableImageVerifies(v: RegistryView, name: string)
    requires !TargetDeployed(v, name)
    ensures VerifyImageDeletion(v, name, Answered([])).effectivelyDeleted
  {
    TargetDeployedMeaning(v, name);
  }
}

=== FILE: registry_purge.dfy ===
/** Bulk purge of registry tags: the selection of images, the dry-run and confirmation
    gate, and the per-tag deletion with its success and error accounting. */
module RegistryPurge {
  import opened Wrappers
  import opened External
  import Seqs
  import Text
  import opened Registry

  /** The purge's own criterion parsing: lower-cased, falling back to `NOT_DEPLOYED`. */
  function ParsePurgeCriteria(s: string): (c: Criteria)
    ensures Text.Lower(s) == CriteriaValue(c) ||
      (c == NotDeployed && forall k: Criteria :: CriteriaValue(k) != Text.Lower(s))
  {
    CriteriaOf(Text.Lower(s)).GetOr(NotDeployed)
  }

  /** The records `purge_images` works on as written: the raw criterion string is handed
      to `get_filtered_images`, whose fallback is `ALL`, so the purge's own parse is unused. */
  function PurgeSelectionAsWritten(v: RegistryView, criteria: string, daysOld: int, sizeMb: int, nowLocal: int): (r: seq<ImageStatus>)
    ensures forall i :: 0 <= i < |r| ==>
      var plain := r[i].(detailedTags := None);
      && plain in GetImagesWithDeploymentStatus(v)
      && MatchesFilter(plain, ParseCriteria(criteria), daysOld, sizeMb, nowLocal, v)
      && r[i] == WithDetails(plain, v.detailOf)
    ensures forall x :: x in GetImagesWithDeploymentStatus(v) && MatchesFilter(x, ParseCriteria(criteria), daysOld, sizeMb, nowLocal, v) ==>
      WithDetails(x, v.detailOf) in r
  {
    GetFilteredImages(v, criteria, daysOld, sizeMb, true, nowLocal)
  }

  /** The records the purge works on, selected with its own parse of the criterion. */
  function PurgeSelection(v: RegistryView, criteria: string, daysOld: int, sizeMb: int, nowLocal: int): (r: seq<ImageStatus>)
    ensures forall i :: 0 <= i < |r| ==>
      var plain := r[i].(detailedTags := None);
      && plain in GetImagesWithDeploymentStatus(v)
      && MatchesFilter(plain, ParsePurgeCriteria(criteria), daysOld, sizeMb, nowLocal, v)
      && r[i] == WithDetails(plain, v.detailOf)
    ensures forall x :: x in GetImagesWithDeploymentStatus(v) && MatchesFilter(x, ParsePurgeCriteria(criteria), daysOld, sizeMb, nowLocal, v) ==>
      WithDetails(x, v.detailOf) in r
  {
    FilterImages(v, ParsePurgeCriteria(criteria), daysOld, sizeMb, true, nowLocal)
  }

  /** The set of strings that name a criterion. */
  predicate KnownCriteria(s: string) {
    s in {"all", "deployed", "not_deployed", "older_than", "modified_before", "larger_than", "unused_tags"}
  }

  /** With an unknown criterion the as-written purge selects every catalog image,
      deployed ones included. */
  lemma UnknownCriteriaSelectsEverything(v: RegistryView, criteria: string, daysOld: int, sizeMb: int, nowLocal: int)
    requires !KnownCriteria(Text.Lower(criteria))
    ensures |PurgeSelectionAsWritten(v, criteria, daysOld, sizeMb, nowLocal)| == |v.catalog|
    ensures forall i :: 0 <= i < |v.catalog| && DeployedName(v.deployed, v.catalog[i]) ==>
      PurgeSelectionAsWritten(v, criteria, daysOld, sizeMb, nowLocal)[i].isDeployed
  {
    var c := ParseCriteria(criteria);
    assert c == All;
    var all := GetImagesWithDeploymentStatus(v);
    assert Selected(v, All, daysOld, sizeMb, nowLocal) == all;
    assert PurgeSelectionAsWritten(v, criteria, daysOld, sizeMb, nowLocal) == AttachDetails(all, v.detailOf);
  }

  /** With an unknown criterion the purge's own fallback selects only images that are
      not deployed. */
  lemma UnknownCriteriaSelectsUndeployed(v: RegistryView, criteria: string, daysOld: int, sizeMb: int, nowLocal: int)
    requires !KnownCriteria(Text.Lower(criteria))
    ensures forall x :: x in PurgeSelection(v, criteria, daysOld, sizeMb, nowLocal) ==> !x.isDeployed
  {
    assert ParsePurgeCriteria(criteria) == NotDeployed;
    var r := PurgeSelection(v, criteria, daysOld, sizeMb, nowLocal);
    forall x | x in r ensures !x.isDeployed {
      var i :| 0 <= i < |r| && r[i] == x;
      assert MatchesFilter(r[i].(detailedTags := None), NotDeployed, daysOld, sizeMb, nowLocal, v);
    }
  }

  /** The tags of a record the purge may delete: those not among its deployed tags. */
  function TagsToDelete(img: ImageStatus): (r: seq<string>)
    ensures |r| <= |img.tags|
    ensures forall t :: t in r <==> t in img.tags && t !in img.deployedTags
  {
    Seqs.Filter(NotIn(img.deployedTags), img.tags)
  }

  /** The test for tags outside `deployed`. */
  function NotIn(deployed: seq<string>): string -> bool {
    (t: string) => t !in deployed
  }

  /** The (image, tag) delete calls for one record, in tag order. */
  function PairsOf(img: ImageStatus): (r: seq<(string, string)>)
    ensures |r| == |TagsToDelete(img)|
    ensures forall j :: 0 <= j < |r| ==> r[j] == (img.name, TagsToDelete(img)[j])
  {
    var tags := TagsToDelete(img);
    seq(|tags|, j requires 0 <= j < |tags| => (img.name, tags[j]))
  }

  /** The delete calls for one record name it and exactly its deletable tags. */
  lemma PairsOfMembership(img: ImageStatus, p: (string, string))
    ensures p in PairsOf(img) <==> p.0 == img.name && p.1 in TagsToDelete(img)
  {
    var tags := TagsToDelete(img);
    if p.0 == img.name && p.1 in tags {
      var j :| 0 <= j < |tags| && tags[j] == p.1;
      assert PairsOf(img)[j] == p;
    }
  }

  /** The delete calls for the first `n` records of a selection, image by image. */
  function PairsUpTo(images: seq<ImageStatus>, n: nat): seq<(string, string)>
    requires n <= |images|
  {
    if n == 0 then [] else PairsUpTo(images, n - 1) + PairsOf(images[n - 1])
  }

  /** The delete calls for a whole selection. */
  function Pairs(images: seq<ImageStatus>): seq<(string, string)> {
    PairsUpTo(images, |images|)
  }

  /** A delete call for the first `n` records belongs to one of them. */
  lemma {:induction false} PairsUpToMembership(images: seq<ImageStatus>, n: nat, p: (string, string))
    requires n <= |images|
    ensures p in PairsUpTo(images, n) <==> exists j :: 0 <= j < n && p in PairsOf(images[j])
  {
    if n > 0 {
      PairsUpToMembership(images, n - 1, p);
    }
  }

  /** A delete call of a selection belongs to one of its records. */
  lemma PairsMembership(images: seq<ImageStatus>, p: (string, string))
    ensures p in Pairs(images) <==> exists j :: 0 <= j < |images| && p in PairsOf(images[j])
  {
    PairsUpToMembership(images, |images|, p);
  }

  /** The preview's count of tags to delete: the sum over the first `n` records. */
  function TotalToDelete(images: seq<ImageStatus>, n: nat): nat
    requires n <= |images|
  {
    if n == 0 then 0 else TotalToDelete(images, n - 1) + |TagsToDelete(images[n - 1])|
  }

  /** The preview's tag count is the number of delete calls an execution makes. */
  lemma {:induction false} PreviewCountsAttempts(images: seq<ImageStatus>, n: nat)
    requires n <= |images|
    ensures TotalToDelete(images, n) == |PairsUpTo(images, n)|
  {
    if n > 0 {
      PreviewCountsAttempts(images, n - 1);
    }
  }

  /** The size recorded for a deleted tag: the first detail entry for that tag, else 0. */
  function TagSize(img: ImageStatus, tag: string): int {
    if img.detailedTags.None? then 0 else FirstSize(img.detailedTags.value, tag)
  }

  /** The size of the first entry for `tag`, or 0 when there is none. */
  function FirstSize(details: seq<DetailedTag>, tag: string): (size: int)
    ensures (forall d :: d in details ==> d.tag != tag) ==> size == 0
    ensures (exists d :: d in details && d.tag == tag) ==> exists d :: d in details && d.tag == tag && d.size == size
    decreases |details|
  {
    if details == [] then 0
    else if details[0].tag == tag then details[0].size
    else FirstSize(details[1..], tag)
  }

  /** The preview's estimate: the sizes of the detail entries not marked deployed. */
  function EstimatedSpace(images: seq<ImageStatus>): (e: int)
    ensures (forall i :: 0 <= i < |images| ==> images[i].detailedTags.None?) ==> e == 0
    ensures (forall i :: 0 <= i < |images| ==> SizesKnown(images[i])) ==> e >= 0
  {
    EstimateBounds(images, |images|);
    EstimateUpTo(images, |images|)
  }

  /** The estimate over the first `n` records. */
  function EstimateUpTo(images: seq<ImageStatus>, n: nat): int
    requires n <= |images|
  {
    if n == 0 then 0 else EstimateUpTo(images, n - 1) + RecordEstimate(images[n - 1])
  }

  /** Records without details add nothing to the estimate, and known sizes never make
      it negative. */
  lemma {:induction false} EstimateBounds(images: seq<ImageStatus>, n: nat)
    requires n <= |images|
    ensures (forall i :: 0 <= i < n ==> images[i].detailedTags.None?) ==> EstimateUpTo(images, n) == 0
    ensures (forall i :: 0 <= i < n ==> SizesKnown(images[i])) ==> EstimateUpTo(images, n) >= 0
  {
    if n > 0 {
      EstimateBounds(images, n - 1);
    }
  }

  /** One record's part of the estimate. */
  function RecordEstimate(img: ImageStatus): int {
    if img.detailedTags.Some? then UndeployedSize(img.detailedTags.value) else 0
  }

  /** No detail entry of the record has a negative size. */
  predicate SizesKnown(img: ImageStatus) {
    img.detailedTags.Some? ==> forall d :: d in img.detailedTags.value ==> d.size >= 0
  }

  /** Sum of the sizes of detail entries not marked deployed. */
  function UndeployedSize(details: seq<DetailedTag>): (total: int)
    ensures (forall d :: d in details ==> d.isDeployed) ==> total == 0
    ensures (forall d :: d in details ==> d.size >= 0) ==> total >= 0
    decreases |details|
  {
    if details == [] then 0
    else (if details[0].isDeployed then 0 else details[0].size) + UndeployedSize(details[1..])
  }

  /** The sizes credited to the tags `ts` of a record, summed. */
  function PlannedSize(img: ImageStatus, ts: seq<string>): int
    decreases |ts|
  {
    if ts == [] then 0 else TagSize(img, ts[0]) + PlannedSize(img, ts[1..])
  }

  /** The sizes credited to those tags of `ts` whose delete call answers true, summed. */
  function DeletedSize(img: ImageStatus, deleteTag: (string, string) -> Answer<bool>, ts: seq<string>): int
    decreases |ts|
  {
    if ts == [] then 0
    else (if deleteTag(img.name, ts[0]) == Answered(true) then TagSize(img, ts[0]) else 0) + DeletedSize(img, deleteTag, ts[1..])
  }

  /** Summing the deleted sizes one more tag further. */
  lemma {:induction false} DeletedSizeSnoc(img: ImageStatus, deleteTag: (string, string) -> Answer<bool>, ts: seq<string>, t: string)
    ensures DeletedSize(img, deleteTag, ts + [t]) ==
      DeletedSize(img, deleteTag, ts) + (if deleteTag(img.name, t) == Answered(true) then TagSize(img, t) else 0)
    decreases |ts|
  {
    if ts == [] {
      assert [t][1..] == [];
    } else {
      assert (ts + [t])[1..] == ts[1..] + [t];
      DeletedSizeSnoc(img, deleteTag, ts[1..], t);
    }
  }

  /** When every call answers true, the deleted sizes are all the planned ones. */
  lemma {:induction false} DeletedSizeAllSucceed(img: ImageStatus, deleteTag: (string, string) -> Answer<bool>, ts: seq<string>)
    requires forall t :: t in ts ==> deleteTag(img.name, t) == Answered(true)
    ensures DeletedSize(img, deleteTag, ts) == PlannedSize(img, ts)
    decreases |ts|
  {
    if ts != [] {
      assert ts[0] in ts;
      DeletedSizeAllSucceed(img, deleteTag, ts[1..]);
    }
  }

  /** The record carries one `DetailFor` entry per listed tag, as `WithDetails` attaches. */
  predicate DetailsOfTags(img: ImageStatus, detailOf: (string, string) -> Answer<TagInfo>) {
    && img.detailedTags.Some?
    && |img.detailedTags.value| == |img.tags|
    && forall j :: 0 <= j < |img.tags| ==>
      img.detailedTags.value[j] == DetailFor(img.name, img.tags[j], img.deployedTags, detailOf)
  }

  /** With details attached, the size credited to a listed tag is the size its detail
      call reported, whichever entry for the tag comes first. */
  lemma TagSizeIsDetailSize(img: ImageStatus, detailOf: (string, string) -> Answer<TagInfo>, j: nat)
    requires DetailsOfTags(img, detailOf) && j < |img.tags|
    ensures TagSize(img, img.tags[j]) == DetailFor(img.name, img.tags[j], img.deployedTags, detailOf).size
  {
    var ds := img.detailedTags.value;
    var t := img.tags[j];
    assert ds[j] in ds && ds[j].tag == t;
    var d :| d in ds && d.tag == t && d.size == FirstSize(ds, t);
    var i :| 0 <= i < |ds| && ds[i] == d;
  }

  /** From position `k` on, the undeployed detail sizes are the sizes credited to the
      tags to delete. */
  lemma {:induction false} UndeployedSuffix(img: ImageStatus, detailOf: (string, string) -> Answer<TagInfo>, k: nat)
    requires DetailsOfTags(img, detailOf) && k <= |img.tags|
    ensures UndeployedSize(img.detailedTags.value[k..]) == PlannedSize(img, Seqs.Filter(NotIn(img.deployedTags), img.tags[k..]))
    decreases |img.tags| - k
  {
    var ds := img.detailedTags.value;
    var tags := img.tags;
    if k < |tags| {
      UndeployedSuffix(img, detailOf, k + 1);
      TagSizeIsDetailSize(img, detailOf, k);
      assert ds[k..][0] == ds[k] && ds[k..][1..] == ds[k + 1..];
      assert tags[k..][0] == tags[k] && tags[k..][1..] == tags[k + 1..];
      var rest := Seqs.Filter(NotIn(img.deployedTags), tags[k + 1..]);
      if tags[k] !in img.deployedTags {
        assert ([tags[k]] + rest)[1..] == rest;
      } else {
        assert [] + rest == rest;
      }
    } else {
      assert ds[k..] == [] && tags[k..] == [];
    }
  }

  /** A record with details attached: the undeployed detail sizes the preview adds up are
      the sizes credited to the tags an execution deletes. */
  lemma UndeployedSizeIsPlanned(img: ImageStatus, detailOf: (string, string) -> Answer<TagInfo>)
    requires DetailsOfTags(img, detailOf)
    ensures UndeployedSize(img.detailedTags.value) == PlannedSize(img, TagsToDelete(img))
  {
    UndeployedSuffix(img, detailOf, 0);
    assert img.detailedTags.value[0..] == img.detailedTags.value && img.tags[0..] == img.tags;
  }

  /** The space an execution frees over the first `n` records: per record, the sizes of
      the deletable tags whose call answered true. */
  function FreedUpTo(images: seq<ImageStatus>, n: nat, deleteTag: (string, string) -> Answer<bool>): int
    requires n <= |images|
  {
    if n == 0 then 0 else FreedUpTo(images, n - 1, deleteTag) + DeletedSize(images[n - 1], deleteTag, TagsToDelete(images[n - 1]))
  }

  /** When each of the first `n` records frees what the preview estimated for it, the
      space freed over them is the preview's estimate for them. */
  lemma {:induction false} FreedUpToIsEstimate(images: seq<ImageStatus>, n: nat, deleteTag: (string, string) -> Answer<bool>)
    requires n <= |images|
    requires forall k :: 0 <= k < n ==> FreesEstimate(images[k], deleteTag)
    ensures FreedUpTo(images, n, deleteTag) == EstimateUpTo(images, n)
  {
    if n > 0 {
      assert FreesEstimate(images[n - 1], deleteTag);
      FreedUpToIsEstimate(images, n - 1, deleteTag);
    }
  }

  /** The record frees, over its deletable tags, exactly what the preview estimated for it. */
  predicate FreesEstimate(img: ImageStatus, deleteTag: (string, string) -> Answer<bool>) {
    DeletedSize(img, deleteTag, TagsToDelete(img)) == RecordEstimate(img)
  }

  /** Every delete call for the record's deletable tags answers true. */
  predicate AllCallsSucceed(img: ImageStatus, deleteTag: (string, string) -> Answer<bool>) {
    forall t :: t in TagsToDelete(img) ==> deleteTag(img.name, t) == Answered(true)
  }

  /** One record whose every delete call answers true frees what the preview estimated. */
  lemma RecordFreedIsEstimate(img: ImageStatus, detailOf: (string, string) -> Answer<TagInfo>,
                              deleteTag: (string, string) -> Answer<bool>)
    requires DetailsOfTags(img, detailOf) && AllCallsSucceed(img, deleteTag)
    ensures FreesEstimate(img, deleteTag)
  {
    UndeployedSizeIsPlanned(img, detailOf);
    DeletedSizeAllSucceed(img, deleteTag, TagsToDelete(img));
  }

  /** The preview's promise: when every delete call of an execution answers true, the
      space it frees is exactly the space the preview estimated. */
  lemma FreedIsEstimate(images: seq<ImageStatus>, detailOf: (string, string) -> Answer<TagInfo>,
                        deleteTag: (string, string) -> Answer<bool>)
    requires forall k :: 0 <= k < |images| ==> DetailsOfTags(images[k], detailOf)
    requires forall k :: 0 <= k < |Pairs(images)| ==> Succeeded(deleteTag)(Pairs(images)[k])
    ensures FreedUpTo(images, |images|, deleteTag) == EstimatedSpace(images)
  {
    forall k | 0 <= k < |images| ensures FreesEstimate(images[k], deleteTag) {
      forall t | t in TagsToDelete(images[k]) ensures deleteTag(images[k].name, t) == Answered(true) {
        PairsOfMembership(images[k], (images[k].name, t));
        PairsMembership(images, (images[k].name, t));
        var i :| 0 <= i < |Pairs(images)| && Pairs(images)[i] == (images[k].name, t);
      }
      RecordFreedIsEstimate(images[k], detailOf, deleteTag);
    }
    FreedUpToIsEstimate(images, |images|, deleteTag);
  }

  /** One deleted tag with the size credited to it. */
  datatype DeletedTag = DeletedTag(image: string, tag: string, size: int)

  /** Sum of the sizes of deleted tags. */
  function SumSizes(ds: seq<DeletedTag>): int
    decreases |ds|
  {
    if ds == [] then 0 else ds[0].size + SumSizes(ds[1..])
  }

  /** Summing distributes over concatenation. */
  lemma {:induction false} SumSizesConcat(a: seq<DeletedTag>, b: seq<DeletedTag>)
    ensures SumSizes(a + b) == SumSizes(a) + SumSizes(b)
    decreases |a|
  {
    if a == [] {
      assert a + b == b;
    } else {
      assert (a + b)[1..] == a[1..] + b;
      SumSizesConcat(a[1..], b);
    }
  }

  /** Why a tag was not deleted: the registry said no, or the call raised. */
  datatype PurgeError = DeleteRefused(image: string, tag: string) | DeleteRaised(image: string, tag: string, message: string)

  /** A delete call succeeds when the registry answers true. */
  function Succeeded(deleteTag: (string, string) -> Answer<bool>): ((string, string)) -> bool {
    (p: (string, string)) => deleteTag(p.0, p.1) == Answered(true)
  }

  /** One entry of the preview listing. */
  datatype PreviewEntry = PreviewEntry(name: string, totalTags: nat, deployedTags: seq<string>, tagsToDelete: seq<string>, isDeployed: bool)

  /** The preview entry for a record. */
  function PreviewOf(img: ImageStatus): (e: PreviewEntry)
    ensures e.name == img.name && e.totalTags == |img.tags| && e.isDeployed == img.isDeployed
    ensures forall t :: t in e.tagsToDelete <==> t in img.tags && t !in img.deployedTags
  {
    PreviewEntry(img.name, |img.tags|, img.deployedTags, TagsToDelete(img), img.isDeployed)
  }

  /** How many records the preview lists. */
  const PreviewLimit: nat := 10

  /** One processed record of an execution. */
  datatype ProcessedImage = ProcessedImage(
    name: string,
    totalTags: nat,
    tagsToDelete: seq<string>,
    deployedTags: seq<string>,
    deletedTags: seq<string>,
    errors: seq<PurgeError>,
    fullyDeleted: bool)

  /** The result of `purge_images`. */
  datatype PurgeReport =
    | Preview(dryRun: bool, imagesToProcess: nat, tagsToDelete: nat, estimatedSpace: int,
              shown: seq<PreviewEntry>, asksConfirmation: bool)
    | Executed(evaluated: nat, processed: seq<ProcessedImage>, attempted: seq<(string, string)>,
               tagsDeleted: seq<DeletedTag>, fullyDeleted: seq<string>, spaceFreed: int,
               errors: seq<PurgeError>, successCount: nat, errorCount: nat, summarySuccess: bool)

  /** `remaining_tags`: the record's tags that are among its deployed tags. */
  function RemainingTags(img: ImageStatus): (r: seq<string>)
    ensures forall t :: t in r <==> t in img.tags && t in img.deployedTags
  {
    var deployed := img.deployedTags;
    Seqs.Filter((t: string) => t in deployed, img.tags)
  }

  /** A processed record counts as fully deleted when there was something to delete,
      every delete call for it succeeded, and none of its tags is deployed. */
  predicate FullyPurged(img: ImageStatus, deleteTag: (string, string) -> Answer<bool>) {
    && TagsToDelete(img) != []
    && (forall t :: t in TagsToDelete(img) ==> deleteTag(img.name, t) == Answered(true))
    && (forall t :: t in img.tags ==> t !in img.deployedTags)
  }

  /** The full-deletion test of `purge_images` (as many successes as tags to delete, and no
      remaining deployed tag) is exactly `FullyPurged`. */
  lemma FullyPurgedByCount(img: ImageStatus, deleteTag: (string, string) -> Answer<bool>)
    ensures FullyPurged(img, deleteTag) <==>
      && TagsToDelete(img) != []
      && Seqs.CountWhere(Succeeded(deleteTag), PairsOf(img)) == |TagsToDelete(img)|
      && RemainingTags(img) == []
  {
    var pairs := PairsOf(img);
    Seqs.CountWhereAll(Succeeded(deleteTag), pairs);
    if forall t :: t in TagsToDelete(img) ==> deleteTag(img.name, t) == Answered(true) {
      forall k | 0 <= k < |pairs| ensures Succeeded(deleteTag)(pairs[k]) {
        assert TagsToDelete(img)[k] in TagsToDelete(img);
      }
    }
    if forall k :: 0 <= k < |pairs| ==> Succeeded(deleteTag)(pairs[k]) {
      forall t | t in TagsToDelete(img) ensures deleteTag(img.name, t) == Answered(true) {
        PairsOfMembership(img, (img.name, t));
        var k :| 0 <= k < |pairs| && pairs[k] == (img.name, t);
      }
    }
    if RemainingTags(img) != [] {
      assert RemainingTags(img)[0] in RemainingTags(img);
    }
  }

  /** The test a record passes to be reported fully deleted. */
  function FullyPurgedTest(deleteTag: (string, string) -> Answer<bool>): ImageStatus -> bool {
    (img: ImageStatus) => FullyPurged(img, deleteTag)
  }

  /** The names of the first `n` records passing `keep`, in order. */
  function NamesWhere(keep: ImageStatus -> bool, images: seq<ImageStatus>, n: nat): seq<string>
    requires n <= |images|
  {
    if n == 0 then []
    else NamesWhere(keep, images, n - 1) + (if keep(images[n - 1]) then [images[n - 1].name] else [])
  }

  /** A name is listed exactly when one of the first `n` records of that name passes `keep`. */
  lemma {:induction false} NamesWhereMembership(keep: ImageStatus -> bool, images: seq<ImageStatus>, n: nat, name: string)
    requires n <= |images|
    ensures name in NamesWhere(keep, images, n) <==> exists j :: 0 <= j < n && images[j].name == name && keep(images[j])
  {
    if n > 0 {
      NamesWhereMembership(keep, images, n - 1, name);
    }
  }

  /** The names of the fully deleted records of a selection, in order. */
  function FullyPurgedNames(images: seq<ImageStatus>, deleteTag: (string, string) -> Answer<bool>): (r: seq<string>)
    ensures forall n :: n in r <==> exists j :: 0 <= j < |images| && images[j].name == n && FullyPurged(images[j], deleteTag)
  {
    var r := NamesWhere(FullyPurgedTest(deleteTag), images, |images|);
    assert forall n :: n in r <==> exists j :: 0 <= j < |images| && images[j].name == n && FullyPurged(images[j], deleteTag) by {
      forall n ensures n in r <==> exists j :: 0 <= j < |images| && images[j].name == n && FullyPurged(images[j], deleteTag) {
        NamesWhereMembership(FullyPurgedTest(deleteTag), images, |images|, n);
      }
    }
    r
  }

  /** A deleted-tag entry of a record: the registry answered true for it, and its size is
      the one the record's details give. */
  predicate Confirmed(d: DeletedTag, img: ImageStatus, deleteTag: (string, string) -> Answer<bool>) {
    d.image == img.name && d.tag in TagsToDelete(img) && deleteTag(d.image, d.tag) == Answered(true) && d.size == TagSize(img, d.tag)
  }

  /** Every one of `ds` is a confirmed deletion of a deletable tag of `img`. */
  predicate AllConfirmed(ds: seq<DeletedTag>, img: ImageStatus, deleteTag: (string, string) -> Answer<bool>) {
    forall k :: 0 <= k < |ds| ==> Confirmed(ds[k], img, deleteTag)
  }

  lemma AllConfirmedConcat(a: seq<DeletedTag>, b: seq<DeletedTag>, img: ImageStatus, deleteTag: (string, string) -> Answer<bool>)
    requires AllConfirmed(a, img, deleteTag) && AllConfirmed(b, img, deleteTag)
    ensures AllConfirmed(a + b, img, deleteTag)
  {
    forall k | 0 <= k < |a + b| ensures Confirmed((a + b)[k], img, deleteTag) {
      if k >= |a| {
        assert (a + b)[k] == b[k - |a|];
      }
    }
  }

  /** The registry answered true for every one of `ds`. */
  predicate AllSucceeded(ds: seq<DeletedTag>, deleteTag: (string, string) -> Answer<bool>) {
    forall k :: 0 <= k < |ds| ==> Succeeded(deleteTag)((ds[k].image, ds[k].tag))
  }

  /** Deletes the deletable tags of one record, one call per tag. */
  method PurgeImageTags(img: ImageStatus, deleteTag: (string, string) -> Answer<bool>)
    returns (attempted: seq<(string, string)>, deleted: seq<DeletedTag>, errors: seq<PurgeError>)
    ensures attempted == PairsOf(img)
    ensures |deleted| + |errors| == |attempted|
    ensures |deleted| == Seqs.CountWhere(Succeeded(deleteTag), attempted)
    ensures forall k :: 0 <= k < |deleted| ==> Confirmed(deleted[k], img, deleteTag)
    ensures SumSizes(deleted) == DeletedSize(img, deleteTag, TagsToDelete(img))
  {
    var tags := TagsToDelete(img);
    attempted, deleted, errors := [], [], [];
    var i := 0;
    while i < |tags|
      invariant 0 <= i <= |tags|
      invariant DeletedFirst(img, deleteTag, i, attempted, deleted, errors)
    {
      attempted, deleted, errors := DeleteNext(img, deleteTag, i, attempted, deleted, errors);
      i := i + 1;
    }
    DeletedAll(img, deleteTag, attempted, deleted, errors);
  }

  /** What the calls for the first `i` deletable tags of `img` have produced. */
  predicate DeletedFirst(img: ImageStatus, deleteTag: (string, string) -> Answer<bool>, i: nat,
                         attempted: seq<(string, string)>, deleted: seq<DeletedTag>, errors: seq<PurgeError>) {
    && i <= |TagsToDelete(img)|
    && attempted == PairsOf(img)[..i]
    && |deleted| + |errors| == i
    && |deleted| == Seqs.CountWhere(Succeeded(deleteTag), attempted)
    && AllConfirmed(deleted, img, deleteTag)
    && SumSizes(deleted) == DeletedSize(img, deleteTag, TagsToDelete(img)[..i])
  }

  /** Once every deletable tag has had its call, the calls are all of the record's. */
  lemma DeletedAll(img: ImageStatus, deleteTag: (string, string) -> Answer<bool>,
                   attempted: seq<(string, string)>, deleted: seq<DeletedTag>, errors: seq<PurgeError>)
    requires DeletedFirst(img, deleteTag, |TagsToDelete(img)|, attempted, deleted, errors)
    ensures attempted == PairsOf(img)
    ensures |deleted| + |errors| == |attempted|
    ensures |deleted| == Seqs.CountWhere(Succeeded(deleteTag), attempted)
    ensures AllConfirmed(deleted, img, deleteTag)
    ensures SumSizes(deleted) == DeletedSize(img, deleteTag, TagsToDelete(img))
  {
    var tags := TagsToDelete(img);
    assert tags[..|tags|] == tags;
    assert PairsOf(img)[..|tags|] == PairsOf(img);
  }

  /** The delete call for the next deletable tag, accounted for. */
  method DeleteNext(img: ImageStatus, deleteTag: (string, string) -> Answer<bool>, i: nat,
                    attempted: seq<(string, string)>, deleted: seq<DeletedTag>, errors: seq<PurgeError>)
    returns (attempted': seq<(string, string)>, deleted': seq<DeletedTag>, errors': seq<PurgeError>)
    requires i < |TagsToDelete(img)|
    requires DeletedFirst(img, deleteTag, i, attempted, deleted, errors)
    ensures DeletedFirst(img, deleteTag, i + 1, attempted', deleted', errors')
  {
    var tags := TagsToDelete(img);
    var t := tags[i];
    assert t in tags;
    var d, e := DeleteOneTag(img, t, deleteTag);
    FreedStep(img, deleteTag, deleted, d, tags, i);
    Seqs.CountWhereConcat(Succeeded(deleteTag), attempted, [(img.name, t)]);
    AllConfirmedConcat(deleted, d, img, deleteTag);
    PairsOfPrefix(img, i);
    attempted', deleted', errors' := attempted + [(img.name, t)], deleted + d, errors + e;
  }

  /** The calls for the first `i + 1` deletable tags extend those for the first `i`. */
  lemma PairsOfPrefix(img: ImageStatus, i: nat)
    requires i < |TagsToDelete(img)|
    ensures PairsOf(img)[..i + 1] == PairsOf(img)[..i] + [(img.name, TagsToDelete(img)[i])]
  {
  }

  /** One delete call for a deletable tag: a deleted-tag entry when the registry answers
      true, otherwise one error. */
  method DeleteOneTag(img: ImageStatus, t: string, deleteTag: (string, string) -> Answer<bool>)
    returns (d: seq<DeletedTag>, e: seq<PurgeError>)
    requires t in TagsToDelete(img)
    ensures |d| + |e| == 1
    ensures |d| == Seqs.CountWhere(Succeeded(deleteTag), [(img.name, t)])
    ensures AllConfirmed(d, img, deleteTag)
    ensures d == if deleteTag(img.name, t) == Answered(true) then [DeletedTag(img.name, t, TagSize(img, t))] else []
  {
    var answer := deleteTag(img.name, t);
    if answer == Answered(true) {
      d, e := [DeletedTag(img.name, t, TagSize(img, t))], [];
    } else if answer.Answered? {
      d, e := [], [DeleteRefused(img.name, t)];
    } else {
      d, e := [], [DeleteRaised(img.name, t, answer.message)];
    }
  }

  /** One more delete call keeps the deleted sizes in step with `DeletedSize`. */
  lemma FreedStep(img: ImageStatus, deleteTag: (string, string) -> Answer<bool>, deleted: seq<DeletedTag>, d: seq<DeletedTag>,
                   tags: seq<string>, i: nat)
    requires i < |tags| && SumSizes(deleted) == DeletedSize(img, deleteTag, tags[..i])
    requires d == if deleteTag(img.name, tags[i]) == Answered(true) then [DeletedTag(img.name, tags[i], TagSize(img, tags[i]))] else []
    ensures SumSizes(deleted + d) == DeletedSize(img, deleteTag, tags[..i + 1])
  {
    var t := tags[i];
    SumSizesConcat(deleted, d);
    DeletedSizeSnoc(img, deleteTag, tags[..i], t);
    assert tags[..i + 1] == tags[..i] + [t];
  }

  /** The preview half of `purge_images`. */
  function PreviewReport(images: seq<ImageStatus>, dryRun: bool): (r: PurgeReport)
    ensures r.Preview? && r.dryRun == dryRun && r.asksConfirmation == !dryRun
    ensures r.imagesToProcess == |images| && r.tagsToDelete == |Pairs(images)|
    ensures |r.shown| == if |images| < PreviewLimit then |images| else PreviewLimit
    ensures forall i :: 0 <= i < |r.shown| ==> r.shown[i] == PreviewOf(images[i])
  {
    PreviewCountsAttempts(images, |images|);
    var head := Seqs.Take(images, PreviewLimit);
    Preview(dryRun, |images|, TotalToDelete(images, |images|), EstimatedSpace(images),
            seq(|head|, i requires 0 <= i < |head| => PreviewOf(head[i])), !dryRun)
  }

  /** What an execution reports about a selection: the delete calls it made are exactly
      the deletable tags of every record in order, each call is counted once as a
      success or an error, the summary succeeds exactly when every call did, and only
      records whose every call succeeded and that have no deployed tag are reported
      fully deleted. */
  predicate ExecutionAccounts(r: PurgeReport, images: seq<ImageStatus>, deleteTag: (string, string) -> Answer<bool>) {
    && r.Executed?
    && r.evaluated == |images|
    && r.attempted == Pairs(images)
    && r.successCount == |r.tagsDeleted| && r.errorCount == |r.errors|
    && r.successCount + r.errorCount == |r.attempted|
    && r.successCount == Seqs.CountWhere(Succeeded(deleteTag), r.attempted)
    && (r.summarySuccess <==> r.errorCount == 0)
    && (r.summarySuccess <==> forall k :: 0 <= k < |r.attempted| ==> Succeeded(deleteTag)(r.attempted[k]))
    && r.spaceFreed == SumSizes(r.tagsDeleted)
    && (forall k :: 0 <= k < |r.tagsDeleted| ==> Succeeded(deleteTag)((r.tagsDeleted[k].image, r.tagsDeleted[k].tag)))
    && r.fullyDeleted == FullyPurgedNames(images, deleteTag)
    && (forall k :: 0 <= k < |r.processed| ==> r.processed[k].tagsToDelete != [])
  }

  /** What one record contributes to an execution: its processed entry unless it has
      nothing to delete, its delete calls, the tags deleted and the errors. */
  datatype ImageOutcome = ImageOutcome(
    entry: Option<ProcessedImage>,
    attempted: seq<(string, string)>,
    deleted: seq<DeletedTag>,
    errors: seq<PurgeError>)

  /** The outcome of a record is one delete call per deletable tag, each counted once as
      a success or an error, and the entry's full-deletion flag is `FullyPurged`. */
  predicate OutcomeFor(o: ImageOutcome, img: ImageStatus, deleteTag: (string, string) -> Answer<bool>) {
    && o.attempted == PairsOf(img)
    && |o.deleted| + |o.errors| == |o.attempted|
    && |o.deleted| == Seqs.CountWhere(Succeeded(deleteTag), o.attempted)
    && (forall k :: 0 <= k < |o.deleted| ==> Confirmed(o.deleted[k], img, deleteTag))
    && AllSucceeded(o.deleted, deleteTag)
    && SumSizes(o.deleted) == DeletedSize(img, deleteTag, TagsToDelete(img))
    && (o.entry.Some? <==> TagsToDelete(img) != [])
    && (o.entry.Some? ==> o.entry.value.tagsToDelete != [])
    && (FullyFlag(o) <==> FullyPurged(img, deleteTag))
  }

  /** One record of an execution. */
  method ProcessImage(img: ImageStatus, deleteTag: (string, string) -> Answer<bool>) returns (o: ImageOutcome)
    ensures OutcomeFor(o, img, deleteTag)
  {
    var tags := TagsToDelete(img);
    if tags == [] {
      return ImageOutcome(None, [], [], []);
    }
    var attempted, deleted, errors := PurgeImageTags(img, deleteTag);
    var full := |deleted| == |tags| && RemainingTags(img) == [];
    FullyPurgedByCount(img, deleteTag);
    var deletedNames := seq(|deleted|, k requires 0 <= k < |deleted| => deleted[k].tag);
    var entry := ProcessedImage(img.name, |img.tags|, tags, img.deployedTags, deletedNames, errors, full);
    return ImageOutcome(Some(entry), attempted, deleted, errors);
  }

  /** The running totals of an execution. */
  datatype Tally = Tally(
    processed: seq<ProcessedImage>,
    attempted: seq<(string, string)>,
    tagsDeleted: seq<DeletedTag>,
    fullyDeleted: seq<string>,
    errors: seq<PurgeError>,
    freed: int)

  /** What the totals hold once the first `n` records are processed. */
  predicate TallyAccounts(t: Tally, images: seq<ImageStatus>, n: nat, deleteTag: (string, string) -> Answer<bool>)
    requires n <= |images|
  {
    && t.attempted == PairsUpTo(images, n)
    && |t.tagsDeleted| + |t.errors| == |t.attempted|
    && |t.tagsDeleted| == Seqs.CountWhere(Succeeded(deleteTag), t.attempted)
    && t.freed == SumSizes(t.tagsDeleted)
    && (forall k :: 0 <= k < |t.tagsDeleted| ==> Succeeded(deleteTag)((t.tagsDeleted[k].image, t.tagsDeleted[k].tag)))
    && t.fullyDeleted == NamesWhere(FullyPurgedTest(deleteTag), images, n)
    && (forall k :: 0 <= k < |t.processed| ==> t.processed[k].tagsToDelete != [])
  }

  /** The totals after one more record. */
  function AddOutcome(t: Tally, img: ImageStatus, o: ImageOutcome): Tally {
    Tally(t.processed + (if o.entry.Some? then [o.entry.value] else []),
          t.attempted + o.attempted,
          t.tagsDeleted + o.deleted,
          t.fullyDeleted + (if o.entry.Some? && o.entry.value.fullyDeleted then [img.name] else []),
          t.errors + o.errors,
          t.freed + SumSizes(o.deleted))
  }

  /** The totals after the records' outcomes `outs`, in order. */
  function TallyOf(images: seq<ImageStatus>, outs: seq<ImageOutcome>): Tally
    requires |outs| <= |images|
    decreases |outs|
  {
    if outs == [] then Tally([], [], [], [], [], 0)
    else
      var n := |outs| - 1;
      AddOutcome(TallyOf(images, outs[..n]), images[n], outs[n])
  }

  /** Outcomes that each account for their record, for the first `|outs|` records. */
  predicate OutcomesFor(outs: seq<ImageOutcome>, images: seq<ImageStatus>, deleteTag: (string, string) -> Answer<bool>) {
    |outs| <= |images| && forall k :: 0 <= k < |outs| ==> OutcomeFor(outs[k], images[k], deleteTag)
  }

  /** Accounting for one more record extends accounted outcomes, and the totals are the
      previous ones with that record's outcome added. */
  lemma OutcomesForSnoc(outs: seq<ImageOutcome>, images: seq<ImageStatus>, deleteTag: (string, string) -> Answer<bool>, o: ImageOutcome)
    requires OutcomesFor(outs, images, deleteTag) && |outs| < |images|
    requires OutcomeFor(o, images[|outs|], deleteTag)
    ensures OutcomesFor(outs + [o], images, deleteTag)
    ensures TallyOf(images, outs + [o]) == AddOutcome(TallyOf(images, outs), images[|outs|], o)
  {
    TallyOfSnoc(outs, images, o);
    forall k | 0 <= k < |outs| + 1
      ensures OutcomeFor((outs + [o])[k], images[k], deleteTag)
    {
      if k < |outs| {
        assert (outs + [o])[k] == outs[k];
      }
    }
  }

  /** The totals after one more outcome are the previous totals with it added. */
  lemma TallyOfSnoc(outs: seq<ImageOutcome>, images: seq<ImageStatus>, o: ImageOutcome)
    requires |outs| < |images|
    ensures TallyOf(images, outs + [o]) == AddOutcome(TallyOf(images, outs), images[|outs|], o)
  {
    assert (outs + [o])[..|outs|] == outs;
  }

  /** Each of `outs` makes the delete calls of its record. */
  predicate CallsFor(outs: seq<ImageOutcome>, images: seq<ImageStatus>) {
    |outs| <= |images| && forall k :: 0 <= k < |outs| ==> outs[k].attempted == PairsOf(images[k])
  }

  /** Each of `outs` counts every call once, as a success or an error. */
  predicate CountsFor(outs: seq<ImageOutcome>, deleteTag: (string, string) -> Answer<bool>) {
    forall k :: 0 <= k < |outs| ==>
      && |outs[k].deleted| + |outs[k].errors| == |outs[k].attempted|
      && |outs[k].deleted| == Seqs.CountWhere(Succeeded(deleteTag), outs[k].attempted)
  }

  /** Each of `outs` lists only deletions the registry answered true for. */
  predicate SuccessesFor(outs: seq<ImageOutcome>, deleteTag: (string, string) -> Answer<bool>) {
    forall k :: 0 <= k < |outs| ==> AllSucceeded(outs[k].deleted, deleteTag)
  }

  /** Whether an outcome reports its record fully deleted. */
  function FullyFlag(o: ImageOutcome): bool {
    o.entry.Some? && o.entry.value.fullyDeleted
  }

  /** Each of `outs` flags its record exactly when `keep` holds for it, and only has an
      entry when there was something to delete. */
  predicate FlagsFor(outs: seq<ImageOutcome>, images: seq<ImageStatus>, keep: ImageStatus -> bool) {
    |outs| <= |images| && forall k :: 0 <= k < |outs| ==>
      && FullyFlag(outs[k]) == keep(images[k])
      && (outs[k].entry.Some? ==> outs[k].entry.value.tagsToDelete != [])
  }

  /** The delete calls of the folded outcomes are those of the records folded. */
  lemma {:induction false} TallyOfAttempted(images: seq<ImageStatus>, outs: seq<ImageOutcome>)
    requires CallsFor(outs, images)
    ensures TallyOf(images, outs).attempted == PairsUpTo(images, |outs|)
  {
    if outs != [] {
      var n := |outs| - 1;
      TallyOfAttempted(images, outs[..n]);
    }
  }

  /** Every folded delete call is counted once, as a success or an error. */
  lemma {:induction false} TallyOfCounts(images: seq<ImageStatus>, outs: seq<ImageOutcome>, deleteTag: (string, string) -> Answer<bool>)
    requires |outs| <= |images| && CountsFor(outs, deleteTag)
    ensures var t := TallyOf(images, outs);
      |t.tagsDeleted| + |t.errors| == |t.attempted| && |t.tagsDeleted| == Seqs.CountWhere(Succeeded(deleteTag), t.attempted)
  {
    if outs != [] {
      var n := |outs| - 1;
      TallyOfCounts(images, outs[..n], deleteTag);
      Seqs.CountWhereConcat(Succeeded(deleteTag), TallyOf(images, outs[..n]).attempted, outs[n].attempted);
    }
  }

  /** The freed space is the sum of the sizes of the folded deletions. */
  lemma {:induction false} TallyOfFreed(images: seq<ImageStatus>, outs: seq<ImageOutcome>)
    requires |outs| <= |images|
    ensures TallyOf(images, outs).freed == SumSizes(TallyOf(images, outs).tagsDeleted)
  {
    if outs != [] {
      var n := |outs| - 1;
      TallyOfFreed(images, outs[..n]);
      SumSizesConcat(TallyOf(images, outs[..n]).tagsDeleted, outs[n].deleted);
    }
  }

  /** Each of `outs` frees the sizes of its record's deletable tags the registry deleted. */
  predicate FreedFor(outs: seq<ImageOutcome>, images: seq<ImageStatus>, deleteTag: (string, string) -> Answer<bool>) {
    |outs| <= |images| && forall k :: 0 <= k < |outs| ==>
      SumSizes(outs[k].deleted) == DeletedSize(images[k], deleteTag, TagsToDelete(images[k]))
  }

  /** The folded freed space is, record by record, the sizes of the tags deleted. */
  lemma {:induction false} TallyOfFreedUpTo(images: seq<ImageStatus>, outs: seq<ImageOutcome>, deleteTag: (string, string) -> Answer<bool>)
    requires FreedFor(outs, images, deleteTag)
    ensures TallyOf(images, outs).freed == FreedUpTo(images, |outs|, deleteTag)
  {
    if outs != [] {
      var n := |outs| - 1;
      assert FreedFor(outs[..n], images, deleteTag);
      TallyOfFreedUpTo(images, outs[..n], deleteTag);
    }
  }

  /** Every folded deletion is one the registry answered true for. */
  lemma {:induction false} TallyOfSucceeded(images: seq<ImageStatus>, outs: seq<ImageOutcome>, deleteTag: (string, string) -> Answer<bool>)
    requires |outs| <= |images| && SuccessesFor(outs, deleteTag)
    ensures AllSucceeded(TallyOf(images, outs).tagsDeleted, deleteTag)
  {
    if outs != [] {
      var n := |outs| - 1;
      TallyOfSucceeded(images, outs[..n], deleteTag);
      var before := TallyOf(images, outs[..n]).tagsDeleted;
      assert TallyOf(images, outs).tagsDeleted == before + outs[n].deleted;
      assert AllSucceeded(outs[n].deleted, deleteTag);
    }
  }

  /** The folded fully-deleted names are those of the records `keep` holds for, and
      every processed entry had something to delete. */
  lemma {:induction false} TallyOfFully(images: seq<ImageStatus>, outs: seq<ImageOutcome>, keep: ImageStatus -> bool)
    requires FlagsFor(outs, images, keep)
    ensures var t := TallyOf(images, outs);
      && t.fullyDeleted == NamesWhere(keep, images, |outs|)
      && forall k :: 0 <= k < |t.processed| ==> t.processed[k].tagsToDelete != []
  {
    if outs != [] {
      var n := |outs| - 1;
      TallyOfFully(images, outs[..n], keep);
      assert FullyFlag(outs[n]) == keep(images[n]);
    }
  }

  /** Folding outcomes that each account for their record gives totals that account
      for the records folded. */
  lemma TallyOfAccounts(images: seq<ImageStatus>, outs: seq<ImageOutcome>, deleteTag: (string, string) -> Answer<bool>)
    requires OutcomesFor(outs, images, deleteTag)
    ensures TallyAccounts(TallyOf(images, outs), images, |outs|, deleteTag)
  {
    assert CallsFor(outs, images) && CountsFor(outs, deleteTag) by {
      forall k | 0 <= k < |outs| ensures OutcomeFor(outs[k], images[k], deleteTag) { }
    }
    assert SuccessesFor(outs, deleteTag) && FlagsFor(outs, images, FullyPurgedTest(deleteTag)) by {
      forall k | 0 <= k < |outs| ensures OutcomeFor(outs[k], images[k], deleteTag) { }
    }
    TallyOfAttempted(images, outs);
    TallyOfCounts(images, outs, deleteTag);
    TallyOfFreed(images, outs);
    TallyOfSucceeded(images, outs, deleteTag);
    TallyOfFully(images, outs, FullyPurgedTest(deleteTag));
  }

  /** Outcomes accounting for every record of a selection fold into a report accounting
      for the selection. */
  lemma TallyOfReport(images: seq<ImageStatus>, outs: seq<ImageOutcome>, deleteTag: (string, string) -> Answer<bool>)
    requires |outs| == |images| && OutcomesFor(outs, images, deleteTag)
    ensures ExecutionAccounts(ReportOf(TallyOf(images, outs), |images|), images, deleteTag)
  {
    TallyOfAccounts(images, outs, deleteTag);
    TallyReport(TallyOf(images, outs), images, deleteTag);
  }

  /** The execution half of `purge_images`. */
  method ExecuteDeletes(images: seq<ImageStatus>, deleteTag: (string, string) -> Answer<bool>) returns (r: PurgeReport)
    ensures ExecutionAccounts(r, images, deleteTag)
    ensures r.spaceFreed == FreedUpTo(images, |images|, deleteTag)
  {
    var t := Tally([], [], [], [], [], 0);
    ghost var outs: seq<ImageOutcome> := [];
    var i := 0;
    while i < |images|
      invariant 0 <= i <= |images| && |outs| == i
      invariant OutcomesFor(outs, images, deleteTag)
      invariant t == TallyOf(images, outs)
    {
      var o := ProcessImage(images[i], deleteTag);
      t := AddOutcome(t, images[i], o);
      OutcomesForSnoc(outs, images, deleteTag, o);
      outs := outs + [o];
      i := i + 1;
    }
    TallyOfReport(images, outs, deleteTag);
    assert FreedFor(outs, images, deleteTag) by {
      forall k | 0 <= k < |outs| ensures OutcomeFor(outs[k], images[k], deleteTag) { }
    }
    TallyOfFreedUpTo(images, outs, deleteTag);
    r := ReportOf(t, |images|);
  }

  /** The report of a finished execution. */
  function ReportOf(t: Tally, evaluated: nat): PurgeReport {
    Executed(evaluated, t.processed, t.attempted, t.tagsDeleted, t.fullyDeleted, t.freed,
             t.errors, |t.tagsDeleted|, |t.errors|, |t.errors| == 0)
  }

  /** Totals accounting for every record give a report accounting for the selection. */
  lemma TallyReport(t: Tally, images: seq<ImageStatus>, deleteTag: (string, string) -> Answer<bool>)
    requires TallyAccounts(t, images, |images|, deleteTag)
    ensures ExecutionAccounts(ReportOf(t, |images|), images, deleteTag)
  {
    Seqs.CountWhereAll(Succeeded(deleteTag), t.attempted);
    assert t.fullyDeleted == FullyPurgedNames(images, deleteTag);
  }

  /** `purge_images` once the selection is known: a preview when it is a dry run or
      unconfirmed, otherwise one delete call per deletable tag of every selected record. */
  method ExecutePurge(images: seq<ImageStatus>, dryRun: bool, confirmed: bool, deleteTag: (string, string) -> Answer<bool>)
    returns (r: PurgeReport)
    ensures r.Preview? <==> dryRun || !confirmed
    ensures r.Preview? ==> r == PreviewReport(images, dryRun)
    ensures r.Executed? ==> ExecutionAccounts(r, images, deleteTag)
    ensures r.Executed? ==> r.spaceFreed == FreedUpTo(images, |images|, deleteTag)
  {
    if dryRun || !confirmed {
      return PreviewReport(images, dryRun);
    }
    r := ExecuteDeletes(images, deleteTag);
  }

  /** Every record of a selection is a record of the status listing with details attached. */
  predicate FromListing(images: seq<ImageStatus>, v: RegistryView) {
    forall i :: 0 <= i < |images| ==> images[i].(detailedTags := None) in GetImagesWithDeploymentStatus(v)
  }

  /** Every delete call for records of the status listing names a catalog image and one
      of its tags outside the answered deployed set. */
  lemma ListingCallsAreSafe(v: RegistryView, images: seq<ImageStatus>, p: (string, string))
    requires FromListing(images, v)
    requires p in Pairs(images)
    ensures p.0 in v.catalog && p.1 in v.tagsOf(p.0) && !DeployedTag(v.deployed, p.0, p.1)
  {
    PairsMembership(images, p);
    var i :| 0 <= i < |images| && p in PairsOf(images[i]);
    PairsOfMembership(images[i], p);
    var plain := images[i].(detailedTags := None);
    var all := GetImagesWithDeploymentStatus(v);
    var j :| 0 <= j < |all| && all[j] == plain;
    assert plain == StatusOf(v.deployed, v.catalog[j], v.tagsOf(v.catalog[j]));
    assert p.1 in TagsToDelete(images[i]);
  }

  /** The calls of an execution over records of the status listing are all safe. */
  lemma ExecutedCallsAreSafe(v: RegistryView, images: seq<ImageStatus>, r: PurgeReport)
    requires FromListing(images, v)
    requires r.Executed? && r.attempted == Pairs(images)
    ensures forall k :: 0 <= k < |r.attempted| ==>
      var p := r.attempted[k];
      p.0 in v.catalog && p.1 in v.tagsOf(p.0) && !DeployedTag(v.deployed, p.0, p.1)
  {
    forall k | 0 <= k < |r.attempted|
      ensures var p := r.attempted[k]; p.0 in v.catalog && p.1 in v.tagsOf(p.0) && !DeployedTag(v.deployed, p.0, p.1)
    {
      ListingCallsAreSafe(v, images, r.attempted[k]);
    }
  }

  /** An execution over records carrying their tags' details in which every delete call
      answered true frees exactly the space the preview of the same records estimates. */
  lemma ExecutionFreesEstimate(images: seq<ImageStatus>, detailOf: (string, string) -> Answer<TagInfo>,
                               deleteTag: (string, string) -> Answer<bool>, r: PurgeReport)
    requires forall i :: 0 <= i < |images| ==> images[i] == WithDetails(images[i].(detailedTags := None), detailOf)
    requires ExecutionAccounts(r, images, deleteTag) && r.spaceFreed == FreedUpTo(images, |images|, deleteTag)
    requires r.summarySuccess
    ensures r.spaceFreed == EstimatedSpace(images)
  {
    forall k | 0 <= k < |images| ensures DetailsOfTags(images[k], detailOf) {
      var plain := images[k].(detailedTags := None);
      assert images[k] == WithDetails(plain, detailOf);
    }
    FreedIsEstimate(images, detailOf, deleteTag);
  }

  /** `purge_images` as written: the records are those `get_filtered_images` selects for
      the raw criterion string. Whatever the registry answers, no tag of the answered deployed set is
      ever handed to the delete call, and every call names a tag the catalog image has. */
  method PurgeImagesAsWritten(v: RegistryView, criteria: string, daysOld: int, sizeMb: int, dryRun: bool, confirmed: bool,
                              nowLocal: int, deleteTag: (string, string) -> Answer<bool>)
    returns (r: PurgeReport)
    ensures r.Preview? <==> dryRun || !confirmed
    ensures r.Preview? ==> r == PreviewReport(PurgeSelectionAsWritten(v, criteria, daysOld, sizeMb, nowLocal), dryRun)
    ensures r.Executed? ==> r.attempted == Pairs(PurgeSelectionAsWritten(v, criteria, daysOld, sizeMb, nowLocal))
    ensures r.Executed? ==> r.successCount + r.errorCount == |r.attempted| && (r.summarySuccess <==> r.errorCount == 0)
    ensures r.Executed? ==> forall k :: 0 <= k < |r.attempted| ==>
      var p := r.attempted[k];
      p.0 in v.catalog && p.1 in v.tagsOf(p.0) && !DeployedTag(v.deployed, p.0, p.1)
    ensures r.Executed? && r.summarySuccess ==>
      r.spaceFreed == EstimatedSpace(PurgeSelectionAsWritten(v, criteria, daysOld, sizeMb, nowLocal))
  {
    var images := PurgeSelectionAsWritten(v, criteria, daysOld, sizeMb, nowLocal);
    r := ExecutePurge(images, dryRun, confirmed, deleteTag);
    if r.Executed? {
      ExecutedCallsAreSafe(v, images, r);
      if r.summarySuccess {
        ExecutionFreesEstimate(images, v.detailOf, deleteTag, r);
      }
    }
  }

  /** `purge_images` with the purge's own criterion fallback, `NOT_DEPLOYED`, applied to
      the selection. The same safety holds. */
  method PurgeImages(v: RegistryView, criteria: string, daysOld: int, sizeMb: int, dryRun: bool, confirmed: bool,
                     nowLocal: int, deleteTag: (string, string) -> Answer<bool>)
    returns (r: PurgeReport)
    ensures r.Preview? <==> dryRun || !confirmed
    ensures r.Preview? ==> r == PreviewReport(PurgeSelection(v, criteria, daysOld, sizeMb, nowLocal), dryRun)
    ensures r.Executed? ==> r.attempted == Pairs(PurgeSelection(v, criteria, daysOld, sizeMb, nowLocal))
    ensures r.Executed? ==> r.successCount + r.errorCount == |r.attempted| && (r.summarySuccess <==> r.errorCount == 0)
    ensures r.Executed? ==> forall k :: 0 <= k < |r.attempted| ==>
      var p := r.attempted[k];
      p.0 in v.catalog && p.1 in v.tagsOf(p.0) && !DeployedTag(v.deployed, p.0, p.1)
    ensures r.Executed? && r.summarySuccess ==>
      r.spaceFreed == EstimatedSpace(PurgeSelection(v, criteria, daysOld, sizeMb, nowLocal))
  {
    var images := PurgeSelection(v, criteria, daysOld, sizeMb, nowLocal);
    r := ExecutePurge(images, dryRun, confirmed, deleteTag);
    if r.Executed? {
      ExecutedCallsAreSafe(v, images, r);
      if r.summarySuccess {
        ExecutionFreesEstimate(images, v.detailOf, deleteTag, r);
      }
    }
  }
}

=== FILE: rule_engine.dfy ===
/** The rule engine: the per-kind matcher of one rule against one image tag, the
    evaluation of one image against every active rule, and default-rule bootstrap. */
module RuleEngine {
  import opened Wrappers
  import opened External
  import opened KeyedStore
  import opened Rules
  import Text
  import Seqs

  /** The `image_data` dictionary evaluated for one tag of one image. */
  datatype ImageData = ImageData(
    name: string,
    imageName: string,
    tag: string,
    tags: seq<string>,
    createdAt: DateField,
    size: int,
    isDeployed: bool,
    rank: int)

  /** Defaults the engine uses for missing condition keys. */
  const DefaultMaxAgeDays: int := 30
  const DefaultKeepCount: int := 10
  const DefaultMaxSizeMb: int := 1000

  /** The rule kinds the engine recognises; every other `rule_type` never matches. */
  const KnownKinds: set<string> := {"age_based", "count_based", "tag_based", "size_based"}

  /** Age rule: a present, parseable, naive creation date strictly before the cutoff. */
  predicate CheckAgeRule(img: ImageData, c: Conditions, nowUtc: int)
    ensures CheckAgeRule(img, c, nowUtc) <==>
      && img.createdAt.Date?
      && !img.createdAt.ts.hasOffset
      && img.createdAt.ts.micros < nowUtc - c.maxAgeDays.GetOr(30) * MicrosPerDay
  {
    StrictlyBefore(img.createdAt, DaysBefore(nowUtc, c.maxAgeDays.GetOr(DefaultMaxAgeDays)))
  }

  /** Count rule: the rank strictly exceeds the number of images to keep. */
  predicate CheckCountRule(img: ImageData, c: Conditions)
    ensures c.keepCount.None? ==> (CheckCountRule(img, c) <==> img.rank >= 11)
    ensures c.keepCount.Some? ==> (CheckCountRule(img, c) <==> img.rank >= c.keepCount.value + 1)
  {
    img.rank > c.keepCount.GetOr(DefaultKeepCount)
  }

  /** The tags the tag rule looks at: `tags`, or the single `tag` when `tags` is empty. */
  function EffectiveTags(img: ImageData): seq<string> {
    if img.tags != [] then img.tags
    else if img.tag != "" then [img.tag]
    else []
  }

  /** Tag rule: exact exclusion first, then case-insensitive pattern search. */
  predicate CheckTagRule(img: ImageData, c: Conditions)
    ensures CheckTagRule(img, c) <==>
      && (forall t :: t in EffectiveTags(img) ==> t !in c.excludeTags)
      && (c.tagPatterns == [] ||
          exists t, p :: t in EffectiveTags(img) && p in c.tagPatterns && Text.Contains(Text.Lower(t), Text.Lower(p)))
  {
    var tags := EffectiveTags(img);
    if exists i | 0 <= i < |tags| :: tags[i] in c.excludeTags then false
    else if c.tagPatterns != [] then
      exists i, j | 0 <= i < |tags| && 0 <= j < |c.tagPatterns| ::
        Text.Contains(Text.Lower(tags[i]), Text.Lower(c.tagPatterns[j]))
    else true
  }

  /** Size rule: the size strictly exceeds the threshold in bytes. */
  predicate CheckSizeRule(img: ImageData, c: Conditions)
    ensures c.maxSizeMb.None? ==> (CheckSizeRule(img, c) <==> img.size > 1048576000)
    ensures c.maxSizeMb.Some? ==> (CheckSizeRule(img, c) <==> img.size > c.maxSizeMb.value * 1048576)
  {
    img.size > c.maxSizeMb.GetOr(DefaultMaxSizeMb) * BytesPerMb
  }

  /** `_matches_rule`: dispatch on the rule's kind. */
  predicate Matches(img: ImageData, rule: Rule, nowUtc: int)
    ensures rule.ruleType !in KnownKinds ==> !Matches(img, rule, nowUtc)
    ensures rule.ruleType == "age_based" ==>
      (Matches(img, rule, nowUtc) <==>
        && img.createdAt.Date?
        && !img.createdAt.ts.hasOffset
        && img.createdAt.ts.micros < nowUtc - rule.conditions.maxAgeDays.GetOr(30) * MicrosPerDay)
    ensures rule.ruleType == "count_based" ==>
      (Matches(img, rule, nowUtc) <==> img.rank > rule.conditions.keepCount.GetOr(10))
    ensures rule.ruleType == "size_based" ==>
      (Matches(img, rule, nowUtc) <==> img.size > rule.conditions.maxSizeMb.GetOr(1000) * 1048576)
    ensures rule.ruleType == "tag_based" ==>
      (Matches(img, rule, nowUtc) <==>
        && (forall t :: t in EffectiveTags(img) ==> t !in rule.conditions.excludeTags)
        && (rule.conditions.tagPatterns == [] ||
            exists t, p :: t in EffectiveTags(img) && p in rule.conditions.tagPatterns &&
              Text.Contains(Text.Lower(t), Text.Lower(p))))
  {
    if rule.ruleType == "age_based" then CheckAgeRule(img, rule.conditions, nowUtc)
    else if rule.ruleType == "count_based" then CheckCountRule(img, rule.conditions)
    else if rule.ruleType == "tag_based" then CheckTagRule(img, rule.conditions)
    else if rule.ruleType == "size_based" then CheckSizeRule(img, rule.conditions)
    else false
  }

  /** With the default 30-day age rule, a tag created 31 days ago matches, one created
      29 days ago does not, and an undated one never does. */
  lemma AgeRuleBoundary(img: ImageData, nowUtc: int)
    ensures var rule := Rule("r", "age_based", "", NoConditions.(maxAgeDays := Some(30)), "delete", true);
      && Matches(img.(createdAt := Date(Timestamp(nowUtc - 31 * MicrosPerDay, false))), rule, nowUtc)
      && !Matches(img.(createdAt := Date(Timestamp(nowUtc - 29 * MicrosPerDay, false))), rule, nowUtc)
      && !Matches(img.(createdAt := NoDate), rule, nowUtc)
      && !Matches(img.(createdAt := Date(Timestamp(nowUtc - 31 * MicrosPerDay, true))), rule, nowUtc)
  {
  }

  /** Any excluded tag vetoes the tag rule, whatever the patterns and the other tags. */
  lemma ExclusionWins(img: ImageData, c: Conditions, nowUtc: int)
    requires exists t :: t in EffectiveTags(img) && t in c.excludeTags
    ensures !Matches(img, Rule("r", "tag_based", "", c, "delete", true), nowUtc)
  {
  }

  /** The ids of a list of rows, in order. */
  function Ids(rules: seq<Record<Rule>>): (r: seq<nat>)
    ensures |r| == |rules|
    ensures forall i :: 0 <= i < |rules| ==> r[i] == rules[i].id
  {
    seq(|rules|, i requires 0 <= i < |rules| => rules[i].id)
  }

  /** The ids of the rows that match, in row order. */
  function MatchingIds(img: ImageData, rules: seq<Record<Rule>>, nowUtc: int): (r: seq<nat>)
    ensures Seqs.IsSubsequence(r, Ids(rules))
    ensures forall id :: id in r <==>
      exists i :: 0 <= i < |rules| && rules[i].id == id && Matches(img, rules[i].value, nowUtc)
    decreases |rules|
  {
    if rules == [] then []
    else
      var rest := MatchingIds(img, rules[1..], nowUtc);
      assert Ids(rules) == [rules[0].id] + Ids(rules[1..]);
      if Matches(img, rules[0].value, nowUtc) then
        assert ([rules[0].id] + rest)[1..] == rest;
        [rules[0].id] + rest
      else
        Seqs.SkipHead(rest, Ids(rules));
        rest
  }

  /** `evaluate_image`: empty for a deployed image; otherwise the ids of the active rules
      that match, in active-rule order. */
  function EvaluateImage(img: ImageData, s: RuleStore, nowUtc: int): (r: seq<nat>)
    ensures img.isDeployed ==> r == []
    ensures Seqs.IsSubsequence(r, Ids(GetActiveRules(s)))
    ensures forall id :: id in r <==>
      !img.isDeployed &&
      exists x :: x in s.records && x.value.isActive && x.id == id && Matches(img, x.value, nowUtc)
  {
    if img.isDeployed then [] else
      var r := MatchingIds(img, GetActiveRules(s), nowUtc);
      assert forall id :: id in r <==>
        exists x :: x in s.records && x.value.isActive && x.id == id && Matches(img, x.value, nowUtc) by {
        forall id ensures id in r <==>
          exists x :: x in s.records && x.value.isActive && x.id == id && Matches(img, x.value, nowUtc)
        {
          ActiveMatch(img, s, nowUtc, id);
        }
      }
      r
  }

  /** An id is among the active matches exactly when an active row of the store with
      that id matches. */
  lemma ActiveMatch(img: ImageData, s: RuleStore, nowUtc: int, id: nat)
    ensures id in MatchingIds(img, GetActiveRules(s), nowUtc) <==>
      exists x :: x in s.records && x.value.isActive && x.id == id && Matches(img, x.value, nowUtc)
  {
    if id in MatchingIds(img, GetActiveRules(s), nowUtc) {
      ActiveMatchSound(img, s, nowUtc, id);
    }
  }

  /** An id among the active matches belongs to an active row that matches. */
  lemma ActiveMatchSound(img: ImageData, s: RuleStore, nowUtc: int, id: nat)
    requires id in MatchingIds(img, GetActiveRules(s), nowUtc)
    ensures exists x :: x in s.records && x.value.isActive && x.id == id && Matches(img, x.value, nowUtc)
  {
    var active := GetActiveRules(s);
    var i :| 0 <= i < |active| && active[i].id == id && Matches(img, active[i].value, nowUtc);
    assert active[i] in active;
  }

  /** `initialize_default_rules`: creates the defaults only when no rule is active. */
  function InitializeDefaultRules(s: RuleStore): (r: (RuleStore, seq<Record<Rule>>))
    ensures GetActiveRules(s) != [] ==> r.0 == s && r.1 == []
    ensures GetActiveRules(s) == [] ==> Count(r.0) == Count(s) + 3 && |r.1| == 3
    ensures GetActiveRules(r.0) != []
    ensures Valid(s) ==> Valid(r.0)
  {
    if GetActiveRules(s) != [] then (s, [])
    else
      var r := CreateDefaultRules(s);
      assert r.1[0] in r.0.records && r.1[0].value.isActive;
      r
  }

  /** Bootstrapping twice creates nothing the second time. */
  lemma InitializeTwiceCreatesOnce(s: RuleStore)
    ensures InitializeDefaultRules(InitializeDefaultRules(s).0) == (InitializeDefaultRules(s).0, [])
  {
  }
}

=== FILE: rules.dfy ===
/** Deletion rules and the rule repository: the rule table as a keyed store, its
    active-rule and by-type queries, activation toggles and the canonical default rules. */
module Rules {
  import opened Wrappers
  import opened KeyedStore
  import Seqs

  /** The keys of the JSON `conditions` column that the rule engine reads. A missing list
      key is the empty list (the engine reads it with a `[]` default and only tests it
      for truthiness). */
  datatype Conditions = Conditions(
    maxAgeDays: Option<int>,
    keepCount: Option<int>,
    tagPatterns: seq<string>,
    excludeTags: seq<string>,
    maxSizeMb: Option<int>)

  /** A `conditions` object with none of the keys above. */
  const NoConditions: Conditions := Conditions(None, None, [], [], None)

  /** One row of the `rules` table, without its id (the store carries ids). `ruleType`
      is free text: only four values mean anything to the engine. */
  datatype Rule = Rule(
    name: string,
    ruleType: string,
    description: string,
    conditions: Conditions,
    action: string,
    isActive: bool)

  type RuleStore = Store<Rule>

  /** One `key: value` pair of an update payload. Keys that are not columns of the rule
      model are carried as `NotAnAttribute` and ignored (`hasattr` is false). */
  datatype RuleField =
    | SetName(name: string)
    | SetRuleType(ruleType: string)
    | SetDescription(description: string)
    | SetConditions(conditions: Conditions)
    | SetAction(action: string)
    | SetActive(active: bool)
    | NotAnAttribute(key: string)

  /** `setattr(rule, key, value)` when the key is a column. */
  function ApplyField(r: Rule, f: RuleField): Rule {
    match f
    case SetName(v) => r.(name := v)
    case SetRuleType(v) => r.(ruleType := v)
    case SetDescription(v) => r.(description := v)
    case SetConditions(v) => r.(conditions := v)
    case SetAction(v) => r.(action := v)
    case SetActive(v) => r.(isActive := v)
    case NotAnAttribute(_) => r
  }

  /** The payload's pairs applied in dictionary order. */
  function ApplyFields(r: Rule, fs: seq<RuleField>): Rule
    decreases |fs|
  {
    if fs == [] then r else ApplyFields(ApplyField(r, fs[0]), fs[1..])
  }

  /** A payload made only of non-column keys changes nothing. */
  lemma {:induction false} UnknownKeysIgnored(r: Rule, fs: seq<RuleField>)
    requires forall i :: 0 <= i < |fs| ==> fs[i].NotAnAttribute?
    ensures ApplyFields(r, fs) == r
    decreases |fs|
  {
    if fs != [] {
      UnknownKeysIgnored(r, fs[1..]);
    }
  }

  /** A payload that never names the `is_active` column leaves the activation flag alone. */
  lemma {:induction false} ActiveFlagUntouched(r: Rule, fs: seq<RuleField>)
    requires forall i :: 0 <= i < |fs| ==> !fs[i].SetActive?
    ensures ApplyFields(r, fs).isActive == r.isActive
    decreases |fs|
  {
    if fs != [] {
      ActiveFlagUntouched(ApplyField(r, fs[0]), fs[1..]);
    }
  }

  /** `update(rule_id, data)` on the rule table. */
  function UpdateRule(s: RuleStore, id: nat, fs: seq<RuleField>): (r: (RuleStore, Option<Record<Rule>>))
    ensures r.1.Some? <==> Exists(s, id)
    ensures !Exists(s, id) ==> r.0 == s
    ensures Exists(s, id) ==> r.1.value.value == ApplyFields(GetById(s, id).value.value, fs)
  {
    Update(s, id, (x: Rule) => ApplyFields(x, fs))
  }

  /** `get_active_rules()`: the active rows, in table order. */
  function GetActiveRules(s: RuleStore): (r: seq<Record<Rule>>)
    ensures forall x :: x in r <==> x in s.records && x.value.isActive
    ensures Seqs.IsSubsequence(r, s.records)
  {
    var keep := (x: Record<Rule>) => x.value.isActive;
    Seqs.FilterIsSubsequence(keep, s.records);
    Seqs.Filter(keep, s.records)
  }

  /** `get_by_type(rule_type)`: rows of that type, at most the default page of 100. */
  function GetByType(s: RuleStore, ruleType: string): (r: seq<Record<Rule>>)
    ensures |r| == if |Matching(s, OfType(ruleType))| < 100 then |Matching(s, OfType(ruleType))| else 100
    ensures forall x :: x in r ==> x in s.records && x.value.ruleType == ruleType
    ensures forall i :: 0 <= i < |r| ==> i < |Matching(s, OfType(ruleType))| && r[i] == Matching(s, OfType(ruleType))[i]
    ensures |Matching(s, OfType(ruleType))| <= 100 ==>
      forall x :: x in s.records && x.value.ruleType == ruleType ==> x in r
  {
    GetManyWhere(s, OfType(ruleType), 0, 100)
  }

  /** The test for rules of one type. */
  function OfType(ruleType: string): Rule -> bool {
    (x: Rule) => x.ruleType == ruleType
  }

  /** `activate_rule(id)` / `deactivate_rule(id)`: sets the flag through `update`; the
      result is the truthiness of the updated row, i.e. whether the id exists. */
  function SetRuleActive(s: RuleStore, id: nat, active: bool): (r: (RuleStore, bool))
    ensures r.1 <==> Exists(s, id)
    ensures !r.1 ==> r.0 == s
    ensures r.1 ==> GetById(r.0, id).Some? && GetById(r.0, id).value.value.isActive == active
    ensures r.1 ==> GetById(r.0, id).value.value == GetById(s, id).value.value.(isActive := active)
    ensures |r.0.records| == |s.records|
    ensures forall j :: 0 <= j < |s.records| && s.records[j].id != id ==> r.0.records[j] == s.records[j]
  {
    var patch := (x: Rule) => ApplyFields(x, [SetActive(active)]);
    var (s', row) := Update(s, id, patch);
    assert forall x: Rule :: patch(x) == x.(isActive := active) by {
      forall x: Rule ensures patch(x) == x.(isActive := active) {
        assert ApplyFields(x, [SetActive(active)]) == ApplyFields(x.(isActive := active), []);
      }
    }
    assert row.Some? ==> GetById(s', id) == row by {
      if row.Some? {
        UpdateThenGet(s, id, patch);
      }
    }
    (s', row.Some?)
  }

  function ActivateRule(s: RuleStore, id: nat): (r: (RuleStore, bool))
    ensures r.1 <==> Exists(s, id)
    ensures !r.1 ==> r.0 == s
    ensures r.1 ==> GetById(r.0, id).Some? && GetById(r.0, id).value.value.isActive
  {
    SetRuleActive(s, id, true)
  }

  function DeactivateRule(s: RuleStore, id: nat): (r: (RuleStore, bool))
    ensures r.1 <==> Exists(s, id)
    ensures !r.1 ==> r.0 == s
    ensures r.1 ==> GetById(r.0, id).Some? && !GetById(r.0, id).value.value.isActive
  {
    SetRuleActive(s, id, false)
  }

  /** The three canonical default rules, in creation order. */
  const DefaultRules: seq<Rule> := [
    Rule("Images plus anciennes que 30 jours", "age_based",
         "Supprime les images non d\U{e9}ploy\U{e9}es plus anciennes que 30 jours",
         NoConditions.(maxAgeDays := Some(30)), "delete", true),
    Rule("Tags de d\U{e9}veloppement", "tag_based",
         "Supprime les tags de d\U{e9}veloppement anciens",
         NoConditions.(tagPatterns := ["dev", "test", "staging"],
                       excludeTags := ["latest", "prod", "production"]), "delete", true),
    Rule("Images volumineuses", "size_based",
         "Supprime les images plus grandes que 1GB",
         NoConditions.(maxSizeMb := Some(1024)), "delete", false)
  ]

  /** `create_default_rules()`: bulk-creates the default rules. */
  function CreateDefaultRules(s: RuleStore): (r: (RuleStore, seq<Record<Rule>>))
    ensures |r.1| == 3 && Count(r.0) == Count(s) + 3
    ensures r.0.records == s.records + r.1
    ensures r.1[0].value.ruleType == "age_based" && r.1[0].value.isActive
    ensures r.1[0].value.conditions.maxAgeDays == Some(30)
    ensures r.1[1].value.ruleType == "tag_based" && r.1[1].value.isActive
    ensures r.1[1].value.conditions.tagPatterns == ["dev", "test", "staging"]
    ensures r.1[1].value.conditions.excludeTags == ["latest", "prod", "production"]
    ensures r.1[2].value.ruleType == "size_based" && !r.1[2].value.isActive
    ensures r.1[2].value.conditions.maxSizeMb == Some(1024)
    ensures Valid(s) ==> Valid(r.0)
  {
    BulkCreate(s, DefaultRules)
  }

  /** On an empty table the defaults leave exactly two active rules: age and tag. */
  lemma DefaultsOnEmptyStore()
    ensures |GetActiveRules(CreateDefaultRules(Empty()).0)| == 2
  {
    var s := CreateDefaultRules(Empty()).0;
    var keep := (x: Record<Rule>) => x.value.isActive;
    assert s.records[1..][1..] == [s.records[2]];
    assert Seqs.Filter(keep, [s.records[2]]) == [];
    assert Seqs.Filter(keep, s.records[1..]) == [s.records[1]];
  }
}

=== FILE: seqs.dfy ===
/** Order-preserving sequence combinators used to model Python list comprehensions. */
module Seqs {

  /** `a` can be obtained from `b` by deleting elements, keeping the order of the rest. */
  predicate IsSubsequence<T(==)>(a: seq<T>, b: seq<T>)
    decreases |b|
  {
    if a == [] then true
    else if b == [] then false
    else if a[0] == b[0] then IsSubsequence(a[1..], b[1..])
    else IsSubsequence(a, b[1..])
  }

  /** `[x for x in s if keep(x)]`. */
  function Filter<T(!new)>(keep: T -> bool, s: seq<T>): (r: seq<T>)
    ensures |r| <= |s|
    ensures forall x :: x in r <==> x in s && keep(x)
    decreases |s|
  {
    if s == [] then []
    else (if keep(s[0]) then [s[0]] else []) + Filter(keep, s[1..])
  }

  /** The kept elements appear in `s` in the same relative order. */
  lemma {:induction false} FilterIsSubsequence<T(!new)>(keep: T -> bool, s: seq<T>)
    ensures IsSubsequence(Filter(keep, s), s)
    decreases |s|
  {
    if s != [] {
      FilterIsSubsequence(keep, s[1..]);
      var rest := Filter(keep, s[1..]);
      if keep(s[0]) {
        assert Filter(keep, s) == [s[0]] + rest;
        assert ([s[0]] + rest)[1..] == rest;
      } else {
        assert Filter(keep, s) == rest;
        SkipHead(rest, s);
      }
    }
  }

  /** Dropping the head of the longer sequence keeps the subsequence relation. */
  lemma {:induction false} SkipHead<T>(a: seq<T>, b: seq<T>)
    requires |b| > 0
    requires IsSubsequence(a, b[1..])
    ensures IsSubsequence(a, b)
    decreases |b|, 0
  {
    if a != [] && a[0] == b[0] {
      // a[1..] is a subsequence of b[1..] because a is
      SubsequenceTail(a, b[1..]);
    }
  }

  /** The tail of a subsequence is still a subsequence. */
  lemma {:induction false} SubsequenceTail<T>(a: seq<T>, b: seq<T>)
    requires |a| > 0
    requires IsSubsequence(a, b)
    ensures IsSubsequence(a[1..], b)
    decreases |b|, 1
  {
    assert b != [];
    if a[0] == b[0] {
      SkipHead(a[1..], b);
    } else {
      SubsequenceTail(a, b[1..]);
      SkipHead(a[1..], b);
    }
  }

  /** Number of elements of `s` satisfying `p`: `sum(1 for x in s if p(x))`. */
  function CountWhere<T(!new)>(p: T -> bool, s: seq<T>): (n: nat)
    ensures n <= |s|
    decreases |s|
  {
    if s == [] then 0
    else (if p(s[0]) then 1 else 0) + CountWhere(p, s[1..])
  }

  /** Counting is the length of the filtered list. */
  lemma {:induction false} CountWhereFilter<T(!new)>(p: T -> bool, s: seq<T>)
    ensures CountWhere(p, s) == |Filter(p, s)|
    decreases |s|
  {
    if s != [] {
      CountWhereFilter(p, s[1..]);
    }
  }

  /** Counting a prefix one element further. */
  lemma {:induction false} CountWhereSnoc<T(!new)>(p: T -> bool, s: seq<T>, i: nat)
    requires i < |s|
    ensures CountWhere(p, s[..i + 1]) == CountWhere(p, s[..i]) + (if p(s[i]) then 1 else 0)
    decreases i
  {
    if i > 0 {
      assert s[..i + 1][1..] == s[1..][..i];
      assert s[..i][1..] == s[1..][..i - 1];
      CountWhereSnoc(p, s[1..], i - 1);
    }
  }

  /** Counting distributes over concatenation. */
  lemma {:induction false} CountWhereConcat<T(!new)>(p: T -> bool, a: seq<T>, b: seq<T>)
    ensures CountWhere(p, a + b) == CountWhere(p, a) + CountWhere(p, b)
    decreases |a|
  {
    if a == [] {
      assert a + b == b;
    } else {
      assert (a + b)[1..] == a[1..] + b;
      CountWhereConcat(p, a[1..], b);
    }
  }

  /** Every element satisfies `p` exactly when all of them are counted. */
  lemma {:induction false} CountWhereAll<T(!new)>(p: T -> bool, s: seq<T>)
    ensures CountWhere(p, s) == |s| <==> forall i :: 0 <= i < |s| ==> p(s[i])
    decreases |s|
  {
    if s != [] {
      CountWhereAll(p, s[1..]);
      assert forall i :: 1 <= i < |s| ==> s[i] == s[1..][i - 1];
    }
  }

  /** `any(p(x) for x in s)`: the first-hit loop that returns true on a match. */
  function Any<T>(p: T -> bool, s: seq<T>): (r: bool)
    ensures r <==> exists i | 0 <= i < |s| :: p(s[i])
    decreases |s|
  {
    if s == [] then false
    else if p(s[0]) then true
    else
      var r := Any(p, s[1..]);
      assert forall i | 1 <= i < |s| :: s[i] == s[1..][i - 1];
      r
  }

  /** No element occurs twice. */
  predicate Distinct<T(==)>(s: seq<T>) {
    forall i, j :: 0 <= i < j < |s| ==> s[i] != s[j]
  }

  /** First occurrences only, in order: Python's `list(dict.fromkeys(s))`. */
  function Dedup<T(==,!new)>(s: seq<T>): (r: seq<T>)
    ensures Distinct(r)
    ensures forall x :: x in r <==> x in s
    decreases |s|
  {
    if s == [] then []
    else
      var rest := Dedup(s[1..]);
      if s[0] in s[1..] then rest
      else
        assert s[0] !in rest;
        [s[0]] + rest
  }

  /** `s[:n]` in Python: the first `n` elements, or all of them when there are fewer. */
  function Take<T>(s: seq<T>, n: nat): (r: seq<T>)
    ensures |r| == if n < |s| then n else |s|
    ensures r <= s
  {
    if n < |s| then s[..n] else s
  }

  /** `s[n:]` in Python: all but the first `n` elements. */
  function Drop<T>(s: seq<T>, n: nat): (r: seq<T>)
    ensures |r| == if n < |s| then |s| - n else 0
    ensures forall i :: 0 <= i < |r| ==> r[i] == s[n + i]
  {
    if n < |s| then s[n..] else []
  }

  /** A sequence without repetitions has as many elements as its set of elements. */
  lemma {:induction false} DistinctCardinality<T>(s: seq<T>)
    requires Distinct(s)
    ensures |set x | x in s| == |s|
  {
    if s != [] {
      var tail := s[1..];
      assert Distinct(tail) by {
        forall i, j | 0 <= i < j < |tail| ensures tail[i] != tail[j] {
          assert tail[i] == s[i + 1] && tail[j] == s[j + 1];
        }
      }
      DistinctCardinality(tail);
      assert s[0] !in tail by {
        forall i | 0 <= i < |tail| ensures tail[i] != s[0] {
          assert tail[i] == s[i + 1];
        }
      }
      assert (set x | x in s) == (set x | x in tail) + {s[0]} by {
        forall x ensures x in s <==> x in tail || x == s[0] {
          if x in s && x != s[0] {
            var i :| 0 <= i < |s| && s[i] == x;
            assert tail[i - 1] == x;
          }
        }
      }
    }
  }

  /** Filtering a sequence without repetitions keeps it without repetitions. */
  lemma {:induction false} FilterDistinct<T(!new)>(keep: T -> bool, s: seq<T>)
    requires Distinct(s)
    ensures Distinct(Filter(keep, s))
    decreases |s|
  {
    if s != [] {
      var tail := s[1..];
      assert Distinct(tail) by {
        forall i, j | 0 <= i < j < |tail| ensures tail[i] != tail[j] {
          assert tail[i] == s[i + 1] && tail[j] == s[j + 1];
        }
      }
      FilterDistinct(keep, tail);
      var rest := Filter(keep, tail);
      if keep(s[0]) {
        assert s[0] !in tail by {
          forall i | 0 <= i < |tail| ensures tail[i] != s[0] {
            assert tail[i] == s[i + 1];
          }
        }
        assert s[0] !in rest;
        var f := [s[0]] + rest;
        assert Filter(keep, s) == f;
        forall i, j | 0 <= i < j < |f| ensures f[i] != f[j] {
          if i == 0 {
            assert f[j] == rest[j - 1];
            assert f[j] in rest;
          } else {
            assert f[i] == rest[i - 1] && f[j] == rest[j - 1];
          }
        }
      }
    }
  }
}

=== FILE: text.dfy ===
/** String primitives of Python's `str` used by the modelled code: `in`, `startswith`,
    `lower`, `split`, `join` and `rsplit(sep, 1)`. */
module Text {

  /** `s[i:i+len(p)] == p`. */
  predicate OccursAt(s: string, p: string, i: nat) {
    i + |p| <= |s| && s[i..i + |p|] == p
  }

  /** Python's substring test `p in s`. */
  predicate Contains(s: string, p: string) {
    exists i: nat | i <= |s| :: OccursAt(s, p, i)
  }

  /** Python's `s.startswith(p)`. */
  predicate StartsWith(s: string, p: string) {
    |p| <= |s| && s[..|p|] == p
  }

  /** An occurrence inside a suffix is an occurrence in the whole string. */
  lemma ContainsSuffix(s: string, p: string, k: nat)
    requires k <= |s|
    requires Contains(s[k..], p)
    ensures Contains(s, p)
  {
    var i: nat :| i <= |s[k..]| && OccursAt(s[k..], p, i);
    assert s[k..][i..i + |p|] == s[k + i..k + i + |p|];
    assert OccursAt(s, p, k + i);
  }

  /** Every string containing `p + q` contains `p`. */
  lemma ContainsPrefixOfPattern(s: string, p: string, q: string)
    requires Contains(s, p + q)
    ensures Contains(s, p)
  {
    var i: nat :| i <= |s| && OccursAt(s, p + q, i);
    assert s[i..i + |p|] == (p + q)[..|p|];
    assert OccursAt(s, p, i);
  }

  /** Lower-cases the ASCII letters `A`..`Z` and leaves every other character alone. */
  function LowerChar(c: char): (r: char)
    ensures 'A' <= c <= 'Z' ==> 'a' <= r <= 'z'
    ensures !('A' <= c <= 'Z') ==> r == c
  {
    if 'A' <= c <= 'Z' then (c as int + 32) as char else c
  }

  /** Python's `s.lower()` restricted to ASCII letters. */
  function Lower(s: string): (r: string)
    ensures |r| == |s|
    ensures forall i :: 0 <= i < |s| ==> r[i] == LowerChar(s[i])
  {
    seq(|s|, i requires 0 <= i < |s| => LowerChar(s[i]))
  }

  /** Lower-casing twice is the same as lower-casing once. */
  lemma LowerIdempotent(s: string)
    ensures Lower(Lower(s)) == Lower(s)
  {
  }

  /** Python's `s.split(sep)` for a one-character separator: always at least one part. */
  function Split(s: string, sep: char): (parts: seq<string>)
    ensures |parts| >= 1
    ensures forall i :: 0 <= i < |parts| ==> sep !in parts[i]
    decreases |s|
  {
    if |s| == 0 then [""]
    else
      var rest := Split(s[1..], sep);
      if s[0] == sep then [""] + rest
      else [[s[0]] + rest[0]] + rest[1..]
  }

  /** Python's `sep.join(parts)` for a one-character separator. */
  function Join(parts: seq<string>, sep: char): string
    decreases |parts|
  {
    if |parts| == 0 then ""
    else if |parts| == 1 then parts[0]
    else parts[0] + [sep] + Join(parts[1..], sep)
  }

  /** Joining the parts of a split gives back the original string. */
  lemma {:induction false} JoinSplit(s: string, sep: char)
    ensures Join(Split(s, sep), sep) == s
    decreases |s|
  {
    if |s| > 0 {
      var rest := Split(s[1..], sep);
      JoinSplit(s[1..], sep);
      if s[0] == sep {
        assert Split(s, sep) == [""] + rest;
        assert ([""] + rest)[1..] == rest;
      } else {
        var parts := Split(s, sep);
        assert parts == [[s[0]] + rest[0]] + rest[1..];
        if |rest| == 1 {
          assert Join(parts, sep) == [s[0]] + rest[0];
        } else {
          assert parts[1..] == rest[1..];
          assert Join(rest, sep) == rest[0] + [sep] + Join(rest[1..], sep);
          assert Join(parts, sep) == [s[0]] + rest[0] + [sep] + Join(rest[1..], sep);
        }
      }
    }
  }

  /** Position of the first occurrence of `c`. */
  function FirstIndex(s: string, c: char): (r: nat)
    requires c in s
    ensures r < |s| && s[r] == c && c !in s[..r]
    decreases |s|
  {
    if s[0] == c then 0
    else
      assert c in s[1..];
      var k := FirstIndex(s[1..], c);
      assert s[..k + 1] == [s[0]] + s[1..][..k];
      1 + k
  }

  /** Position of the last occurrence of `c`. */
  function LastIndex(s: string, c: char): (r: nat)
    requires c in s
    ensures r < |s| && s[r] == c && c !in s[r + 1..]
    decreases |s|
  {
    if s[|s| - 1] == c then |s| - 1
    else
      var init := s[..|s| - 1];
      assert c in init by {
        var j :| 0 <= j < |s| && s[j] == c;
        assert j < |s| - 1 && init[j] == c;
      }
      var k := LastIndex(init, c);
      assert s[k + 1..] == init[k + 1..] + [s[|s| - 1]];
      k
  }

  /** A split yields more than one part exactly when the separator occurs; the first part
      is then everything before the first separator and the remaining parts join back to
      everything after it. */
  lemma {:induction false} SplitAtFirst(s: string, sep: char)
    ensures |Split(s, sep)| > 1 <==> sep in s
    ensures sep in s ==> Split(s, sep)[0] == s[..FirstIndex(s, sep)]
    ensures sep in s ==> Join(Split(s, sep)[1..], sep) == s[FirstIndex(s, sep) + 1..]
    decreases |s|
  {
    if |s| > 0 {
      var rest := Split(s[1..], sep);
      SplitAtFirst(s[1..], sep);
      if s[0] == sep {
        assert Split(s, sep) == [""] + rest;
        assert ([""] + rest)[1..] == rest;
        JoinSplit(s[1..], sep);
      } else {
        assert Split(s, sep) == [[s[0]] + rest[0]] + rest[1..];
        assert sep in s <==> sep in s[1..];
        if sep in s {
          var k := FirstIndex(s[1..], sep);
          assert FirstIndex(s, sep) == k + 1;
          assert s[..k + 1] == [s[0]] + s[1..][..k];
          assert s[k + 2..] == s[1..][k + 1..];
        }
      }
    }
  }

  /** Python's `sep.join(parts)` for a separator string. */
  function JoinStrings(parts: seq<string>, sep: string): string
    decreases |parts|
  {
    if |parts| == 0 then ""
    else if |parts| == 1 then parts[0]
    else parts[0] + sep + JoinStrings(parts[1..], sep)
  }

  /** Joining one more part appends the separator and that part. */
  lemma {:induction false} JoinStringsSnoc(parts: seq<string>, x: string, sep: string)
    requires parts != []
    ensures JoinStrings(parts + [x], sep) == JoinStrings(parts, sep) + sep + x
    decreases |parts|
  {
    if |parts| == 1 {
      assert (parts + [x])[1..] == [x];
    } else {
      assert (parts + [x])[1..] == parts[1..] + [x];
      JoinStringsSnoc(parts[1..], x, sep);
    }
  }
}

=== FILE: wrappers.dfy ===
/** Failure-compatible wrappers shared by every module of the model. */
module Wrappers {

  /** A value that may be missing: Python's `None` versus a present value. */
  datatype Option<+T> = None | Some(value: T) {

    /** The present value, or `default` when missing (Python's `d.get(k, default)`). */
    function GetOr(default: T): (r: T)
      ensures Some? ==> r == value
      ensures None? ==> r == default
    {
      match this
      case Some(v) => v
      case None => default
    }
  }

  /** Either a computed value or the error an operation raised. */
  datatype Result<+R, +E> = Success(value: R) | Failure(error: E)
}
